=== FILE: README.md ===
# Insight Engine of the AI expense tracker, in Dafny

This project models the analytical core of the expense tracker's backend:

- the anomaly detectors, which score daily expense totals, per-category daily totals and single transactions by z-score;
- the daily plot series and the explanation of one anomalous date;
- the spending feature vector and the rule-based and fitted segmentations;
- the question-answering pipeline. That covers month extraction from free text, the stored monthly summary with its upsert, the retrieved context with its numeric summary line, the rule-based answerer, and the router that picks a branch for a question;
- the older, purely rule-based router and its own summary builder.

The store is an immutable snapshot `Records.Db` holding users, categories, transactions, budgets and monthly summaries. Every SQL query becomes a function over that snapshot. Three outside services become parameters:

- the square root, `sqrt: real -> real`;
- the language model, a reply oracle;
- the clustering library, an assignment oracle.

Python exceptions that escape to the caller become an `Err` or a `None`.

Modules follow the program's structure:

| module | file | holds |
|---|---|---|
| `Common` | common.dfy | Option/Result, sums, filters, grouping, stable sorting |
| `Text` | text.dfy | lower-casing, strip, split, splitlines, join, `:.2f` formatting |
| `Calendar` | calendar.dfy | proleptic Gregorian dates, weekdays, ISO parsing |
| `Records` | records.dfy | the store, the category join, month and date helpers |
| `Stats` | stats.dfy | mean, sample variance, z-scores, Samuelson's bound |
| `Anomaly` | anomaly.dfy | the three detectors, the plot series, the date explanation |
| `Features` | features.dfy | `build_spending_feature_vector` |
| `Segments` | segment.dfy | rule-based segmentation, feature collection, global clustering |
| `Months` | months.dfy | the month and date patterns of the question parsers |
| `Summary` | summary.dfy | `build_monthly_summary` with its upsert |
| `Answer` | answer.dfy | `retrieve_context`, `generate_answer_rule_based` |
| `Router` | router.dfy | `describe_segment_change`, `answer_question` of the live router |
| `LegacyRouter` | legacy_router.dfy | `answer_question` of the older rule-based router |

In `rag.py`, `_extract_months_from_question` is defined twice. The later definition, at line 1263, rebinds the name, so it is the one the live code calls. `Months.ExtractMonths` models that one.

## Model

| member | source | states |
|---|---|---|
| Records.MonthOf | Backend/backend/rag.py:1016-1018 | the month of a date is its first seven characters, or the whole date when it is shorter |
| Records.LatestMonth | Backend/backend/rag.py:1034-1042 | the latest month is the month of a non-empty date of the user that no other of the user's dates exceeds; there is none exactly when every date of the user is empty |
| Records.Joined | Backend/ai_expense_tracker/backend/anomaly.py:33 | every joined row pairs a transaction of the input with the category whose primary key is the transaction's category id |
| Records.JoinedComplete | Backend/ai_expense_tracker/backend/anomaly.py:33 | no transaction whose category exists is lost: each one appears in some joined row |
| Records.DailyTotals | Backend/ai_expense_tracker/backend/anomaly.py:28-40 | one entry per distinct date, dates strictly ascending, each total the sum of that date's amounts |
| Records.DailyTotalsConserveSum | Backend/ai_expense_tracker/backend/anomaly.py:28-40 | grouping by date loses no money: the day totals add up to the rows' total |
| Records.MaxDate | Backend/backend/rag.py:1035-1039 | `max(transaction_date)` is one of the dates and no date exceeds it |
| Stats.Variance | Backend/ai_expense_tracker/backend/anomaly.py:59-64 | the sample variance times n − 1 is the sum of squared deviations from the mean |
| Stats.StdDev | Backend/ai_expense_tracker/backend/anomaly.py:59-64 | one value has spread 0; otherwise the spread is a non-negative square root of the variance |
| Stats.ZScore | Backend/ai_expense_tracker/backend/anomaly.py:69-72 | with a positive spread the z-score times the spread is the deviation; otherwise it is 0 |
| Stats.Analyze | Backend/ai_expense_tracker/backend/anomaly.py:53-82 | the scores keep the values in order, and each is flagged exactly when its absolute z-score reaches the threshold |
| Stats.FlatSeriesFlagsNothing | Backend/ai_expense_tracker/backend/anomaly.py:69-74 | with zero spread and a positive threshold nothing is flagged |
| Stats.DeviationsSumToZero | Backend/ai_expense_tracker/backend/anomaly.py:57 | the deviations from the mean sum to zero |
| Stats.Samuelson | Backend/ai_expense_tracker/backend/anomaly.py:57-74 | every z-score of n values satisfies n·z² ≤ (n − 1)² |
| Stats.NoAnomalyInShortSeries | Backend/ai_expense_tracker/backend/anomaly.py:57-74 | with the default threshold 2, a series of at most five values has no anomaly |
| Stats.FlaggedIffFarFromMean | Backend/ai_expense_tracker/backend/anomaly.py:69-74 | with a positive spread a value is flagged exactly when it lies at least threshold × spread from the mean |
| Anomaly.DetectDailyAnomalies | Backend/ai_expense_tracker/backend/anomaly.py:12-91 | one point per day with expenses, in ascending date order, each carrying that day's total; no points exactly when the month has no expense rows |
| Anomaly.DailyAnomaliesScored | Backend/ai_expense_tracker/backend/anomaly.py:53-82 | the report's mean, spread, z-scores and flags are those of its day totals |
| Anomaly.DailyTotalsAddUp | Backend/ai_expense_tracker/backend/anomaly.py:27-40 | the day totals add up to the month's expense total |
| Anomaly.DailyFlagIffFar | Backend/ai_expense_tracker/backend/anomaly.py:66-82 | a day is flagged exactly when its total lies at least threshold × spread from the mean |
| Anomaly.ShortMonthHasNoAnomaly | Backend/ai_expense_tracker/backend/anomaly.py:56-82 | with the default threshold, a month with at most five expense days flags no day |
| Anomaly.DetectDailyAnomaliesByCategory | Backend/ai_expense_tracker/backend/anomaly.py:93-164 | the same per-day report restricted to one category name, tagged `category=<name>` |
| Anomaly.CategoryAnomaliesScored | Backend/ai_expense_tracker/backend/anomaly.py:130-154 | the category report is scored like the daily one |
| Anomaly.CategoryDaysAreDays | Backend/ai_expense_tracker/backend/anomaly.py:104-117 | every day of a category report is a day of the whole report |
| Anomaly.SortByDateId | Backend/ai_expense_tracker/backend/anomaly.py:187 | the rows come out as a permutation of the input, ordered by date and then id |
| Anomaly.DetectTransactionAnomalies | Backend/ai_expense_tracker/backend/anomaly.py:166-237 | one point per expense row of the month, as a permutation ordered by (date, id), each valued at its amount and scored |
| Anomaly.TransactionsMatchDays | Backend/ai_expense_tracker/backend/anomaly.py:166-237 | the transaction amounts add up to the same total as the daily report |
| Anomaly.PlotOf | Backend/ai_expense_tracker/backend/anomaly.py:331-367 | the points are the day totals; the upper band is mean + k·std; the lower band is max(0, mean − k·std); an empty month gives zeros |
| Anomaly.BuildDailyPlotSeries | Backend/ai_expense_tracker/backend/anomaly.py:307-367 | the plot series is built from the daily report with the same k as threshold |
| Anomaly.UpperBandFlags | Backend/ai_expense_tracker/backend/anomaly.py:351-352 | a day at or above the upper band is flagged by the detector, and a flagged day lies outside the open band |
| Anomaly.DayRows | Backend/ai_expense_tracker/backend/anomaly.py:418-431 | the day's expense rows as a permutation ordered by amount, largest first |
| Anomaly.CategoryBreakdown | Backend/ai_expense_tracker/backend/anomaly.py:440-449 | the per-category sums of the day, largest first, as a permutation of the grouped sums |
| Anomaly.OnePointPerDate | Backend/ai_expense_tracker/backend/anomaly.py:384-388 | a date appears at most once in the report, so stopping at the first match finds the only one |
| Anomaly.Classify | Backend/ai_expense_tracker/backend/anomaly.py:390-438 | each outcome kind holds exactly when its condition does: no data, no such date, not flagged, flagged |
| Anomaly.ExplainAnomalousDate | Backend/ai_expense_tracker/backend/anomaly.py:369-467 | the kind tag is decided by the daily report of the date's month exactly as the branches say (the texts of each kind are stated by the four lemmas below) |
| Anomaly.AbsentDateExplained | Backend/ai_expense_tracker/backend/anomaly.py:390-401 | without month data, or for a date not among the days, the text is the matching no-data sentence naming the user, month and date |
| Anomaly.NotAnomalyExplained | Backend/ai_expense_tracker/backend/anomaly.py:403-415 | an unflagged day's text quotes its total, the month's mean, its z-score and the threshold |
| Anomaly.NoTxRowsExplained | Backend/ai_expense_tracker/backend/anomaly.py:433-438 | a flagged day without rows gets the text saying no transactions were found, with its z-score |
| Anomaly.AnomalyExplained | Backend/ai_expense_tracker/backend/anomaly.py:440-467 | a flagged day's text quotes its total, the mean, its z-score, the threshold, the category breakdown and the largest rows |
| Anomaly.AnomalyDetails | Backend/ai_expense_tracker/backend/anomaly.py:418-458 | the quoted breakdown lists the per-category sums largest first; the quoted rows are the day's first three by amount, largest first, and no row left out exceeds one quoted |
| Anomaly.NoTxRowsUnreachable | Backend/ai_expense_tracker/backend/anomaly.py:433-438 | the `anomaly_no_tx_rows` outcome cannot happen: a scored day always has rows |
| Anomaly.BreakdownAddsUpToDayTotal | Backend/ai_expense_tracker/backend/anomaly.py:440-449 | the category breakdown of a scored day adds up to that day's total |
| Calendar.IsWeekend | Backend/backend/cluster.py:122-132 | parsing fails exactly when both formats fail; a string not of the `YYYY-MM-DD` shape fails with `fromisoformat`'s message quoting the input, and a well-shaped string naming no date fails with the `datetime` constructor's range message; otherwise the answer is weekday ≥ 5 of the parsed date |
| Calendar.ImpossibleDateMessage | Backend/backend/cluster.py:127-131 | "2024-02-30" fails with "day is out of range for month", not with the format message |
| Calendar.IsoFallbackRedundant | Backend/backend/cluster.py:127-131 | within the modelled `YYYY-MM-DD` form, the ISO fallback accepts nothing the strict format rejects, and it reads the same date |
| Calendar.NextDayWeekday | Backend/backend/cluster.py:132 | the weekday advances by one modulo 7 from each day to the next |
| Calendar.KnownSaturday | Backend/backend/cluster.py:132 | 2024-01-06 is a Saturday (weekday 5), which anchors the weekday numbering |
| Calendar.ParseFormatIso | Backend/backend/cluster.py:128-131 | formatting a valid date as YYYY-MM-DD and parsing it back, either way, returns the date |
| Features.Shares | Backend/backend/cluster.py:167-173 | each ratio is the category total over the grand total, or 0 when the grand total is not positive |
| Features.SharesSumToOne | Backend/backend/cluster.py:167-173 | with a positive grand total the ratios sum to 1 |
| Features.DailyStd | Backend/backend/cluster.py:187-211 | at most one expense day gives 0; otherwise a square root of the day totals' sample variance |
| Features.WeekendSplit | Backend/backend/cluster.py:229-234 | fails exactly when some date does not parse; otherwise the two sums are the weekend and weekday amounts |
| Features.WeekendRatio | Backend/backend/cluster.py:236-240 | the ratio is in [0, 1] for non-negative parts, and it is the weekend share of a positive total |
| Features.WeekendPartition | Backend/backend/cluster.py:229-236 | weekend plus weekday amounts make up the whole expense total |
| Features.FeatureVector | Backend/backend/cluster.py:242-254 | the vector is the totals, then the ratios, then count, spread and weekend ratio |
| Features.ToDict | Backend/backend/cluster.py:164 | the dict's keys are the names; when equal names carry equal values, each name maps to its value |
| Features.DictsMatchVector | Backend/backend/cluster.py:242-259 | the totals and ratios dicts agree with the vector's first two blocks |
| Features.BuildSpendingFeatureVector | Backend/backend/cluster.py:135-265 | fails exactly when some expense date does not parse; otherwise the features are laid out from all category names, their month totals, the count, the daily spread and the weekend ratio |
| Features.RatioBlockSumsToOne | Backend/backend/cluster.py:167-173 | with a positive grand total the ratio block of the vector sums to 1 |
| Features.GrandTotalIsMonthTotal | Backend/backend/cluster.py:150-165 | the grand total is the sum over the listed names, and with distinct names it is the month's expense total |
| Features.WeekendShareInUnitRange | Backend/backend/cluster.py:213-240 | for non-negative amounts the weekend ratio lies in [0, 1] |
| Segments.ClusterUserProfile | Backend/backend/cluster.py:323-367 | inactive exactly when the grand total is 0; `<name>-heavy` exactly when some ratio reaches 0.7, naming the first largest ratio; otherwise the total's band; the centroid is the vector |
| Segments.SpendingUsers | Backend/backend/cluster.py:376-385 | distinct ids, exactly the users with an expense row in the month |
| Segments.CollectAllUserFeatures | Backend/backend/cluster.py:369-391 | succeeds exactly when every spending user's features build; pairs each user, in order, with its features |
| Segments.RuleBasedAllAt | Backend/backend/cluster.py:407-409 | each user's entry in the rule-based map is the segment of that user's features |
| Segments.GlobalClusters | Backend/backend/cluster.py:394-460 | without the library it fails; otherwise it succeeds exactly when collection does and the library accepts the cluster count for two or more users (at least one cluster, no more clusters than users), and labels the collected users |
| Segments.DefaultClustersNeedFourUsers | Backend/backend/cluster.py:394-396 | with the default four clusters the call succeeds exactly for one user, no user, or four and more |
| Segments.GlobalClustersCoverSpenders | Backend/backend/cluster.py:404-427 | only spending users are labelled, and all of them when the fit labels every row |
| Segments.GlobalClusterLabels | Backend/backend/cluster.py:405-425 | two or more users get fitted labels `<Method>-Cluster-<id>`; a single user gets the rule-based segment |
| Segments.GlobalClusterOfUser | Backend/backend/cluster.py:419-425 | with two or more users, each user's label is the fitted label of its row |
| Segments.ClusterNameRoundTrip | Backend/backend/cluster.py:423 | the cluster id can be read back from the digits after the label prefix |
| Summary.NetSavings | Backend/backend/rag.py:1157-1158 | net savings never exceed income, and equal income minus the magnitude of the spending |
| Summary.SpendByCategory | Backend/backend/rag.py:1160-1170 | one group per distinct (category id, name) of the month's expense rows, each with the sum of its amounts |
| Summary.TopCategories | Backend/backend/rag.py:1160-1173 | at most three groups, a sub-multiset of the month's groups, in non-increasing order of total |
| Summary.TopCategoriesLargest | Backend/backend/rag.py:1170-1171 | no group left out of the top list exceeds one in it; with at most three groups all are listed |
| Summary.CategorySumsAddUp | Backend/backend/rag.py:1139-1173 | the category totals add up to the month's total spent |
| Summary.BudgetRowsOf | Backend/backend/rag.py:1188-1196 | exactly the user's budgets of the month that join a category, each with that category |
| Summary.OverspentIff | Backend/backend/rag.py:1181-1204 | a (name, budget) pair is listed exactly when the budget exists and its spending exceeds it, with the spending as actual |
| Summary.TopText | Backend/backend/rag.py:1175-1179 | the placeholder exactly when there are no top categories |
| Summary.OverText | Backend/backend/rag.py:1206-1214 | the placeholder for no overspending; a single entry printed alone |
| Summary.SummaryLinesRoundTrip | Backend/backend/rag.py:1216-1224 | splitting the joined summary text into lines gives back the six lines |
| Summary.BudgetLineAlwaysFound | Backend/backend/rulebased_rag.py:127-135 | every summary text has a line mentioning the budget status |
| Summary.BudgetLineIsLast | Backend/backend/rulebased_rag.py:127-135 | with single-line month and list texts, the first budget line is the last line of the text |
| Summary.FindSummary | Backend/backend/rag.py:1226-1233 | finds a stored row with the user and month, and none exactly when no such row exists |
| Summary.UpsertFinds | Backend/backend/rag.py:1237-1252 | after the upsert the row is found under its key, other keys are unaffected, and the table grows only for a new key |
| Summary.UpsertIdempotent | Backend/backend/rag.py:1237-1252 | upserting the same row twice is the same as once |
| Summary.UpsertKeepsKeysUnique | Backend/backend/rag.py:1237-1252 | at most one row per (user, month) is kept, and exactly one for the upserted key |
| Summary.BuildMonthlySummary | Backend/backend/rag.py:1133-1256 | the row holds the month's expense and income totals and a text headed `Summary for <month>:` that is the month's summary text; it is upserted into the summaries table and found afterwards, and the other tables are unchanged |
| Summary.BuildKeepsOtherSummaries | Backend/backend/rag.py:1237-1256 | on a table with one row per key, the built row becomes the only row for its (user, month), and every other (user, month) keeps its row and its row count |
| Months.ExtractFullDate | Backend/backend/rag.py:1026-1031 | the first YYYY-MM-DD window of the question, if any |
| Months.MatchAt | Backend/backend/rag.py:1278-1320 | a match starts and ends at word edges and yields a normalised YYYY-MM: as written, swapped from MM-YYYY, or the year with the name's month number |
| Months.NoMatchInside | Backend/backend/rag.py:1278-1320 | no match of the same pattern starts inside another, so resuming after a match skips nothing |
| Months.FindAllComplete | Backend/backend/rag.py:1278 | scanning from a position finds every match at or after it |
| Months.ExtractMonths | Backend/backend/rag.py:1263-1325 | distinct, YYYY-MM-shaped months, each produced by some pattern match in the lower-cased question |
| Months.ExtractMonthsComplete | Backend/backend/rag.py:1263-1325 | every month any pattern matches in the question is extracted |
| Months.MonthYearNormalised | Backend/backend/rag.py:1283-1287 | an MM-YYYY mention yields YYYY-MM |
| Months.ExtractMonthsOrder | Backend/backend/rag.py:1263-1325 | the months are the de-duplicated concatenation of the YYYY-MM matches, the MM-YYYY matches and the matches of each month name in table order, each scanned left to right |
| Months.YearMonthFormFirst | Backend/backend/rag.py:1276-1281 | a month written YYYY-MM precedes every month named only in the other forms |
| Months.NumericFormsBeforeNames | Backend/backend/rag.py:1283-1322 | a month written with digits precedes every month named only by a month name |
| Months.FirstYearMonthFirst | Backend/backend/rag.py:1277-1281 | the first YYYY-MM match of the question heads the list |
| Months.ExtractMonth | Backend/backend/rag.py:1327-1347 | the first extracted month if any, else the latest month with data, with the matching note; none exactly when neither exists |
| Months.ExtractMonthLegacy | Backend/backend/rulebased_rag.py:171-189 | the first YYYY-MM window if any, else the latest month; none exactly when neither exists |
| Months.RoutersAgreeOnLeadingMonth | Backend/backend/rulebased_rag.py:181-183 | when the first month-shaped window is a word-bounded YYYY-MM, both routers pick the same month |
| Answer.UserDisplayName | Backend/backend/rag.py:1065-1073 | the name if set; else the e-mail's part before the first `@`, the whole e-mail when it has none; else `User <id>` |
| Answer.NumericSummaryRoundTrip | Backend/backend/rag.py:1389-1395 | reading the spent, income and net fields back out of the numeric summary gives the formatted totals |
| Answer.NamesByTotal | Backend/backend/rag.py:1361-1373 | a permutation of the groups' (name, total) rows, largest total first |
| Answer.TopRowIsLargest | Backend/backend/rag.py:1371 | the first top row has the largest total of all groups |
| Answer.LinesByDate | Backend/backend/rag.py:1375-1386 | a permutation of the rows' lines, in non-decreasing date order |
| Answer.TxLines | Backend/backend/rag.py:1375-1386 | a permutation of the lines of the month's transactions (any kind), in date order |
| Answer.RetrieveContext | Backend/backend/rag.py:1350-1407 | no context exactly when there is no month or no user; otherwise the context's month, numeric summary, stored summary text, top rows and lines are those of the store, and only the summaries table changes |
| Answer.FirstKeyword | Backend/backend/rag.py:1513-1519 | the first listed keyword the question contains, or none when it contains none |
| Answer.IntentOf | Backend/backend/rag.py:1510-1569 | each intent exactly when every earlier test fails and its own holds, in the order item keyword (naming the first listed), how much ∧ spend, income, saving/savings/net, top ∧ category, summary/overview, else the help text |
| Answer.GenerateAnswerRuleBased | Backend/backend/rag.py:1509-1569 | raises exactly when the spent, income or net intent meets a summary lacking a field marker it splits on; the item total is the found text when the keyword total is positive, else the did-not-find text; the top-category, overview and help intents give their texts |
| Answer.RetrievedAnswerExists | Backend/backend/rag.py:1535-1553 | on a retrieved context the rule-based answerer never raises |
| Answer.AnswersQuoteTotals | Backend/backend/rag.py:1535-1553 | the spent, income and net answers quote the formatted totals the numeric summary was built from |
| Answer.RetrievedAnswersQuoteTotals | Backend/backend/rag.py:1535-1553 | on a retrieved context those answers quote the store's month totals |
| Answer.KeywordTotalIsMonthSum | Backend/backend/rag.py:1518-1528 | the keyword total over the lines is the sum of the month's amounts whose description contains the keyword |
| Answer.RetrievedTopAnswer | Backend/backend/rag.py:1555-1559 | the top-category answer names a group whose total no other group exceeds, or says there are none |
| Answer.RetrievedOverview | Backend/backend/rag.py:1561-1562 | the overview answer is the stored summary text, which starts with the month heading |
| Router.IsCrossUserQuestion | Backend/backend/rag.py:1045-1062 | true exactly when the lower-cased question contains one of the listed phrases |
| Router.CrossUserIgnoresCase | Backend/backend/rag.py:1050 | the guard gives the same verdict for a question and its lower-cased form |
| Router.GreetsWith | Backend/backend/rag.py:1590-1595 | a greeting exactly when the text is a greeting word or starts with one followed by a space |
| Router.DominantName | Backend/backend/rag.py:1092-1101 | the first category in dict order with the largest ratio when that ratio is positive, else none |
| Router.DescribeSegmentChange | Backend/backend/rag.py:1076-1126 | succeeds exactly when both months' features build |
| Router.ChangeVerdict | Backend/backend/rag.py:1121-1126 | the text ends with the changed sentence exactly when the label or dominant category differs, and with the similar sentence otherwise |
| Router.SameMonthIsSimilar | Backend/backend/rag.py:1076-1126 | comparing a month with itself reports a similar pattern |
| Router.LargestShare | Backend/backend/rag.py:1660-1663 | the first category in dict order with the largest ratio, none exactly when there are no categories |
| Router.RouteFor | Backend/backend/rag.py:1597-1646 | each branch is taken exactly when every earlier one fails and its own test holds: greeting, privacy guard, comparison of the first two months, explanation of the named date, segment, else retrieval |
| Router.RouteOf | Backend/backend/rag.py:1584-1646 | greeting and privacy guard exactly when their tests hold; comparison with the first two extracted months, explanation with the extracted date |
| Router.RouteOfChoice | Backend/backend/rag.py:1597-1646 | on the question itself: comparison, explanation, segment and retrieval each chosen exactly when the earlier tests fail and its own holds |
| Router.CompareAnswer | Backend/backend/rag.py:1628-1633 | succeeds exactly when the comparison does, with its text and the `segment_compare` tag |
| Router.ExplainAnswer | Backend/backend/rag.py:1638-1641 | the explanation's text, tagged with the date and its kind |
| Router.AnswerFrom | Backend/backend/rag.py:1674-1692 | no context gives the no-data reply; a non-empty model reply is used; otherwise the rule-based answer with the model's error in the tag |
| Router.GreetingAnswer | Backend/backend/rag.py:1596-1609 | the greeting by the display name of the user found by id, tagged `greeting_only`, with the store unchanged |
| Router.SegmentAnswer | Backend/backend/rag.py:1646-1652 | the segment answer for the first month the question names, else for the latest month with data |
| Router.SegmentOf | Backend/backend/rag.py:1653-1670 | without a month the no-data reply; otherwise the segment text of that month's features, tagged with the month, or the error of building them |
| Router.AnswerQuestion | Backend/backend/rag.py:1576-1692 | only the retrieval branch writes to the store, and it never changes transactions or users |
| Router.RetrievalAlwaysAnswers | Backend/backend/rag.py:1674-1692 | the retrieval branch never raises |
| Router.ErrorsOnlyFromFeatures | Backend/backend/rag.py:1628-1669 | an escaping error can come only from the two segment branches |
| Router.GuardIgnoresData | Backend/backend/rag.py:1614-1619 | a non-greeting cross-user question gets the fixed refusal whatever the store holds, and nothing is written |
| LegacyRouter.IntentOf | Backend/backend/rulebased_rag.py:211-243 | each intent is chosen exactly when the earlier intents' keywords are absent and its own are present |
| LegacyRouter.AnswerQuestion | Backend/backend/rulebased_rag.py:192-243 | no month gives the no-data reply; otherwise the summary is stored and the tag names the intent |
| LegacyRouter.AnswerContents | Backend/backend/rulebased_rag.py:208-243 | the summary and fallback answers are the stored text; the spent and net answers quote the month totals; the budget answer is a line of the stored text naming the budget status |
| LegacyRouter.BuiltSummaryAnswers | Backend/backend/rulebased_rag.py:211-243 | the placeholders are never used: the text is non-empty and always has a budget line |
| LegacyRouter.BudgetAnswerIsLastLine | Backend/backend/rulebased_rag.py:232-240 | with single-line month and list texts, the budget answer is the `- Budget status:` line |
| LegacyRouter.TotalsAnswers | Backend/backend/rulebased_rag.py:215-230 | the spent and net answers quote the month's totals |
| Text.SplitJoinedLines | Backend/backend/rulebased_rag.py:236 | splitting lines joined by newlines gives them back |
| Text.FirstWith | Backend/backend/rulebased_rag.py:237 | the first line containing the marker, or none exactly when no line does |
| Text.Fmt2 | Backend/backend/rag.py:1392 | `:.2f` gives at least four numeral characters with two decimals, and a minus sign exactly for negatives |

## Left out

- Floating point is modelled as exact `real` arithmetic. `:.2f` rounds half away from zero on the exact value; binary-float ties and representation error are not modelled.
- Square roots, the language model (`build_prompt`, `call_ollama_chat`) and the clustering fits (K-Means, GMM) are parameters. The prompt text and the HTTP call are not modelled.
- Timestamps (`created_at`), commits and refreshes of the session are left out. The snapshot is updated functionally.
- SQL ties are resolved by first-seen order in the store. SQLite does not promise an order for equal sums, for `DISTINCT`, or for the groups of the overspent query, which merges budget rows by (category name, amount).
- `lower()`, `isspace()`, `\d`, `\w` and `\b` are modelled for ASCII plus Python's whitespace set. Unicode case mapping and Unicode digits are not modelled.
- `datetime.fromisoformat` is modelled for the plain `YYYY-MM-DD` form only. Its other accepted forms are not modelled.
- Calendar.IsWeekend: the format error quotes the input between single quotes. `repr`'s switch to double quotes and its escaping of quotes, backslashes and unprintable characters are not modelled. The range messages are those of CPython's C `datetime`; the pure-Python module words them differently. The forms only `fromisoformat` accepts are errors in the model, though the program accepts them. These forms are a date with a time (`2024-05-04T10:00`, `2024-05-04 10:00:00`) and, from Python 3.11, the basic (`20240504`) and week (`2024-W18-6`) forms.
- Calendar.IsoFallbackRedundant: holds for the modelled `YYYY-MM-DD` fallback only. For the forms above, which `strptime` rejects with "unconverted data remains" or a mismatch, the program's fallback does decide the weekend.
- `cluster_user_profile` and `cluster_user_profile_rule_based` have the same body, and `Segments.ClusterUserProfile` models both.
- The code after the `return` in `detect_transaction_anomalies` (Backend/ai_expense_tracker/backend/anomaly.py:240-305) never runs and is not modelled.
- The commented-out earlier versions at the top of `rag.py` and `cluster.py` are not modelled.
- Answer.NumericSummaryRoundTrip: requires a month without `=`. A month containing `=` could shift the field markers, and only the question parser's YYYY-MM months are known to be free of it.
- Answer.RetrievedAnswersQuoteTotals: requires the same `=`-free month, which holds whenever the month comes from the question.
- Answer.TxLines: states date order and the permutation. The tie order by transaction id within a date is not stated, because the lines do not carry the id.
- Summary.BudgetLineIsLast: requires break-free month and list texts. A category name containing a line break would split the summary differently.
- LegacyRouter.BudgetAnswerIsLastLine: the same break-free requirement.
- Router.AnswerQuestion: the branch texts are stated in the branch members (Router.GreetingAnswer, Router.GuardIgnoresData, Router.SegmentOf, Router.CompareAnswer, Router.ExplainAnswer, Router.AnswerFrom), not restated here.
- Segments.GlobalClusters: `random_state` and the fitted centroids come from the assignment oracle. The library's refusal of a cluster count is an `Err`, but its message wording is not modelled.

=== FILE: anomaly.dfy ===
/** The z-score anomaly detectors over one user's expenses in one month: per
    day, per day within one category, per transaction; the daily plot bands;
    and the explanation of one date. Every detector scores its series with
    `Stats.Analyze`; `sqrt` is the platform's square root. */
module Anomaly {
  import opened Common
  import opened Text
  import opened Records
  import opened Stats

  // ---------------------------------------------------------------------
  // Daily detectors

  datatype DailyPoint = DailyPoint(date: string, score: Score)

  /** `scope` is `category=<name>` for the per-category detector. */
  datatype DailyReport = DailyReport(
    userId: int, month: string, mean: real, std: real, threshold: real,
    points: seq<DailyPoint>, scope: Option<string>)

  function PointDates(ps: seq<DailyPoint>): (r: seq<string>)
    ensures |r| == |ps| && forall i :: 0 <= i < |ps| ==> r[i] == ps[i].date
  {
    seq(|ps|, i requires 0 <= i < |ps| => ps[i].date)
  }

  function PointScores(ps: seq<DailyPoint>): (r: seq<Score>)
    ensures |r| == |ps| && forall i :: 0 <= i < |ps| ==> r[i] == ps[i].score
  {
    seq(|ps|, i requires 0 <= i < |ps| => ps[i].score)
  }

  /** The report's mean, spread and scores as one analysis. */
  function StatsOf(r: DailyReport): Analysis
  {
    Analysis(r.mean, r.std, PointScores(r.points))
  }

  /** The day totals of the points. */
  function DayTotals(r: DailyReport): seq<real>
  {
    Values(PointScores(r.points))
  }

  /** One point per distinct date of `rows`, in ascending date order, whose
      value is the sum of that date's amounts. */
  ghost predicate CoversDays(ps: seq<DailyPoint>, rows: seq<Row>)
  {
    Ascending(PointDates(ps))
    && (forall d :: d in PointDates(ps) <==> d in RowDates(rows))
    && forall i :: 0 <= i < |ps| ==> ps[i].score.value == SumWhere(rows, DateOf, Amount, ps[i].date)
  }

  /** Scores the day totals of `rows` (the shared body of both daily detectors). */
  function DailyReportOf(userId: int, month: string, rows: seq<Row>, threshold: real,
                         sqrt: real -> real, scope: Option<string>): (r: DailyReport)
    ensures r.userId == userId && r.month == month && r.threshold == threshold && r.scope == scope
    ensures CoversDays(r.points, rows)
    ensures |r.points| == 0 <==> |rows| == 0
    ensures DayTotals(r) == Totals(DailyTotals(rows))
  {
    var days := DailyTotals(rows);
    var a := Analyze(Totals(days), threshold, sqrt);
    var ps := seq(|days|, i requires 0 <= i < |days| => DailyPoint(days[i].date, a.scores[i]));
    assert PointDates(ps) == Dates(days);
    assert PointScores(ps) == a.scores;
    DailyReport(userId, month, a.mean, a.std, threshold, ps, scope)
  }

  /** `detect_daily_anomalies`: the user's expense totals per day of `month`,
      each scored against the month's daily mean and sample spread. */
  function DetectDailyAnomalies(db: Db, userId: int, month: string, threshold: real,
                                sqrt: real -> real): (r: DailyReport)
    ensures r.userId == userId && r.month == month && r.threshold == threshold && r.scope == None
    ensures CoversDays(r.points, ExpenseRows(db, userId, month))
    ensures |r.points| == 0 <==> |ExpenseRows(db, userId, month)| == 0
  {
    DailyReportOf(userId, month, ExpenseRows(db, userId, month), threshold, sqrt, None)
  }

  /** `detect_daily_anomalies_by_category`: the same over one category. */
  function DetectDailyAnomaliesByCategory(db: Db, userId: int, month: string, name: string,
                                          threshold: real, sqrt: real -> real): (r: DailyReport)
    ensures r.userId == userId && r.month == month && r.threshold == threshold
    ensures r.scope == Some("category=" + name)
    ensures CoversDays(r.points, CategoryExpenseRows(db, userId, month, name))
    ensures |r.points| == 0 <==> |CategoryExpenseRows(db, userId, month, name)| == 0
  {
    DailyReportOf(userId, month, CategoryExpenseRows(db, userId, month, name), threshold, sqrt,
                  Some("category=" + name))
  }

  /** Every day of the report carries its z-score against the month's mean
      and sample spread, flagged when it reaches the threshold. */
  lemma DailyAnomaliesScored(db: Db, userId: int, month: string, threshold: real, sqrt: real -> real)
    ensures Scored(StatsOf(DetectDailyAnomalies(db, userId, month, threshold, sqrt)), threshold, sqrt)
  {
    var rows := ExpenseRows(db, userId, month);
    var a := Analyze(Totals(DailyTotals(rows)), threshold, sqrt);
    assert StatsOf(DailyReportOf(userId, month, rows, threshold, sqrt, None)) == a;
  }

  /** The same for the per-category report. */
  lemma CategoryAnomaliesScored(db: Db, userId: int, month: string, name: string,
                                threshold: real, sqrt: real -> real)
    ensures Scored(StatsOf(DetectDailyAnomaliesByCategory(db, userId, month, name, threshold, sqrt)), threshold, sqrt)
  {
    var rows := CategoryExpenseRows(db, userId, month, name);
    var a := Analyze(Totals(DailyTotals(rows)), threshold, sqrt);
    assert StatsOf(DailyReportOf(userId, month, rows, threshold, sqrt, Some("category=" + name))) == a;
  }

  /** The day totals account for every expense of the month exactly once. */
  lemma DailyTotalsAddUp(db: Db, userId: int, month: string, threshold: real, sqrt: real -> real)
    ensures Sum(DayTotals(DetectDailyAnomalies(db, userId, month, threshold, sqrt)))
            == TotalAmount(ExpenseRows(db, userId, month))
  {
    DailyTotalsConserveSum(ExpenseRows(db, userId, month));
  }

  /** Every day with spending in the category is a day of the full report. */
  lemma CategoryDaysAreDays(db: Db, userId: int, month: string, name: string,
                            threshold: real, sqrt: real -> real, d: string)
    requires d in PointDates(DetectDailyAnomaliesByCategory(db, userId, month, name, threshold, sqrt).points)
    ensures d in PointDates(DetectDailyAnomalies(db, userId, month, threshold, sqrt).points)
  {
    RowDatesOfSubset(CategoryExpenseRows(db, userId, month, name), ExpenseRows(db, userId, month), d);
  }

  /** A month with at most five spending days never has an anomalous day at
      the default threshold 2 (Samuelson's inequality). */
  lemma ShortMonthHasNoAnomaly(db: Db, userId: int, month: string, sqrt: real -> real, i: nat)
    requires var r := DetectDailyAnomalies(db, userId, month, 2.0, sqrt);
             |r.points| <= 5 && i < |r.points|
             && (|r.points| > 1 ==> IsSqrt(sqrt, Variance(DayTotals(r))))
    ensures !DetectDailyAnomalies(db, userId, month, 2.0, sqrt).points[i].score.isAnomaly
  {
    var r := DetectDailyAnomalies(db, userId, month, 2.0, sqrt);
    DailyAnomaliesScored(db, userId, month, 2.0, sqrt);
    ShortSeriesUnflagged(StatsOf(r), sqrt, i);
  }

  // ---------------------------------------------------------------------
  // Plot bands

  datatype PlotSeries = PlotSeries(
    userId: int, month: string, mean: real, std: real, upper: real, lower: real,
    points: seq<DayTotal>)

  /** The plot of one daily report: the day totals with bands
      mean + k * std and max(0, mean - k * std); all zero without data. */
  function PlotOf(r: DailyReport, k: real): (p: PlotSeries)
    ensures p.userId == r.userId && p.month == r.month
    ensures |p.points| > 0 ==> p.mean == r.mean && p.std == r.std
    ensures |p.points| == |r.points|
    ensures forall i :: 0 <= i < |p.points| ==>
              p.points[i].date == r.points[i].date && p.points[i].total == r.points[i].score.value
    ensures |p.points| == 0 ==> p.mean == 0.0 && p.std == 0.0 && p.upper == 0.0 && p.lower == 0.0
    ensures |p.points| > 0 ==> p.upper == p.mean + k * p.std
    ensures |p.points| > 0 ==> p.lower == Max(0.0, p.mean - k * p.std)
    ensures p.lower >= 0.0
  {
    var pts := seq(|r.points|, i requires 0 <= i < |r.points| =>
                     DayTotal(r.points[i].date, r.points[i].score.value));
    if |r.points| == 0 then PlotSeries(r.userId, r.month, 0.0, 0.0, 0.0, 0.0, [])
    else PlotSeries(r.userId, r.month, r.mean, r.std, r.mean + k * r.std,
                    Max(0.0, r.mean - k * r.std), pts)
  }

  /** `build_daily_plot_series`: the plot of the daily report at threshold `k`. */
  function BuildDailyPlotSeries(db: Db, userId: int, month: string, k: real,
                                sqrt: real -> real): (p: PlotSeries)
    ensures p == PlotOf(DetectDailyAnomalies(db, userId, month, k, sqrt), k)
    ensures p.userId == userId && p.month == month
  {
    PlotOf(DetectDailyAnomalies(db, userId, month, k, sqrt), k)
  }

  /** With bands at the detection threshold and a positive spread, a day at
      or above the upper band is flagged, and a flagged day lies outside the
      open band (mean - k * std, mean + k * std). */
  lemma UpperBandFlags(db: Db, userId: int, month: string, k: real, sqrt: real -> real, i: nat)
    requires var p := BuildDailyPlotSeries(db, userId, month, k, sqrt);
             i < |p.points| && p.std > 0.0
    ensures var p := BuildDailyPlotSeries(db, userId, month, k, sqrt);
            var r := DetectDailyAnomalies(db, userId, month, k, sqrt);
            (p.points[i].total >= p.upper ==> r.points[i].score.isAnomaly)
            && (r.points[i].score.isAnomaly ==> OutsideOpenBand(p.points[i].total, p, k))
  {
    var r := DetectDailyAnomalies(db, userId, month, k, sqrt);
    assert BuildDailyPlotSeries(db, userId, month, k, sqrt) == PlotOf(r, k);
    DailyFlagIffFar(db, userId, month, k, sqrt, i);
    PlotBandsFlag(r, k, i);
  }

  /** With a positive spread, a day is flagged exactly when its total is at
      least `threshold` spreads away from the month's mean. */
  lemma DailyFlagIffFar(db: Db, userId: int, month: string, threshold: real, sqrt: real -> real, i: nat)
    requires var r := DetectDailyAnomalies(db, userId, month, threshold, sqrt);
             i < |r.points| && r.std > 0.0
    ensures var r := DetectDailyAnomalies(db, userId, month, threshold, sqrt);
            r.points[i].score.isAnomaly <==> FarFromMean(r.points[i].score.value, r.mean, r.std, threshold)
  {
    var r := DetectDailyAnomalies(db, userId, month, threshold, sqrt);
    DailyAnomaliesScored(db, userId, month, threshold, sqrt);
    FlaggedIffFarFromMean(StatsOf(r), threshold, sqrt, i);
  }

  /** The band property for a day flagged exactly when it is `k` spreads
      away from the mean. */
  lemma PlotBandsFlag(r: DailyReport, k: real, i: nat)
    requires i < |r.points| && r.std > 0.0
    requires r.points[i].score.isAnomaly <==> FarFromMean(r.points[i].score.value, r.mean, r.std, k)
    ensures var p := PlotOf(r, k);
            (p.points[i].total >= p.upper ==> r.points[i].score.isAnomaly)
            && (r.points[i].score.isAnomaly ==> OutsideOpenBand(p.points[i].total, p, k))
  {
    var p := PlotOf(r, k);
    var v := r.points[i].score.value;
    assert p.points[i].total == v && p.mean == r.mean && p.std == r.std;
    BandArith(v, p, k);
  }

  /** At or above the upper band, or at or below its mirror image
      mean - k * std. */
  predicate OutsideOpenBand(total: real, p: PlotSeries, k: real)
  {
    total >= p.upper || total <= p.mean - k * p.std
  }

  lemma BandArith(v: real, p: PlotSeries, k: real)
    requires p.upper == p.mean + k * p.std
    ensures v >= p.upper ==> FarFromMean(v, p.mean, p.std, k)
    ensures FarFromMean(v, p.mean, p.std, k) ==> OutsideOpenBand(v, p, k)
  {
  }

  // ---------------------------------------------------------------------
  // Transaction detector

  /** Ascending by date, then by id (`ORDER BY transaction_date, id`). */
  predicate TxBefore(a: Row, b: Row)
  {
    StrLess(a.tx.date, b.tx.date) || (a.tx.date == b.tx.date && a.tx.id < b.tx.id)
  }

  lemma TxBeforeTransitive(a: Row, b: Row, c: Row)
    requires TxBefore(a, b) && TxBefore(b, c)
    ensures TxBefore(a, c)
  {
    if StrLess(a.tx.date, b.tx.date) && StrLess(b.tx.date, c.tx.date) {
      StrLessTransitive(a.tx.date, b.tx.date, c.tx.date);
    }
  }

  lemma TxBeforeAsymmetric(a: Row, b: Row)
    requires TxBefore(a, b)
    ensures !TxBefore(b, a)
  {
    if StrLess(a.tx.date, b.tx.date) {
      StrLessAsymmetric(a.tx.date, b.tx.date);
    } else {
      StrLessIrreflexive(a.tx.date);
    }
  }

  /** A row that is not before `z` is not before anything before `z`. */
  lemma NotBeforeEarlier(y: Row, x: Row, z: Row)
    requires TxBefore(x, z) && !TxBefore(y, z)
    ensures !TxBefore(y, x)
  {
    if TxBefore(y, x) {
      TxBeforeTransitive(y, x, z);
    }
  }

  ghost predicate OrderedByDateId(rs: seq<Row>)
  {
    forall i, j :: 0 <= i < j < |rs| ==> !TxBefore(rs[j], rs[i])
  }

  /** Inserts `x` after every row that does not come after it (stable). */
  function InsertByDateId(x: Row, xs: seq<Row>): (r: seq<Row>)
    requires OrderedByDateId(xs)
    ensures OrderedByDateId(r)
    ensures multiset(r) == multiset(xs) + multiset{x}
    ensures forall k :: 0 <= k < |r| ==> r[k] == x || r[k] in xs
    decreases |xs|
  {
    if |xs| == 0 then [x]
    else if TxBefore(x, xs[0]) then
      FirstBeforeAll(x, xs);
      [x] + xs
    else
      var tail := InsertByDateId(x, xs[1..]);
      HeadBeforeTail(x, xs, tail);
      assert xs == [xs[0]] + xs[1..];
      [xs[0]] + tail
  }

  /** A row before the head of an ordered sequence is before all of it. */
  lemma FirstBeforeAll(x: Row, xs: seq<Row>)
    requires OrderedByDateId(xs) && |xs| > 0 && TxBefore(x, xs[0])
    ensures forall j :: 0 <= j < |xs| ==> !TxBefore(xs[j], x)
  {
    forall j | 0 <= j < |xs| ensures !TxBefore(xs[j], x) {
      if j == 0 {
        TxBeforeAsymmetric(x, xs[0]);
      } else {
        NotBeforeEarlier(xs[j], x, xs[0]);
      }
    }
  }

  /** Nothing in the insertion into the tail comes before the head. */
  lemma HeadBeforeTail(x: Row, xs: seq<Row>, tail: seq<Row>)
    requires OrderedByDateId(xs) && |xs| > 0 && !TxBefore(x, xs[0])
    requires forall k :: 0 <= k < |tail| ==> tail[k] == x || tail[k] in xs[1..]
    ensures forall k :: 0 <= k < |tail| ==> !TxBefore(tail[k], xs[0])
  {
    forall k | 0 <= k < |tail| ensures !TxBefore(tail[k], xs[0]) {
      if tail[k] != x {
        var m :| 0 <= m < |xs[1..]| && xs[1..][m] == tail[k];
        assert xs[m + 1] == tail[k];
      }
    }
  }

  /** Stable sort by (date, id). */
  function SortByDateId(rs: seq<Row>): (r: seq<Row>)
    ensures OrderedByDateId(r)
    ensures multiset(r) == multiset(rs)
    decreases |rs|
  {
    if |rs| == 0 then []
    else
      var sorted := SortByDateId(rs[..|rs| - 1]);
      assert rs == rs[..|rs| - 1] + [rs[|rs| - 1]];
      InsertByDateId(rs[|rs| - 1], sorted)
  }

  /** A transaction point: the row (id, date, amount, description and
      category name) with its score. */
  datatype TxPoint = TxPoint(row: Row, score: Score)

  datatype TxReport = TxReport(
    userId: int, month: string, mean: real, std: real, threshold: real, points: seq<TxPoint>)

  function PointRows(ps: seq<TxPoint>): (r: seq<Row>)
    ensures |r| == |ps| && forall i :: 0 <= i < |ps| ==> r[i] == ps[i].row
  {
    seq(|ps|, i requires 0 <= i < |ps| => ps[i].row)
  }

  function TxScoreOf(p: TxPoint): Score
  {
    p.score
  }

  /** The scores of the transaction points, in order. */
  function TxScores(ps: seq<TxPoint>): seq<Score>
  {
    Map(ps, TxScoreOf)
  }

  function TxStatsOf(r: TxReport): Analysis
  {
    Analysis(r.mean, r.std, TxScores(r.points))
  }

  /** `detect_transaction_anomalies`: every expense transaction of the month
      in (date, id) order, scored by amount. */
  function DetectTransactionAnomalies(db: Db, userId: int, month: string, threshold: real,
                                      sqrt: real -> real): (r: TxReport)
    ensures r.userId == userId && r.month == month && r.threshold == threshold
    ensures multiset(PointRows(r.points)) == multiset(ExpenseRows(db, userId, month))
    ensures OrderedByDateId(PointRows(r.points))
    ensures forall i :: 0 <= i < |r.points| ==> r.points[i].score.value == r.points[i].row.tx.amount
    ensures Scored(TxStatsOf(r), threshold, sqrt)
  {
    var rows := SortByDateId(ExpenseRows(db, userId, month));
    var a := Analyze(Map(rows, Amount), threshold, sqrt);
    var ps := seq(|rows|, i requires 0 <= i < |rows| => TxPoint(rows[i], a.scores[i]));
    assert PointRows(ps) == rows;
    assert TxScores(ps) == a.scores;
    TxReport(userId, month, a.mean, a.std, threshold, ps)
  }

  /** The transaction detector and the daily detector see the same month
      total. */
  lemma TransactionsMatchDays(db: Db, userId: int, month: string, threshold: real, sqrt: real -> real)
    ensures var t := DetectTransactionAnomalies(db, userId, month, threshold, sqrt);
            var d := DetectDailyAnomalies(db, userId, month, threshold, sqrt);
            Sum(Values(TxScores(t.points))) == Sum(DayTotals(d))
  {
    var t := DetectTransactionAnomalies(db, userId, month, threshold, sqrt);
    var rows := ExpenseRows(db, userId, month);
    SumOfPermutation(PointRows(t.points), rows, Amount);
    AmountsSum(PointRows(t.points), Values(TxScores(t.points)));
    DailyTotalsAddUp(db, userId, month, threshold, sqrt);
  }

  lemma {:induction false} AmountsSum(rs: seq<Row>, xs: seq<real>)
    requires |rs| == |xs| && forall i :: 0 <= i < |rs| ==> xs[i] == rs[i].tx.amount
    ensures Sum(xs) == SumOf(rs, Amount)
    decreases |rs|
  {
    if |rs| > 0 {
      AmountsSum(rs[1..], xs[1..]);
    }
  }

  // ---------------------------------------------------------------------
  // Explaining one date

  datatype ExplainKind = NoDailyData | NoSuchDate | NotAnomaly | AnomalyNoTxRows | IsAnomaly

  /** The tag string the source returns next to the explanation. */
  function KindName(k: ExplainKind): (s: string)
  {
    match k
    case NoDailyData => "no_daily_data"
    case NoSuchDate => "no_such_date"
    case NotAnomaly => "not_anomaly"
    case AnomalyNoTxRows => "anomaly_no_tx_rows"
    case IsAnomaly => "is_anomaly"
  }

  datatype Explanation = Explanation(text: string, kind: ExplainKind)

  /** The user's expense rows dated exactly `date`, largest amount first. */
  function DayRows(db: Db, userId: int, date: string): (rs: seq<Row>)
    ensures NonIncreasing(rs, Amount)
    ensures multiset(rs) == multiset(Filter(Joined(db.categories, db.transactions), OnDayOf(userId, date)))
  {
    SortDesc(Filter(Joined(db.categories, db.transactions), OnDayOf(userId, date)), Amount)
  }

  predicate OnDay(r: Row, userId: int, date: string)
  {
    r.tx.userId == userId && r.category.kind == ExpenseKind && r.tx.date == date
  }

  function OnDayOf(userId: int, date: string): Row -> bool
  {
    (r: Row) => OnDay(r, userId, date)
  }

  /** The day's spending per category name, largest first (a dict filled in
      row order, then `sorted(..., reverse=True)` by value). */
  function CategoryBreakdown(db: Db, userId: int, date: string): (r: seq<(string, real)>)
    ensures NonIncreasing(r, Second)
    ensures multiset(r) == multiset(GroupSums(DayRows(db, userId, date), CategoryName, Amount))
  {
    SortDesc(GroupSums(DayRows(db, userId, date), CategoryName, Amount), Second)
  }

  /** Index of the first point of `ps` dated `date`. */
  function FindDate(ps: seq<DailyPoint>, date: string): (r: Option<nat>)
    ensures r.Some? ==> r.value < |ps| && ps[r.value].date == date
    ensures r.None? <==> date !in PointDates(ps)
    decreases |ps|
  {
    if |ps| == 0 then None
    else if ps[0].date == date then Some(0)
    else
      assert PointDates(ps) == [ps[0].date] + PointDates(ps[1..]);
      match FindDate(ps[1..], date)
      case None => None
      case Some(i) => Some(i + 1)
  }

  /** Days are distinct: a date names at most one point. */
  lemma OnePointPerDate(ps: seq<DailyPoint>, k: nat)
    requires Ascending(PointDates(ps)) && k < |ps|
    ensures forall j :: 0 <= j < |ps| && ps[j].date == ps[k].date ==> j == k
  {
    AscendingDistinct(PointDates(ps));
  }

  /** The day's point exists and its flag is `flag`. */
  ghost predicate FlaggedOn(r: DailyReport, date: string, flag: bool)
  {
    exists i :: 0 <= i < |r.points| && r.points[i].date == date && r.points[i].score.isAnomaly == flag
  }

  function DescriptionOrPlaceholder(r: Row): string
  {
    match r.tx.description
    case None => "(no description)"
    case Some(d) => if d == "" then "(no description)" else d
  }

  function CategoryPart(kv: (string, real)): string
  {
    kv.0 + ": " + Fmt2(kv.1)
  }

  function DescriptionPart(r: Row): string
  {
    DescriptionOrPlaceholder(r) + " (" + r.category.name + ", " + Fmt2(r.tx.amount) + ")"
  }

  function ScoreText(z: real, threshold: real): string
  {
    " (z-score " + Fmt2(z) + ", threshold " + Fmt2(threshold) + ")"
  }

  function NoDataText(user: string, month: string, date: string): string
  {
    "There is no expense data for user " + user + " in month " + month
    + ", so I cannot analyze " + date + "."
  }

  function NoSuchDateText(user: string, date: string): string
  {
    "There are no recorded expenses on " + date + " for user " + user + "."
  }

  function NotAnomalyText(date: string, p: DailyPoint, mean: real, threshold: real): string
  {
    date + " is not flagged as anomalous. You spent " + Fmt2(p.score.value)
    + " on that day, compared to an average daily spending of " + Fmt2(mean)
    + ScoreText(p.score.z, threshold) + "."
  }

  function NoTxRowsText(date: string, p: DailyPoint): string
  {
    date + " is mathematically anomalous (z-score " + Fmt2(p.score.z)
    + "), but no individual transactions were found for that date."
  }

  function AnomalyText(date: string, p: DailyPoint, mean: real, threshold: real,
                       cats: string, descs: string): string
  {
    "On " + date + ", you spent " + Fmt2(p.score.value)
    + ", which is much higher than your average daily spending of " + Fmt2(mean)
    + ScoreText(p.score.z, threshold) + ". Most of this spending came from these categories: "
    + cats + ". Some of the largest transactions were: " + descs + "."
  }

  /** `explain_anomalous_date`: looks the date up in its month's daily report
      and explains why it is, or is not, anomalous. */
  function ExplainAnomalousDate(db: Db, userId: int, date: string, threshold: real,
                                sqrt: real -> real): (e: Explanation)
    ensures var r := DetectDailyAnomalies(db, userId, MonthOf(date), threshold, sqrt);
            (e.kind == NoDailyData <==> |r.points| == 0)
            && (e.kind == NoSuchDate <==> |r.points| > 0 && date !in PointDates(r.points))
            && (e.kind == NotAnomaly <==> FlaggedOn(r, date, false))
            && ((e.kind == IsAnomaly || e.kind == AnomalyNoTxRows) <==> FlaggedOn(r, date, true))
            && (e.kind == AnomalyNoTxRows <==> FlaggedOn(r, date, true) && |DayRows(db, userId, date)| == 0)
  {
    ExplainReport(db, userId, date, DetectDailyAnomalies(db, userId, MonthOf(date), threshold, sqrt))
  }

  /** The explanation of `date` against the daily report `r` of its month. */
  function ExplainReport(db: Db, userId: int, date: string, r: DailyReport): (e: Explanation)
    requires Ascending(PointDates(r.points))
    ensures e.kind == NoDailyData <==> |r.points| == 0
    ensures e.kind == NoSuchDate <==> |r.points| > 0 && date !in PointDates(r.points)
    ensures e.kind == NotAnomaly <==> FlaggedOn(r, date, false)
    ensures (e.kind == IsAnomaly || e.kind == AnomalyNoTxRows) <==> FlaggedOn(r, date, true)
    ensures e.kind == AnomalyNoTxRows <==> FlaggedOn(r, date, true) && |DayRows(db, userId, date)| == 0
  {
    var kind := Classify(r, date, |DayRows(db, userId, date)| == 0);
    Explanation(ExplanationText(db, userId, date, r, kind), kind)
  }

  /** Which of the five outcomes `date` has in the report `r`. */
  function Classify(r: DailyReport, date: string, noRows: bool): (k: ExplainKind)
    requires Ascending(PointDates(r.points))
    ensures k == NoDailyData <==> |r.points| == 0
    ensures k == NoSuchDate <==> |r.points| > 0 && date !in PointDates(r.points)
    ensures k == NotAnomaly <==> FlaggedOn(r, date, false)
    ensures (k == IsAnomaly || k == AnomalyNoTxRows) <==> FlaggedOn(r, date, true)
    ensures k == AnomalyNoTxRows <==> FlaggedOn(r, date, true) && noRows
  {
    match FindDate(r.points, date)
    case None => if |r.points| == 0 then NoDailyData else NoSuchDate
    case Some(i) =>
      OnePointPerDate(r.points, i);
      if !r.points[i].score.isAnomaly then NotAnomaly
      else if noRows then AnomalyNoTxRows
      else IsAnomaly
  }

  /** The text of each outcome. */
  function ExplanationText(db: Db, userId: int, date: string, r: DailyReport, kind: ExplainKind): string
  {
    match FindDate(r.points, date)
    case None =>
      if kind == NoDailyData then NoDataText(IntToString(userId), r.month, date)
      else NoSuchDateText(IntToString(userId), date)
    case Some(i) =>
      PointText(date, r.points[i], r.mean, r.threshold, kind,
                BreakdownText(db, userId, date), LargestRowsText(db, userId, date))
  }

  /** The day's per-category sums, largest first, joined by "; ". */
  function BreakdownText(db: Db, userId: int, date: string): string
  {
    Join(Map(CategoryBreakdown(db, userId, date), CategoryPart), "; ")
  }

  /** The day's three largest rows, largest first, joined by "; ". */
  function LargestRowsText(db: Db, userId: int, date: string): string
  {
    Join(Map(Take(DayRows(db, userId, date), 3), DescriptionPart), "; ")
  }

  /** The text of an outcome for a date the report holds as the point `p`. */
  function PointText(date: string, p: DailyPoint, mean: real, threshold: real, kind: ExplainKind,
                     cats: string, descs: string): string
  {
    match kind
    case NotAnomaly => NotAnomalyText(date, p, mean, threshold)
    case AnomalyNoTxRows => NoTxRowsText(date, p)
    case _ => AnomalyText(date, p, mean, threshold, cats, descs)
  }

  /** `explain_anomalous_date` when the month has no expense data, or the
      date is not among its days: the fixed no-data texts. */
  lemma AbsentDateExplained(db: Db, userId: int, date: string, threshold: real, sqrt: real -> real)
    ensures var e := ExplainAnomalousDate(db, userId, date, threshold, sqrt);
            (e.kind == NoDailyData ==> e.text == NoDataText(IntToString(userId), MonthOf(date), date))
            && (e.kind == NoSuchDate ==> e.text == NoSuchDateText(IntToString(userId), date))
  {
    ReportTexts(db, userId, date, DetectDailyAnomalies(db, userId, MonthOf(date), threshold, sqrt), 0);
  }

  /** An unflagged day is explained by its total, the month's mean and its
      z-score against the threshold. */
  lemma NotAnomalyExplained(db: Db, userId: int, date: string, threshold: real, sqrt: real -> real, i: nat)
    ensures var r := DetectDailyAnomalies(db, userId, MonthOf(date), threshold, sqrt);
            var e := ExplainAnomalousDate(db, userId, date, threshold, sqrt);
            i < |r.points| && r.points[i].date == date && e.kind == NotAnomaly ==>
              e.text == NotAnomalyText(date, r.points[i], r.mean, threshold)
  {
    var r := DetectDailyAnomalies(db, userId, MonthOf(date), threshold, sqrt);
    if i < |r.points| && r.points[i].date == date {
      ReportTexts(db, userId, date, r, i);
      NotAnomalyPointText(date, r.points[i], r.mean, threshold,
                          BreakdownText(db, userId, date), LargestRowsText(db, userId, date));
    }
  }

  /** A flagged day without rows gets the text that says so; it cannot
      happen, as `NoTxRowsUnreachable` shows. */
  lemma NoTxRowsExplained(db: Db, userId: int, date: string, threshold: real, sqrt: real -> real, i: nat)
    ensures var r := DetectDailyAnomalies(db, userId, MonthOf(date), threshold, sqrt);
            var e := ExplainAnomalousDate(db, userId, date, threshold, sqrt);
            i < |r.points| && r.points[i].date == date && e.kind == AnomalyNoTxRows ==>
              e.text == NoTxRowsText(date, r.points[i])
  {
    var r := DetectDailyAnomalies(db, userId, MonthOf(date), threshold, sqrt);
    if i < |r.points| && r.points[i].date == date {
      ReportTexts(db, userId, date, r, i);
      NoTxRowsPointText(date, r.points[i], r.mean, threshold,
                        BreakdownText(db, userId, date), LargestRowsText(db, userId, date));
    }
  }

  /** A flagged day is explained by its total, the mean, its z-score, the
      day's per-category sums and its largest rows (see `AnomalyDetails`). */
  lemma AnomalyExplained(db: Db, userId: int, date: string, threshold: real, sqrt: real -> real, i: nat)
    ensures var r := DetectDailyAnomalies(db, userId, MonthOf(date), threshold, sqrt);
            var e := ExplainAnomalousDate(db, userId, date, threshold, sqrt);
            i < |r.points| && r.points[i].date == date && e.kind == IsAnomaly ==>
              e.text == AnomalyText(date, r.points[i], r.mean, threshold,
                                    BreakdownText(db, userId, date), LargestRowsText(db, userId, date))
  {
    var r := DetectDailyAnomalies(db, userId, MonthOf(date), threshold, sqrt);
    if i < |r.points| && r.points[i].date == date {
      ReportTexts(db, userId, date, r, i);
      AnomalyPointText(date, r.points[i], r.mean, threshold,
                       BreakdownText(db, userId, date), LargestRowsText(db, userId, date));
    }
  }

  /** What an anomaly's text quotes: the day's per-category sums, largest
      first, and the day's three largest rows, largest first; no row left
      out exceeds one quoted. */
  lemma AnomalyDetails(db: Db, userId: int, date: string)
    ensures BreakdownText(db, userId, date) == Join(Map(CategoryBreakdown(db, userId, date), CategoryPart), "; ")
    ensures NonIncreasing(CategoryBreakdown(db, userId, date), Second)
    ensures LargestRowsText(db, userId, date) == Join(Map(Take(DayRows(db, userId, date), 3), DescriptionPart), "; ")
    ensures NonIncreasing(Take(DayRows(db, userId, date), 3), Amount)
    ensures forall x, y ::
              (x in DayRows(db, userId, date) && x !in Take(DayRows(db, userId, date), 3)
               && y in Take(DayRows(db, userId, date), 3)) ==> Amount(x) <= Amount(y)
  {
    TakeOfSorted(DayRows(db, userId, date), 3, Amount);
  }

  /** The texts of `ExplainReport`, for any report with distinct days. */
  lemma ReportTexts(db: Db, userId: int, date: string, r: DailyReport, i: nat)
    requires Ascending(PointDates(r.points))
    ensures var e := ExplainReport(db, userId, date, r);
            (e.kind == NoDailyData ==> e.text == NoDataText(IntToString(userId), r.month, date))
            && (e.kind == NoSuchDate ==> e.text == NoSuchDateText(IntToString(userId), date))
            && (i < |r.points| && r.points[i].date == date ==>
                  e.text == PointText(date, r.points[i], r.mean, r.threshold, e.kind,
                                      BreakdownText(db, userId, date), LargestRowsText(db, userId, date)))
  {
    var e := ExplainReport(db, userId, date, r);
    if i < |r.points| && r.points[i].date == date {
      OnePointPerDate(r.points, i);
      assert FindDate(r.points, date) == Some(i);
    } else if e.kind == NoDailyData || e.kind == NoSuchDate {
      assert FindDate(r.points, date).None?;
    }
  }

  lemma NotAnomalyPointText(date: string, p: DailyPoint, mean: real, threshold: real, cats: string, descs: string)
    ensures PointText(date, p, mean, threshold, NotAnomaly, cats, descs) == NotAnomalyText(date, p, mean, threshold)
  {
  }

  lemma NoTxRowsPointText(date: string, p: DailyPoint, mean: real, threshold: real, cats: string, descs: string)
    ensures PointText(date, p, mean, threshold, AnomalyNoTxRows, cats, descs) == NoTxRowsText(date, p)
  {
  }

  lemma AnomalyPointText(date: string, p: DailyPoint, mean: real, threshold: real, cats: string, descs: string)
    ensures PointText(date, p, mean, threshold, IsAnomaly, cats, descs)
         == AnomalyText(date, p, mean, threshold, cats, descs)
  {
  }

  /** A day of the report always has transactions behind it. */
  lemma DayHasRows(db: Db, userId: int, date: string, threshold: real, sqrt: real -> real)
    requires date in PointDates(DetectDailyAnomalies(db, userId, MonthOf(date), threshold, sqrt).points)
    ensures |DayRows(db, userId, date)| > 0
  {
    var rs := ExpenseRows(db, userId, MonthOf(date));
    assert date in RowDates(rs);
    var i :| 0 <= i < |rs| && RowDates(rs)[i] == date;
    var x := rs[i];
    assert OnDay(x, userId, date);
    var f := Filter(Joined(db.categories, db.transactions), OnDayOf(userId, date));
    assert x in f;
    assert x in multiset(DayRows(db, userId, date));
  }

  /** The "anomalous but no transactions" outcome cannot happen: a flagged
      day is a day with expense rows, and those rows are the ones the
      explanation queries. */
  lemma NoTxRowsUnreachable(db: Db, userId: int, date: string, threshold: real, sqrt: real -> real)
    ensures ExplainAnomalousDate(db, userId, date, threshold, sqrt).kind != AnomalyNoTxRows
  {
    var r := DetectDailyAnomalies(db, userId, MonthOf(date), threshold, sqrt);
    if date in PointDates(r.points) {
      DayHasRows(db, userId, date, threshold, sqrt);
    }
  }

  /** The per-category amounts of a day add up to that day's total in the
      daily report. */
  lemma BreakdownAddsUpToDayTotal(db: Db, userId: int, date: string, threshold: real,
                                  sqrt: real -> real, i: nat)
    requires var r := DetectDailyAnomalies(db, userId, MonthOf(date), threshold, sqrt);
             i < |r.points| && r.points[i].date == date
    ensures SumOf(CategoryBreakdown(db, userId, date), Second)
            == DetectDailyAnomalies(db, userId, MonthOf(date), threshold, sqrt).points[i].score.value
  {
    var month := MonthOf(date);
    var joined := Joined(db.categories, db.transactions);
    var dayRows := DayRows(db, userId, date);
    SumOfPermutation(CategoryBreakdown(db, userId, date), GroupSums(dayRows, CategoryName, Amount), Second);
    GroupSumsTotal(dayRows, CategoryName, Amount);
    SumOfPermutation(dayRows, Filter(joined, OnDayOf(userId, date)), Amount);
    forall x: Row ensures OnDayOf(userId, date)(x) == (InScopeOf(userId, ExpenseKind, month)(x) && DateOf(x) == date) {
    }
    SumWhereOfFilter(joined, InScopeOf(userId, ExpenseKind, month), OnDayOf(userId, date), DateOf, Amount, date);
  }
}

=== FILE: answer.dfy ===
/** What the question-answering router retrieves for one (user, month) —
    the user's display name, a one-line numeric summary, the stored monthly
    summary, the category totals and the month's transactions — and the
    rule-based answer it gives when the language model does not. */
module Answer {
  import opened Common
  import opened Text
  import opened Records
  import opened Months
  import opened Summary
  import opened Anomaly

  // ---------------------------------------------------------------------
  // Display name

  /** The shown name: the user's name, else the part of the e-mail address
      before the first '@', else "User <id>" (also for a missing user). */
  function UserDisplayName(user: Option<User>, userId: int): (r: string)
    ensures user.None? ==> r == "User " + IntToString(userId)
    ensures user.Some? && user.value.name != "" ==> r == user.value.name
    ensures user.Some? && user.value.name == "" && user.value.email != "" ==>
              StartsWith(user.value.email, r) && !Contains(r, "@")
              && (Contains(user.value.email, "@") ==> StartsWith(user.value.email, r + "@"))
              && (!Contains(user.value.email, "@") ==> r == user.value.email)
    ensures user.Some? && user.value.name == "" && user.value.email == "" ==>
              r == "User " + IntToString(userId)
  {
    match user
    case None => "User " + IntToString(userId)
    case Some(u) =>
      if u.name != "" then u.name
      else if u.email != "" then
        LocalPart(u.email);
        BeforeFirst(u.email, "@")
      else "User " + IntToString(userId)
  }

  /** When the address has an '@', the shown part is followed by it. */
  lemma LocalPart(email: string)
    ensures Contains(email, "@") ==> StartsWith(email, BeforeFirst(email, "@") + "@")
    ensures !Contains(email, "@") ==> BeforeFirst(email, "@") == email
  {
    if Contains(email, "@") {
      var k := IndexOf(email, "@").value;
      assert BeforeFirst(email, "@") == email[..k];
      assert email[..k + 1] == email[..k] + "@";
    }
  }

  // ---------------------------------------------------------------------
  // The numeric summary line

  const SpentKey := "total_spent"
  const IncomeKey := "total_income"
  const NetKey := "net_savings"

  /** `key=`, as the line spells each field. */
  function Marker(key: string): (m: string)
    ensures |m| == |key| + 1 && m[..|key|] == key && m[|key|] == '='
  {
    key + "="
  }

  function Header(userId: int, month: string): string
  {
    "User " + IntToString(userId) + ", month " + month + ": "
  }

  /** `User <id>, month <m>: total_spent=<|spent|>, total_income=<income>,
      net_savings=<income - |spent|>`, amounts with two decimals. */
  function NumericSummary(userId: int, month: string, spent: real, income: real): string
  {
    FieldsLine(Header(userId, month), SpentKey, IncomeKey, NetKey,
               Fmt2(Abs(spent)), Fmt2(income), Fmt2(NetSavings(spent, income)))
  }

  /** The shape of a three-field line: a header and values without '=',
      keys without '=' whose last letters differ, comma-free first two
      values and a single-word last value. */
  ghost predicate FieldsShaped(h: string, k1: string, k2: string, k3: string,
                               x: string, y: string, z: string)
  {
    Lacks(h, '=') && Lacks(x, '=') && Lacks(y, '=') && Lacks(z, '=')
    && Lacks(k1, '=') && Lacks(k2, '=') && Lacks(k3, '=')
    && |k1| > 0 && |k2| > 0 && |k3| > 0
    && k1[|k1| - 1] != k2[|k2| - 1] && k1[|k1| - 1] != k3[|k3| - 1] && k2[|k2| - 1] != k3[|k3| - 1]
    && Lacks(x, ',') && Lacks(y, ',') && |z| > 0 && NoSpace(z)
  }

  function FieldsLine(h: string, k1: string, k2: string, k3: string,
                      x: string, y: string, z: string): string
  {
    h + Marker(k1) + x + ", " + Marker(k2) + y + ", " + Marker(k3) + z
  }

  lemma CommaSpace(a: string, b: string)
    ensures a + ", " + b == a + "," + (" " + b)
  {
    assert ", " == "," + " ";
  }

  lemma SeparatorLacksEq()
    ensures Lacks(", ", '=')
  {
  }

  /** The comma field after the first visible marker is the value up to
      the comma. */
  lemma CommaFieldAt(pre: string, m: string, v: string, rest: string)
    requires |m| > 0 && !Contains(pre + m[..|m| - 1], m)
    requires !Contains(v + ", " + rest, m) && Lacks(v, ',')
    ensures CommaField(pre + m + (v + ", " + rest), m) == Some(v)
  {
    AfterMarkerAt(pre, m, v + ", " + rest);
    CommaSpace(v, rest);
    BeforeComma(v, " " + rest);
  }

  /** The line split around its first key. */
  lemma FirstFieldSplit(h: string, k1: string, k2: string, k3: string, x: string, y: string, z: string)
    ensures var rest := k2 + "=" + ((y + ", " + k3) + "=" + z);
            FieldsLine(h, k1, k2, k3, x, y, z) == h + Marker(k1) + (x + ", " + rest)
            && x + ", " + rest == (x + ", " + k2) + "=" + ((y + ", " + k3) + "=" + z)
  {
    var b := y + ", " + k3;
    ConcatAssoc(x + ", ", k2 + "=", b + "=" + z);
    ConcatAssoc(x + ", ", k2, "=");
  }

  /** Reading the first field back: it is the first value. */
  lemma FirstFieldReads(h: string, k1: string, k2: string, k3: string, x: string, y: string, z: string)
    requires FieldsShaped(h, k1, k2, k3, x, y, z)
    ensures CommaField(FieldsLine(h, k1, k2, k3, x, y, z), Marker(k1)) == Some(x)
  {
    var m := Marker(k1);
    var c := k1[|k1| - 1];
    var b := y + ", " + k3;
    var rest := k2 + "=" + (b + "=" + z);
    FirstFieldSplit(h, k1, k2, k3, x, y, z);
    SeparatorLacksEq();
    assert m[..|m| - 1] == k1;
    NoPairAbsent(h + k1, m);
    NoPairGlue(b, z, c, '=');
    NoPairGlue(x + ", " + k2, b + "=" + z, c, '=');
    NoPairAbsent(x + ", " + rest, m);
    CommaFieldAt(h, m, x, rest);
  }

  /** The line split around its second key. */
  lemma SecondFieldSplit(h: string, k1: string, k2: string, k3: string, x: string, y: string, z: string)
    ensures var pre := h + k1 + "=" + x + ", ";
            var rest := k3 + "=" + z;
            FieldsLine(h, k1, k2, k3, x, y, z) == pre + Marker(k2) + (y + ", " + rest)
            && pre + k2 == (h + k1) + "=" + (x + ", " + k2)
            && y + ", " + rest == (y + ", " + k3) + "=" + z
  {
    ConcatAssoc(y + ", ", k3 + "=", z);
    ConcatAssoc(y + ", ", k3, "=");
  }

  /** Reading the second field back: it is the second value. */
  lemma SecondFieldReads(h: string, k1: string, k2: string, k3: string, x: string, y: string, z: string)
    requires FieldsShaped(h, k1, k2, k3, x, y, z)
    ensures CommaField(FieldsLine(h, k1, k2, k3, x, y, z), Marker(k2)) == Some(y)
  {
    var m := Marker(k2);
    var c := k2[|k2| - 1];
    var pre := h + k1 + "=" + x + ", ";
    var rest := k3 + "=" + z;
    SecondFieldSplit(h, k1, k2, k3, x, y, z);
    SeparatorLacksEq();
    assert m[..|m| - 1] == k2;
    NoPairGlue(h + k1, x + ", " + k2, c, '=');
    NoPairAbsent(pre + k2, m);
    NoPairGlue(y + ", " + k3, z, c, '=');
    NoPairAbsent(y + ", " + rest, m);
    CommaFieldAt(pre, m, y, rest);
  }

  /** The line split around its third key. */
  lemma ThirdFieldSplit(h: string, k1: string, k2: string, k3: string, x: string, y: string, z: string)
    ensures var pre := h + k1 + "=" + x + ", " + k2 + "=" + y + ", ";
            FieldsLine(h, k1, k2, k3, x, y, z) == pre + Marker(k3) + z
            && pre + k3 == ((h + k1) + "=" + (x + ", " + k2)) + "=" + (y + ", " + k3)
  {
  }

  /** Reading the third field back as a word: it is the third value. */
  lemma ThirdFieldReads(h: string, k1: string, k2: string, k3: string, x: string, y: string, z: string)
    requires FieldsShaped(h, k1, k2, k3, x, y, z)
    ensures WordField(FieldsLine(h, k1, k2, k3, x, y, z), Marker(k3)) == Some(z)
  {
    var m := Marker(k3);
    var c := k3[|k3| - 1];
    var pre := h + k1 + "=" + x + ", " + k2 + "=" + y + ", ";
    ThirdFieldSplit(h, k1, k2, k3, x, y, z);
    SeparatorLacksEq();
    assert m[..|m| - 1] == k3;
    NoPairGlue(h + k1, x + ", " + k2, c, '=');
    NoPairGlue((h + k1) + "=" + (x + ", " + k2), y + ", " + k3, c, '=');
    NoPairAbsent(pre + k3, m);
    AfterMarkerAt(pre, m, z);
    NoPairAbsent(z, m);
    WordsOfWord(z);
  }

  lemma KeysShaped()
    ensures Lacks(SpentKey, '=') && Lacks(IncomeKey, '=') && Lacks(NetKey, '=')
    ensures SpentKey[|SpentKey| - 1] == 't' && IncomeKey[|IncomeKey| - 1] == 'e'
    ensures NetKey[|NetKey| - 1] == 's'
  {
  }

  lemma HeaderLacksEq(userId: int, month: string)
    requires Lacks(month, '=')
    ensures Lacks(Header(userId, month), '=')
  {
    var n := IntToString(userId);
    assert Lacks("User ", '=') && Lacks(", month ", '=') && Lacks(": ", '=');
    assert Lacks(n, '=');
  }

  lemma Fmt2Shaped(v: real)
    ensures Lacks(Fmt2(v), '=') && Lacks(Fmt2(v), ',') && NoSpace(Fmt2(v)) && |Fmt2(v)| > 0
  {
    var f := Fmt2(v);
    assert forall j :: 0 <= j < |f| ==> IsNumeralChar(f[j]);
  }

  /** The rule-based answers read back exactly the amounts the line was
      written from: |spent| and income up to the comma, the net savings as
      the word after its key. */
  lemma NumericSummaryRoundTrip(userId: int, month: string, spent: real, income: real)
    requires Lacks(month, '=')
    ensures CommaField(NumericSummary(userId, month, spent, income), Marker(SpentKey)) == Some(Fmt2(Abs(spent)))
    ensures CommaField(NumericSummary(userId, month, spent, income), Marker(IncomeKey)) == Some(Fmt2(income))
    ensures WordField(NumericSummary(userId, month, spent, income), Marker(NetKey))
              == Some(Fmt2(NetSavings(spent, income)))
  {
    var h := Header(userId, month);
    var x := Fmt2(Abs(spent));
    var y := Fmt2(income);
    var z := Fmt2(NetSavings(spent, income));
    KeysShaped();
    HeaderLacksEq(userId, month);
    Fmt2Shaped(Abs(spent));
    Fmt2Shaped(income);
    Fmt2Shaped(NetSavings(spent, income));
    assert FieldsShaped(h, SpentKey, IncomeKey, NetKey, x, y, z);
    FirstFieldReads(h, SpentKey, IncomeKey, NetKey, x, y, z);
    SecondFieldReads(h, SpentKey, IncomeKey, NetKey, x, y, z);
    ThirdFieldReads(h, SpentKey, IncomeKey, NetKey, x, y, z);
  }

  /** A month the question names has no '='. */
  lemma ShapedMonthLacksEq(m: string)
    requires YearMonthShaped(m)
    ensures Lacks(m, '=')
  {
    assert forall j :: 0 <= j < 4 ==> m[j] == m[..4][j];
    assert forall j :: 5 <= j < 7 ==> m[j] == m[5..][j - 5];
  }

  // ---------------------------------------------------------------------
  // The retrieved context

  /** One transaction of the month as the context lists it. */
  datatype TxLine = TxLine(date: string, amount: real, description: Option<string>, categoryName: string)

  datatype Context = Context(
    userId: int, userName: string, userEmail: string, month: string,
    numericSummary: string, summaryText: string,
    topCategories: seq<(string, real)>, transactions: seq<TxLine>)

  /** A category sum as the (name, total) pair the context lists. */
  function NameTotal(g: ((int, string), real)): (string, real)
  {
    (g.0.1, g.1)
  }

  /** Category sums as (name, total) pairs, largest total first. */
  function NamesByTotal(groups: seq<((int, string), real)>): (r: seq<(string, real)>)
    ensures |r| == |groups|
    ensures NonIncreasing(r, Second)
    ensures forall g :: g in groups ==> NameTotal(g) in r
    ensures forall i :: 0 <= i < |r| ==> exists g :: g in groups && r[i] == NameTotal(g)
    ensures multiset(r) == multiset(Map(groups, NameTotal))
  {
    var sorted := SortDesc(groups, Second);
    var r := Map(sorted, NameTotal);
    MapPermutation(sorted, groups, NameTotal);
    PermutedMapMembers(r, groups, NameTotal);
    assert forall i :: 0 <= i < |r| ==> r[i].1 == sorted[i].1;
    r
  }

  /** Every expense category of the month with its total, largest first
      (`GROUP BY category ORDER BY SUM(amount) DESC`). */
  function TopRows(db: Db, userId: int, month: string): seq<(string, real)>
  {
    NamesByTotal(SpendByCategory(db, userId, month))
  }

  /** The first listed category carries the largest category total, the
      same one the stored summary names first. */
  lemma TopRowIsLargest(db: Db, userId: int, month: string, g: ((int, string), real))
    requires g in SpendByCategory(db, userId, month)
    ensures |TopRows(db, userId, month)| > 0
    ensures g.1 <= TopRows(db, userId, month)[0].1
    ensures TopRows(db, userId, month)[0] == NameTotal(TopCategories(db, userId, month)[0])
  {
    FirstIsLargest(SpendByCategory(db, userId, month), g);
  }

  lemma FirstIsLargest(groups: seq<((int, string), real)>, g: ((int, string), real))
    requires g in groups
    ensures |NamesByTotal(groups)| > 0
    ensures g.1 <= NamesByTotal(groups)[0].1
    ensures NamesByTotal(groups)[0] == NameTotal(Largest(groups, 3)[0])
  {
    var r := NamesByTotal(groups);
    var i :| 0 <= i < |r| && r[i] == NameTotal(g);
    assert r[0].1 >= r[i].1;
    assert Largest(groups, 3) == Take(SortDesc(groups, Second), 3);
  }

  /** A row of the user dated in `month`, whatever its category kind. */
  predicate InMonth(r: Row, userId: int, month: string)
  {
    r.tx.userId == userId && MonthOf(r.tx.date) == month
  }

  function InMonthOf(userId: int, month: string): Row -> bool
  {
    (r: Row) => InMonth(r, userId, month)
  }

  function MonthRows(db: Db, userId: int, month: string): (rs: seq<Row>)
    ensures forall r :: r in rs <==> r in Joined(db.categories, db.transactions) && InMonth(r, userId, month)
  {
    Filter(Joined(db.categories, db.transactions), InMonthOf(userId, month))
  }

  function LineOf(r: Row): TxLine
  {
    TxLine(r.tx.date, r.tx.amount, r.tx.description, r.category.name)
  }

  /** The month's transactions of every kind, ordered by date then id. */
  function TxLines(db: Db, userId: int, month: string): (r: seq<TxLine>)
    ensures |r| == |MonthRows(db, userId, month)|
    ensures forall i, j :: 0 <= i < j < |r| ==> !StrLess(r[j].date, r[i].date)
    ensures forall i :: 0 <= i < |r| ==> exists row :: row in MonthRows(db, userId, month) && r[i] == LineOf(row)
    ensures multiset(r) == multiset(Map(MonthRows(db, userId, month), LineOf))
  {
    LinesByDate(MonthRows(db, userId, month))
  }

  /** Rows as transaction lines, ordered by date then id. */
  function LinesByDate(rows: seq<Row>): (r: seq<TxLine>)
    ensures |r| == |rows|
    ensures forall i, j :: 0 <= i < j < |r| ==> !StrLess(r[j].date, r[i].date)
    ensures forall i :: 0 <= i < |r| ==> exists row :: row in rows && r[i] == LineOf(row)
    ensures multiset(r) == multiset(Map(rows, LineOf))
  {
    var sorted := SortByDateId(rows);
    var r := Map(sorted, LineOf);
    MapPermutation(sorted, rows, LineOf);
    PermutedMapMembers(r, rows, LineOf);
    assert |sorted| == |rows| by {
      assert |sorted| == |multiset(sorted)| == |multiset(rows)| == |rows|;
    }
    assert forall i, j :: 0 <= i < j < |r| ==> !StrLess(r[j].date, r[i].date) by {
      forall i, j | 0 <= i < j < |r| ensures !StrLess(r[j].date, r[i].date) {
        assert !TxBefore(sorted[j], sorted[i]);
      }
    }
    r
  }

  datatype Retrieval = Retrieval(db: Db, context: Option<Context>, info: string)

  /** `retrieve_context`: the month of the question (else the latest with
      data), the user, the freshly built and stored monthly summary and the
      month's figures. Only the summaries table changes. */
  function RetrieveContext(db: Db, userId: int, question: string): (r: Retrieval)
    ensures var (month, note) := ExtractMonth(db, userId, question);
            r.context.None? <==> month.None? || FindUser(db.users, userId).None?
    ensures var (month, note) := ExtractMonth(db, userId, question);
            month.None? ==> r == Retrieval(db, None, note)
    ensures ExtractMonth(db, userId, question).0.Some? && FindUser(db.users, userId).None? ==>
              r == Retrieval(db, None, "user_not_found")
    ensures r.db.users == db.users && r.db.categories == db.categories
         && r.db.transactions == db.transactions && r.db.budgets == db.budgets
    ensures r.context.Some? ==>
              var ctx := r.context.value;
              var (month, note) := ExtractMonth(db, userId, question);
              month == Some(ctx.month)
              && r.info == "retrieval_ok; " + note
              && ctx.userId == userId
              && ctx.numericSummary == NumericSummary(userId, ctx.month, TotalSpent(db, userId, ctx.month),
                                                      TotalIncome(db, userId, ctx.month))
              && FindSummary(r.db.summaries, userId, ctx.month).Some?
              && FindSummary(r.db.summaries, userId, ctx.month).value.summaryText == ctx.summaryText
              && ctx.topCategories == TopRows(db, userId, ctx.month)
              && ctx.transactions == TxLines(db, userId, ctx.month)
  {
    var (month, note) := ExtractMonth(db, userId, question);
    if month.None? then Retrieval(db, None, note)
    else if month.value == "" then
      assert false;
      Retrieval(db, None, note)
    else
      match FindUser(db.users, userId)
      case None => Retrieval(db, None, "user_not_found")
      case Some(user) =>
        var m := month.value;
        var (db', row) := BuildMonthlySummary(db, userId, m);
        CategorySumsAddUp(db, userId, m);
        var ctx := Context(
          userId, UserDisplayName(Some(user), userId), user.email, m,
          NumericSummary(userId, m, row.totalSpent, row.totalIncome), row.summaryText,
          TopRows(db, userId, m), TxLines(db, userId, m));
        Retrieval(db', Some(ctx), "retrieval_ok; " + note)
  }

  // ---------------------------------------------------------------------
  // The rule-based answer

  const ItemKeywords: seq<string> := ["pizza", "pasta", "coffee", "rent", "uber", "shopping"]

  /** The first keyword of the list that `q` contains. */
  function FirstKeyword(q: string, kws: seq<string>): (r: Option<nat>)
    ensures r.Some? ==> r.value < |kws| && Contains(q, kws[r.value])
    ensures r.Some? ==> forall j :: 0 <= j < r.value ==> !Contains(q, kws[j])
    ensures r.None? ==> forall j :: 0 <= j < |kws| ==> !Contains(q, kws[j])
    decreases |kws|
  {
    if |kws| == 0 then None
    else if Contains(q, kws[0]) then Some(0)
    else
      match FirstKeyword(q, kws[1..])
      case None => None
      case Some(k) => Some(k + 1)
  }

  /** What a lower-cased question asks, in the order the checks run. */
  datatype Intent =
    | ItemTotal(keyword: string)
    | HowMuchSpent
    | IncomeAsked
    | NetAsked
    | TopCategory
    | Overview
    | Fallback

  /** The question names one of the item keywords. */
  predicate NamesItem(q: string)
  {
    exists j :: 0 <= j < |ItemKeywords| && Contains(q, ItemKeywords[j])
  }

  predicate AsksHowMuch(q: string)
  {
    Contains(q, "how much") && Contains(q, "spend")
  }

  predicate AsksIncome(q: string)
  {
    Contains(q, "income")
  }

  predicate AsksTopCategory(q: string)
  {
    Contains(q, "top") && Contains(q, "category")
  }

  /** The first intent, in the answerer's order, whose keywords the
      question holds; the help text when it holds none. */
  function IntentOf(q: string): (r: Intent)
    ensures r.ItemTotal? <==> NamesItem(q)
    ensures r.ItemTotal? ==>
              exists i :: 0 <= i < |ItemKeywords| && ItemKeywords[i] == r.keyword && Contains(q, r.keyword)
                && forall j :: 0 <= j < i ==> !Contains(q, ItemKeywords[j])
    ensures r == HowMuchSpent <==> !NamesItem(q) && AsksHowMuch(q)
    ensures r == IncomeAsked <==> !NamesItem(q) && !AsksHowMuch(q) && AsksIncome(q)
    ensures r == NetAsked <==> !NamesItem(q) && !AsksHowMuch(q) && !AsksIncome(q) && AsksSavings(q)
    ensures r == TopCategory <==>
              !NamesItem(q) && !AsksHowMuch(q) && !AsksIncome(q) && !AsksSavings(q) && AsksTopCategory(q)
    ensures r == Overview <==>
              !NamesItem(q) && !AsksHowMuch(q) && !AsksIncome(q) && !AsksSavings(q) && !AsksTopCategory(q)
              && AsksSummary(q)
    ensures r == Fallback <==>
              !NamesItem(q) && !AsksHowMuch(q) && !AsksIncome(q) && !AsksSavings(q) && !AsksTopCategory(q)
              && !AsksSummary(q)
  {
    match FirstKeyword(q, ItemKeywords)
    case Some(i) => ItemTotal(ItemKeywords[i])
    case None =>
      if AsksHowMuch(q) then HowMuchSpent
      else if AsksIncome(q) then IncomeAsked
      else if AsksSavings(q) then NetAsked
      else if AsksTopCategory(q) then TopCategory
      else if AsksSummary(q) then Overview
      else Fallback
  }

  /** A line whose (non-empty) description mentions the keyword, compared
      in lower case. */
  predicate Mentions(l: TxLine, kw: string)
  {
    l.description.Some? && l.description.value != "" && Contains(Lower(l.description.value), kw)
  }

  function KeywordAmount(kw: string): TxLine -> real
  {
    (l: TxLine) => if Mentions(l, kw) then l.amount else 0.0
  }

  /** The summed amount of the lines whose description mentions `kw`. */
  function KeywordTotal(lines: seq<TxLine>, kw: string): real
  {
    SumOf(lines, KeywordAmount(kw))
  }

  function ItemFoundText(month: string, kw: string, total: real): string
  {
    "In " + month + ", your total spending on '" + kw + "' was " + Fmt2(total)
      + ", based on the transaction descriptions."
  }

  function ItemMissingText(month: string, kw: string): string
  {
    "In " + month + ", I did not find any transactions whose description contains '" + kw + "'."
  }

  function SpentText(month: string, x: string): string
  {
    "In " + month + ", you spent a total of " + x + "."
  }

  function IncomeText(month: string, y: string): string
  {
    "In " + month + ", your recorded income was " + y + "."
  }

  function NetText(month: string, net: string, y: string, x: string): string
  {
    "In " + month + ", your net savings (income minus expenses) were " + net + ". Income: " + y
      + ", Expenses: " + x + "."
  }

  const NotAvailable := "N/A"

  function TopCategoryText(month: string, top: seq<(string, real)>): string
  {
    if |top| == 0 then "In " + month + ", there are no expense categories recorded."
    else "In " + month + ", your top spending category was " + top[0].0 + " with " + Fmt2(top[0].1) + "."
  }

  function OverviewText(month: string, text: string): string
  {
    if text != "" then text else "No summary available for " + month + "."
  }

  function FallbackText(ctx: Context): string
  {
    "I can answer questions about your spending in " + ctx.month + " based on the database. "
      + "Key numbers are: " + ctx.numericSummary + ". Try asking things like "
      + "'How much did I spend?', 'What was my top category?', or "
      + "'What is my total Pizza spend in " + ctx.month + "?'."
  }

  /** The answer to one intent; None where the source's string splitting
      raises IndexError (a numeric summary without the field). */
  function AnswerFor(intent: Intent, ctx: Context): (r: Option<string>)
  {
    var ns := ctx.numericSummary;
    match intent
    case ItemTotal(kw) =>
      var t := KeywordTotal(ctx.transactions, kw);
      Some(if t > 0.0 then ItemFoundText(ctx.month, kw, t) else ItemMissingText(ctx.month, kw))
    case HowMuchSpent =>
      (match CommaField(ns, Marker(SpentKey))
       case None => None
       case Some(x) => Some(SpentText(ctx.month, x)))
    case IncomeAsked =>
      (match CommaField(ns, Marker(IncomeKey))
       case None => None
       case Some(y) => Some(IncomeText(ctx.month, y)))
    case NetAsked =>
      var net := (match WordField(ns, Marker(NetKey)) case None => NotAvailable case Some(w) => w);
      (match (CommaField(ns, Marker(IncomeKey)), CommaField(ns, Marker(SpentKey)))
       case (Some(y), Some(x)) => Some(NetText(ctx.month, net, y, x))
       case _ => None)
    case TopCategory => Some(TopCategoryText(ctx.month, ctx.topCategories))
    case Overview => Some(OverviewText(ctx.month, ctx.summaryText))
    case Fallback => Some(FallbackText(ctx))
  }

  /** `generate_answer_rule_based`: the answer to the question's intent;
      None exactly where a split of the numeric summary raises. */
  function GenerateAnswerRuleBased(question: string, ctx: Context): (r: Option<string>)
    ensures var i := IntentOf(Lower(question));
            var ns := ctx.numericSummary;
            (r.None? <==> (i == HowMuchSpent && !Contains(ns, Marker(SpentKey)))
                          || (i == IncomeAsked && !Contains(ns, Marker(IncomeKey)))
                          || (i == NetAsked && (!Contains(ns, Marker(SpentKey)) || !Contains(ns, Marker(IncomeKey)))))
    ensures var i := IntentOf(Lower(question));
            i.ItemTotal? ==>
              r == Some(if KeywordTotal(ctx.transactions, i.keyword) > 0.0
                        then ItemFoundText(ctx.month, i.keyword, KeywordTotal(ctx.transactions, i.keyword))
                        else ItemMissingText(ctx.month, i.keyword))
    ensures IntentOf(Lower(question)) == TopCategory ==> r == Some(TopCategoryText(ctx.month, ctx.topCategories))
    ensures IntentOf(Lower(question)) == Overview ==> r == Some(OverviewText(ctx.month, ctx.summaryText))
    ensures IntentOf(Lower(question)) == Fallback ==> r == Some(FallbackText(ctx))
  {
    AnswerFor(IntentOf(Lower(question)), ctx)
  }

  // ---------------------------------------------------------------------
  // What the answers say about a retrieved context

  /** The built line always carries the spent and income keys. */
  lemma SummaryHasMarkers(userId: int, month: string, spent: real, income: real)
    ensures Contains(NumericSummary(userId, month, spent, income), Marker(SpentKey))
    ensures Contains(NumericSummary(userId, month, spent, income), Marker(IncomeKey))
  {
    var h := Header(userId, month);
    var x := Fmt2(Abs(spent));
    var y := Fmt2(income);
    var z := Fmt2(NetSavings(spent, income));
    FirstFieldSplit(h, SpentKey, IncomeKey, NetKey, x, y, z);
    SecondFieldSplit(h, SpentKey, IncomeKey, NetKey, x, y, z);
    var rest1 := IncomeKey + "=" + ((y + ", " + NetKey) + "=" + z);
    ContainsInfix(h, Marker(SpentKey), x + ", " + rest1);
    var pre := h + SpentKey + "=" + x + ", ";
    ContainsInfix(pre, Marker(IncomeKey), y + ", " + (NetKey + "=" + z));
  }

  /** On a retrieved context the rule-based answer never raises. */
  lemma RetrievedAnswerExists(db: Db, userId: int, question: string, asked: string)
    requires RetrieveContext(db, userId, question).context.Some?
    ensures GenerateAnswerRuleBased(asked, RetrieveContext(db, userId, question).context.value).Some?
  {
    var ctx := RetrieveContext(db, userId, question).context.value;
    SummaryHasMarkers(userId, ctx.month, TotalSpent(db, userId, ctx.month), TotalIncome(db, userId, ctx.month));
  }

  /** The spent, income and net answers quote the amounts the context's
      summary line was written from. */
  lemma AnswersQuoteTotals(ctx: Context, spent: real, income: real, asked: string)
    requires ctx.numericSummary == NumericSummary(ctx.userId, ctx.month, spent, income)
    requires Lacks(ctx.month, '=')
    ensures var m := ctx.month;
            var a := GenerateAnswerRuleBased(asked, ctx);
            (IntentOf(Lower(asked)) == HowMuchSpent ==> a == Some(SpentText(m, Fmt2(Abs(spent)))))
            && (IntentOf(Lower(asked)) == IncomeAsked ==> a == Some(IncomeText(m, Fmt2(income))))
            && (IntentOf(Lower(asked)) == NetAsked ==>
                  a == Some(NetText(m, Fmt2(NetSavings(spent, income)), Fmt2(income), Fmt2(Abs(spent)))))
  {
    NumericSummaryRoundTrip(ctx.userId, ctx.month, spent, income);
  }

  /** On a retrieved context those amounts are the month's totals. The
      month must not contain '=', which holds whenever the question names
      it. */
  lemma RetrievedAnswersQuoteTotals(db: Db, userId: int, question: string, asked: string)
    requires RetrieveContext(db, userId, question).context.Some?
    requires ExtractMonths(question) != [] || Lacks(RetrieveContext(db, userId, question).context.value.month, '=')
    ensures var ctx := RetrieveContext(db, userId, question).context.value;
            var m := ctx.month;
            var spent := TotalSpent(db, userId, m);
            var income := TotalIncome(db, userId, m);
            var a := GenerateAnswerRuleBased(asked, ctx);
            (IntentOf(Lower(asked)) == HowMuchSpent ==> a == Some(SpentText(m, Fmt2(Abs(spent)))))
            && (IntentOf(Lower(asked)) == IncomeAsked ==> a == Some(IncomeText(m, Fmt2(income))))
            && (IntentOf(Lower(asked)) == NetAsked ==>
                  a == Some(NetText(m, Fmt2(NetSavings(spent, income)), Fmt2(income), Fmt2(Abs(spent)))))
  {
    var ctx := RetrieveContext(db, userId, question).context.value;
    if ExtractMonths(question) != [] {
      ShapedMonthLacksEq(ctx.month);
    }
    AnswersQuoteTotals(ctx, TotalSpent(db, userId, ctx.month), TotalIncome(db, userId, ctx.month), asked);
  }

  /** The keyword total of a row. */
  function RowKeywordAmount(kw: string): Row -> real
  {
    (r: Row) => KeywordAmount(kw)(LineOf(r))
  }

  /** The item answer's total does not depend on the listing order: it is
      the keyword sum over the month's rows. */
  lemma KeywordTotalIsMonthSum(db: Db, userId: int, month: string, kw: string)
    ensures KeywordTotal(TxLines(db, userId, month), kw) == SumOf(MonthRows(db, userId, month), RowKeywordAmount(kw))
  {
    var rows := MonthRows(db, userId, month);
    var sorted := SortByDateId(rows);
    assert TxLines(db, userId, month) == Map(sorted, LineOf);
    SumOfMapped(sorted, LineOf, KeywordAmount(kw), RowKeywordAmount(kw));
    SumOfPermutation(sorted, rows, RowKeywordAmount(kw));
  }

  /** The top-category answer names the largest category total of the
      month, the one the stored summary lists first; with no expense it
      says there is none. */
  lemma RetrievedTopAnswer(db: Db, userId: int, question: string, asked: string)
    requires RetrieveContext(db, userId, question).context.Some?
    requires IntentOf(Lower(asked)) == TopCategory
    ensures var ctx := RetrieveContext(db, userId, question).context.value;
            var groups := SpendByCategory(db, userId, ctx.month);
            var a := GenerateAnswerRuleBased(asked, ctx);
            (|groups| == 0 ==> a == Some("In " + ctx.month + ", there are no expense categories recorded."))
            && (|groups| > 0 ==>
                  var best := NameTotal(TopCategories(db, userId, ctx.month)[0]);
                  a == Some("In " + ctx.month + ", your top spending category was " + best.0
                            + " with " + Fmt2(best.1) + ".")
                  && forall g :: g in groups ==> g.1 <= best.1)
  {
    var ctx := RetrieveContext(db, userId, question).context.value;
    var groups := SpendByCategory(db, userId, ctx.month);
    if |groups| > 0 {
      forall g | g in groups
        ensures g.1 <= NameTotal(TopCategories(db, userId, ctx.month)[0]).1
      {
        TopRowIsLargest(db, userId, ctx.month, g);
      }
      TopRowIsLargest(db, userId, ctx.month, groups[0]);
    }
  }

  /** The overview answer is the summary just stored for the month, which
      is never empty, so the "no summary" reply cannot occur. */
  lemma RetrievedOverview(db: Db, userId: int, question: string, asked: string)
    requires RetrieveContext(db, userId, question).context.Some?
    requires IntentOf(Lower(asked)) == Overview
    ensures var r := RetrieveContext(db, userId, question);
            var ctx := r.context.value;
            GenerateAnswerRuleBased(asked, ctx) == Some(FindSummary(r.db.summaries, userId, ctx.month).value.summaryText)
            && StartsWith(ctx.summaryText, "Summary for " + ctx.month + ":\n")
  {
  }
}

=== FILE: calendar.dfy ===
/** Gregorian dates for the weekend test of the feature builder: the strict
    `%Y-%m-%d` parse of `datetime.strptime`, the ISO `YYYY-MM-DD` fallback,
    the day ordinal (1 for 0001-01-01) and the weekday derived from it,
    Monday = 0 through Sunday = 6 as `date.weekday()` numbers them. */
module Calendar {
  import opened Common
  import opened Text

  datatype Date = Date(year: int, month: int, day: int)

  predicate Leap(y: int)
  {
    y % 4 == 0 && (y % 100 != 0 || y % 400 == 0)
  }

  function DaysInMonth(y: int, m: int): (n: int)
    requires 1 <= m <= 12
    ensures 28 <= n <= 31
  {
    if m == 2 then (if Leap(y) then 29 else 28)
    else if m == 4 || m == 6 || m == 9 || m == 11 then 30
    else 31
  }

  function DaysInYear(y: int): int
  {
    if Leap(y) then 366 else 365
  }

  /** A date `datetime` accepts: years 1 to 9999 and a day that exists in
      its month. */
  predicate Valid(d: Date)
  {
    1 <= d.year <= 9999 && 1 <= d.month <= 12 && 1 <= d.day <= DaysInMonth(d.year, d.month)
  }

  /** Days in the years before `y`. */
  function DaysBeforeYear(y: int): int
    requires y >= 1
  {
    var p := y - 1;
    p * 365 + p / 4 - p / 100 + p / 400
  }

  /** Days in the months of year `y` before month `m`. */
  function DaysBeforeMonth(y: int, m: int): (n: int)
    requires 1 <= m <= 12
    ensures n >= 0
    decreases m
  {
    if m == 1 then 0 else DaysBeforeMonth(y, m - 1) + DaysInMonth(y, m - 1)
  }

  /** `date.toordinal()`: 0001-01-01 is day 1. */
  function Ordinal(d: Date): (n: int)
    requires Valid(d)
    ensures n >= 1
  {
    DaysBeforeYear(d.year) + DaysBeforeMonth(d.year, d.month) + d.day
  }

  /** `date.weekday()`: Monday is 0, Sunday is 6. */
  function Weekday(d: Date): (w: int)
    requires Valid(d)
    ensures 0 <= w < 7
  {
    (Ordinal(d) + 6) % 7
  }

  /** The calendar day after `d`. */
  function NextDay(d: Date): (r: Date)
    requires Valid(d) && (d.year < 9999 || d.month < 12 || d.day < 31)
    ensures Valid(r)
  {
    if d.day < DaysInMonth(d.year, d.month) then Date(d.year, d.month, d.day + 1)
    else if d.month < 12 then Date(d.year, d.month + 1, 1)
    else Date(d.year + 1, 1, 1)
  }

  lemma DaysBeforeDecember(y: int)
    ensures DaysBeforeMonth(y, 12) + 31 == DaysInYear(y)
  {
  }

  /** The leap-day count grows by one from `y - 1` to `y` exactly in
      leap years. */
  lemma LeapDays(y: int)
    requires y >= 1
    ensures (y / 4 - y / 100 + y / 400) - ((y - 1) / 4 - (y - 1) / 100 + (y - 1) / 400)
            == if Leap(y) then 1 else 0
  {
    DivStep4(y);
    DivStep100(y);
    DivStep400(y);
    DivisorChain(y);
  }

  lemma DivStep4(y: int)
    ensures y / 4 - (y - 1) / 4 == if y % 4 == 0 then 1 else 0
  {
  }

  lemma DivStep100(y: int)
    ensures y / 100 - (y - 1) / 100 == if y % 100 == 0 then 1 else 0
  {
  }

  lemma DivStep400(y: int)
    ensures y / 400 - (y - 1) / 400 == if y % 400 == 0 then 1 else 0
  {
  }

  lemma DivisorChain(y: int)
    ensures y % 400 == 0 ==> y % 100 == 0
    ensures y % 100 == 0 ==> y % 4 == 0
  {
  }

  lemma YearStep(y: int)
    requires y >= 1
    ensures DaysBeforeYear(y + 1) == DaysBeforeYear(y) + DaysInYear(y)
  {
    LeapDays(y);
  }

  /** Consecutive days have consecutive ordinals. */
  lemma NextDayOrdinal(d: Date)
    requires Valid(d) && (d.year < 9999 || d.month < 12 || d.day < 31)
    ensures Ordinal(NextDay(d)) == Ordinal(d) + 1
  {
    if d.day == DaysInMonth(d.year, d.month) && d.month == 12 {
      YearStep(d.year);
      DaysBeforeDecember(d.year);
    }
  }

  /** The weekday advances by one from each day to the next, wrapping from
      Sunday to Monday. */
  lemma NextDayWeekday(d: Date)
    requires Valid(d) && (d.year < 9999 || d.month < 12 || d.day < 31)
    ensures Weekday(NextDay(d)) == (Weekday(d) + 1) % 7
  {
    NextDayOrdinal(d);
    WeekStep(Ordinal(d) + 6);
  }

  lemma WeekStep(a: int)
    ensures (a + 1) % 7 == (a % 7 + 1) % 7
  {
  }

  /** A fixed point of the calendar: 6 January 2024 was a Saturday. */
  lemma KnownSaturday()
    ensures Weekday(Date(2024, 1, 6)) == 5
  {
    assert DaysBeforeYear(2024) == 738885;
  }

  // ---------------------------------------------------------------------
  // Parsing

  function DigitValue(c: char): (n: nat)
    requires IsDigit(c)
    ensures n < 10
  {
    c as int - '0' as int
  }

  /** A matched date field: its value and how many characters it used. */
  datatype Token = Token(value: nat, width: nat)

  /** The `%m` field `1[0-2]|0[1-9]|[1-9]`, first alternative that matches. */
  function MonthToken(t: string): (r: Option<Token>)
    ensures r.Some? ==> 1 <= r.value.value <= 12 && 1 <= r.value.width <= 2 && r.value.width <= |t|
  {
    if |t| >= 2 && t[0] == '1' && '0' <= t[1] <= '2' then Some(Token(10 + DigitValue(t[1]), 2))
    else if |t| >= 2 && t[0] == '0' && '1' <= t[1] <= '9' then Some(Token(DigitValue(t[1]), 2))
    else if |t| >= 1 && '1' <= t[0] <= '9' then Some(Token(DigitValue(t[0]), 1))
    else None
  }

  /** The `%d` field `3[01]|[12]\d|0[1-9]|[1-9]| [1-9]`, first alternative
      that matches. */
  function DayToken(t: string): (r: Option<Token>)
    ensures r.Some? ==> 1 <= r.value.value <= 31 && 1 <= r.value.width <= 2 && r.value.width <= |t|
  {
    if |t| >= 2 && t[0] == '3' && '0' <= t[1] <= '1' then Some(Token(30 + DigitValue(t[1]), 2))
    else if |t| >= 2 && '1' <= t[0] <= '2' && IsDigit(t[1]) then
      Some(Token(10 * DigitValue(t[0]) + DigitValue(t[1]), 2))
    else if |t| >= 2 && t[0] == '0' && '1' <= t[1] <= '9' then Some(Token(DigitValue(t[1]), 2))
    else if |t| >= 1 && '1' <= t[0] <= '9' then Some(Token(DigitValue(t[0]), 1))
    else if |t| >= 2 && t[0] == ' ' && '1' <= t[1] <= '9' then Some(Token(DigitValue(t[1]), 2))
    else None
  }

  /** `datetime.strptime(s, "%Y-%m-%d")`: four year digits, a dash, the
      month field, a dash and the day field, with nothing left over, naming
      a date that exists. None stands for the `ValueError`. */
  function ParseStrict(s: string): (r: Option<Date>)
    ensures r.Some? ==> Valid(r.value)
  {
    if |s| < 7 || !AllDigits(s[..4]) || s[4] != '-' then None
    else
      match MonthToken(s[5..])
      case None => None
      case Some(m) =>
        var rest := s[5 + m.width..];
        if |rest| == 0 || rest[0] != '-' then None
        else
          match DayToken(rest[1..])
          case None => None
          case Some(d) =>
            var date := Date(DigitsValue(s[..4]), m.value, d.value);
            if d.width == |rest| - 1 && Valid(date) then Some(date) else None
  }

  predicate TwoDigits(s: string, i: nat)
  {
    i + 2 <= |s| && IsDigit(s[i]) && IsDigit(s[i + 1])
  }

  /** The `YYYY-MM-DD` shape `fromisoformat` reads a date alone in. */
  predicate IsoShaped(s: string)
  {
    |s| == 10 && AllDigits(s[..4]) && s[4] == '-' && TwoDigits(s, 5) && s[7] == '-' && TwoDigits(s, 8)
  }

  /** The year, month and day fields of an ISO-shaped string, not yet
      checked against the calendar. */
  function IsoFields(s: string): Date
    requires IsoShaped(s)
  {
    Date(DigitsValue(s[..4]), 10 * DigitValue(s[5]) + DigitValue(s[6]),
         10 * DigitValue(s[8]) + DigitValue(s[9]))
  }

  /** `datetime.fromisoformat(s)` on a date alone: exactly `YYYY-MM-DD`,
      naming a date that exists. */
  function ParseIso(s: string): (r: Option<Date>)
    ensures r.Some? ==> Valid(r.value)
    ensures r.Some? <==> IsoShaped(s) && Valid(IsoFields(s))
  {
    if IsoShaped(s) && Valid(IsoFields(s)) then Some(IsoFields(s)) else None
  }

  /** The message `fromisoformat` fails with: the input quoted after a
      colon, as its `repr` prints a string without quotes or escapes. */
  function InvalidIsoFormat(s: string): string
  {
    "Invalid isoformat string: '" + s + "'"
  }

  /** The message the `datetime` constructor fails with on fields that name
      no date, checking the year, then the month, then the day (CPython's
      `check_date_args`); it does not quote the input. */
  function DateRangeError(d: Date): string
  {
    if d.year < 1 || d.year > 9999 then "year " + IntToString(d.year) + " is out of range"
    else if d.month < 1 || d.month > 12 then "month must be in 1..12"
    else "day is out of range for month"
  }

  /** `_is_weekend`: the strict parse, else the ISO fallback, else the
      fallback's error; true exactly on Saturday and Sunday. A string of the
      wrong shape fails the ISO parse itself; a well-shaped string naming no
      date fails afterwards, in the `datetime` constructor. */
  function IsWeekend(s: string): (r: Result<bool, string>)
    ensures r.Ok? <==> ParseStrict(s).Some? || ParseIso(s).Some?
    ensures ParseStrict(s).Some? ==> r == Ok(Weekday(ParseStrict(s).value) >= 5)
    ensures r.Err? && !IsoShaped(s) ==> r.error == InvalidIsoFormat(s)
    ensures r.Err? && IsoShaped(s) ==> !Valid(IsoFields(s)) && r.error == DateRangeError(IsoFields(s))
  {
    match ParseStrict(s)
    case Some(d) => Ok(Weekday(d) >= 5)
    case None =>
      match ParseIso(s)
      case Some(d) => Ok(Weekday(d) >= 5)
      case None =>
        if IsoShaped(s) then Err(DateRangeError(IsoFields(s))) else Err(InvalidIsoFormat(s))
  }

  /** 30 February 2024 has the ISO shape but names no date: the weekend
      test fails with the constructor's day message, not the format one. */
  lemma ImpossibleDateMessage()
    ensures IsWeekend("2024-02-30") == Err("day is out of range for month")
  {
    var s := "2024-02-30";
    assert s[..4] == "2024";
    FourDigits(s[..4]);
    assert IsoShaped(s);
    assert IsoFields(s) == Date(2024, 2, 30);
  }

  /** Within the modelled `YYYY-MM-DD` form, every string the ISO fallback
      accepts the strict parse already accepts, with the same date. */
  lemma IsoFallbackRedundant(s: string)
    requires ParseIso(s).Some?
    ensures ParseStrict(s) == ParseIso(s)
  {
    var date := ParseIso(s).value;
    assert s[5..][0] == s[5] && s[5..][1] == s[6];
    assert MonthToken(s[5..]) == Some(Token(date.month, 2));
    var rest := s[7..];
    assert rest[1..] == s[8..];
    assert s[8..][0] == s[8] && s[8..][1] == s[9];
    assert DayToken(rest[1..]) == Some(Token(date.day, 2));
  }

  /** `date.isoformat()`: zero-padded `YYYY-MM-DD`. */
  function FormatIso(d: Date): (s: string)
    requires Valid(d)
    ensures |s| == 10
  {
    [DigitChar(d.year / 1000), DigitChar(d.year / 100 % 10), DigitChar(d.year / 10 % 10),
     DigitChar(d.year % 10), '-', DigitChar(d.month / 10), DigitChar(d.month % 10), '-',
     DigitChar(d.day / 10), DigitChar(d.day % 10)]
  }

  lemma FourDigits(s: string)
    requires |s| == 4 && AllDigits(s)
    ensures DigitsValue(s) == 1000 * DigitValue(s[0]) + 100 * DigitValue(s[1])
                              + 10 * DigitValue(s[2]) + DigitValue(s[3])
  {
    assert s[..1][..0] == [];
    assert s[..2][..1] == s[..1];
    assert s[..3][..2] == s[..2];
    assert s[..4][..3] == s[..3];
    assert DigitsValue(s[..1]) == DigitValue(s[0]);
    assert DigitsValue(s[..2]) == DigitsValue(s[..1]) * 10 + DigitValue(s[1]);
    assert DigitsValue(s[..3]) == DigitsValue(s[..2]) * 10 + DigitValue(s[2]);
    assert s[..4] == s;
  }

  lemma YearDigits(y: int)
    requires 0 <= y <= 9999
    ensures 1000 * (y / 1000) + 100 * (y / 100 % 10) + 10 * (y / 10 % 10) + y % 10 == y
  {
    var tens := y / 10;
    var hundreds := tens / 10;
    assert y == 10 * tens + y % 10;
    assert tens == 10 * hundreds + tens % 10;
    assert y == 100 * hundreds + 10 * (tens % 10) + y % 10;
    assert y / 100 == hundreds;
    assert hundreds == 10 * (hundreds / 10) + hundreds % 10;
    assert y == 1000 * (hundreds / 10) + 100 * (hundreds % 10) + 10 * (tens % 10) + y % 10;
    assert y / 1000 == hundreds / 10;
  }

  /** Both parsers read back what `isoformat` writes. */
  lemma ParseFormatIso(d: Date)
    requires Valid(d)
    ensures ParseIso(FormatIso(d)) == Some(d)
    ensures ParseStrict(FormatIso(d)) == Some(d)
  {
    var s := FormatIso(d);
    FourDigits(s[..4]);
    YearDigits(d.year);
    assert DigitsValue(s[..4]) == d.year;
    assert 10 * DigitValue(s[5]) + DigitValue(s[6]) == d.month;
    assert 10 * DigitValue(s[8]) + DigitValue(s[9]) == d.day;
    assert IsoShaped(s) && IsoFields(s) == d;
    assert ParseIso(s) == Some(d);
    IsoFallbackRedundant(s);
  }
}

=== FILE: common.dfy ===
/** Generic building blocks shared by every part of the insight engine:
    optional values and results, real-valued sums, filters, de-duplication
    in first-seen order, group-by sums and a stable descending sort. */
module Common {

  datatype Option<+T> = None | Some(value: T)

  datatype Result<+T, +E> = Ok(value: T) | Err(error: E)

  function Abs(x: real): (r: real)
    ensures r >= 0.0
    ensures r == x || r == -x
  {
    if x < 0.0 then -x else x
  }

  function Max(a: real, b: real): (r: real)
    ensures r >= a && r >= b
    ensures r == a || r == b
  {
    if a >= b then a else b
  }

  /** Sum of a sequence of reals, as Python's `sum` or SQL `SUM` (exact here). */
  function Sum(xs: seq<real>): real
  {
    if |xs| == 0 then 0.0 else xs[0] + Sum(xs[1..])
  }

  lemma {:induction false} SumAppend(a: seq<real>, b: seq<real>)
    ensures Sum(a + b) == Sum(a) + Sum(b)
    decreases |a|
  {
    if |a| == 0 {
      assert a + b == b;
    } else {
      assert (a + b)[1..] == a[1..] + b;
      SumAppend(a[1..], b);
    }
  }

  lemma {:induction false} SumNonNegative(xs: seq<real>)
    requires forall i :: 0 <= i < |xs| ==> xs[i] >= 0.0
    ensures Sum(xs) >= 0.0
    decreases |xs|
  {
    if |xs| > 0 {
      SumNonNegative(xs[1..]);
    }
  }

  /** Dividing every element by `d` divides the sum by `d`. */
  lemma {:induction false} SumScaled(xs: seq<real>, ys: seq<real>, d: real)
    requires d != 0.0
    requires |xs| == |ys|
    requires forall i :: 0 <= i < |xs| ==> ys[i] == xs[i] / d
    ensures Sum(ys) == Sum(xs) / d
    decreases |xs|
  {
    if |xs| > 0 {
      SumScaled(xs[1..], ys[1..], d);
      assert Sum(ys) == ys[0] + Sum(ys[1..]);
      assert Sum(xs) == xs[0] + Sum(xs[1..]);
    }
  }

  lemma {:induction false} SumZeros(xs: seq<real>)
    requires forall i :: 0 <= i < |xs| ==> xs[i] == 0.0
    ensures Sum(xs) == 0.0
    decreases |xs|
  {
    if |xs| > 0 {
      SumZeros(xs[1..]);
    }
  }

  /** The elements of `xs` that satisfy `p`, in their original order. */
  function Filter<T(!new)>(xs: seq<T>, p: T -> bool): (r: seq<T>)
    ensures |r| <= |xs|
    ensures forall x :: x in r <==> x in xs && p(x)
    ensures forall i :: 0 <= i < |r| ==> p(r[i])
    decreases |xs|
  {
    if |xs| == 0 then []
    else if p(xs[0]) then [xs[0]] + Filter(xs[1..], p)
    else Filter(xs[1..], p)
  }

  lemma {:induction false} FilterAppend<T(!new)>(a: seq<T>, b: seq<T>, p: T -> bool)
    ensures Filter(a + b, p) == Filter(a, p) + Filter(b, p)
    decreases |a|
  {
    if |a| > 0 {
      assert (a + b)[1..] == a[1..] + b;
      FilterAppend(a[1..], b, p);
    } else {
      assert a + b == b;
    }
  }

  ghost predicate Distinct<T>(xs: seq<T>)
  {
    forall i, j :: 0 <= i < j < |xs| ==> xs[i] != xs[j]
  }

  /** Keeps the first occurrence of every value, in first-seen order:
      the `if value not in seen: seen.append(value)` idiom. */
  function Dedup<T(==,!new)>(xs: seq<T>): (r: seq<T>)
    ensures forall x :: x in r <==> x in xs
    ensures Distinct(r)
    ensures |r| <= |xs|
    decreases |xs|
  {
    if |xs| == 0 then []
    else
      var d := Dedup(xs[..|xs| - 1]);
      var x := xs[|xs| - 1];
      assert xs == xs[..|xs| - 1] + [x];
      if x in d then d else d + [x]
  }

  /** The first element survives de-duplication in front. */
  lemma {:induction false} DedupHead<T(!new)>(xs: seq<T>)
    requires |xs| > 0
    ensures |Dedup(xs)| > 0 && Dedup(xs)[0] == xs[0]
    decreases |xs|
  {
    if |xs| > 1 {
      DedupHead(xs[..|xs| - 1]);
      assert xs[..|xs| - 1][0] == xs[0];
    }
  }

  /** `x` occurs in `s` somewhere before `y`. */
  ghost predicate Precedes<T>(s: seq<T>, x: T, y: T)
  {
    exists i, j :: 0 <= i < j < |s| && s[i] == x && s[j] == y
  }

  /** De-duplicating a longer sequence only appends to the de-duplicated
      prefix. */
  lemma {:induction false} DedupPrefix<T(!new)>(a: seq<T>, b: seq<T>)
    ensures Dedup(a) <= Dedup(a + b)
    decreases |b|
  {
    if |b| == 0 {
      assert a + b == a;
    } else {
      var ab := a + b;
      assert ab[..|ab| - 1] == a + b[..|b| - 1];
      DedupPrefix(a, b[..|b| - 1]);
    }
  }

  /** In the de-duplication of `a + b`, everything of `a` comes before
      everything that only `b` holds: first occurrences keep their order. */
  lemma DedupEarlierFirst<T(!new)>(a: seq<T>, b: seq<T>, x: T, y: T)
    requires x in a && y in Dedup(a + b) && y !in a
    ensures Precedes(Dedup(a + b), x, y)
  {
    var d, da := Dedup(a + b), Dedup(a);
    DedupPrefix(a, b);
    var i :| 0 <= i < |da| && da[i] == x;
    var j :| 0 <= j < |d| && d[j] == y;
    assert y !in da;
    assert forall k :: 0 <= k < |da| ==> d[k] == da[k];
    assert j >= |da|;
    assert d[i] == x;
  }

  /** Number of elements of `xs` equal to `x`. */
  function Count<T(==)>(xs: seq<T>, x: T): (n: nat)
    ensures n <= |xs|
    ensures n == 0 <==> x !in xs
    decreases |xs|
  {
    if |xs| == 0 then 0
    else (if xs[0] == x then 1 else 0) + Count(xs[1..], x)
  }

  /** Sum of `val(x)` over the elements `x` of `xs` with `key(x) == k`. */
  function SumWhere<T, K(==)>(xs: seq<T>, key: T -> K, val: T -> real, k: K): real
    decreases |xs|
  {
    if |xs| == 0 then 0.0
    else (if key(xs[0]) == k then val(xs[0]) else 0.0) + SumWhere(xs[1..], key, val, k)
  }

  lemma {:induction false} SumWhereAppend<T, K>(a: seq<T>, b: seq<T>, key: T -> K, val: T -> real, k: K)
    ensures SumWhere(a + b, key, val, k) == SumWhere(a, key, val, k) + SumWhere(b, key, val, k)
    decreases |a|
  {
    if |a| == 0 {
      assert a + b == b;
    } else {
      assert (a + b)[1..] == a[1..] + b;
      SumWhereAppend(a[1..], b, key, val, k);
    }
  }

  lemma SumWhereSingle<T, K>(t: T, key: T -> K, val: T -> real, k: K)
    ensures SumWhere([t], key, val, k) == if key(t) == k then val(t) else 0.0
  {
    assert [t][1..] == [];
  }

  /** Sum of `val(x)` over all elements. */
  function SumOf<T>(xs: seq<T>, val: T -> real): real
    decreases |xs|
  {
    if |xs| == 0 then 0.0 else val(xs[0]) + SumOf(xs[1..], val)
  }

  lemma {:induction false} SumOfAppend<T>(a: seq<T>, b: seq<T>, val: T -> real)
    ensures SumOf(a + b, val) == SumOf(a, val) + SumOf(b, val)
    decreases |a|
  {
    if |a| == 0 {
      assert a + b == b;
    } else {
      assert (a + b)[1..] == a[1..] + b;
      SumOfAppend(a[1..], b, val);
    }
  }

  /** Summing mapped elements is summing the composed function. */
  lemma {:induction false} SumOfMapped<T, U>(xs: seq<T>, f: T -> U, g: U -> real, h: T -> real)
    requires forall x :: h(x) == g(f(x))
    ensures SumOf(Map(xs, f), g) == SumOf(xs, h)
    decreases |xs|
  {
    if |xs| > 0 {
      assert Map(xs, f)[1..] == Map(xs[1..], f);
      SumOfMapped(xs[1..], f, g, h);
    }
  }

  /** Removing element j from a sum. */
  lemma SumOfExcept<T>(ys: seq<T>, j: nat, val: T -> real)
    requires j < |ys|
    ensures SumOf(ys, val) == val(ys[j]) + SumOf(ys[..j] + ys[j + 1..], val)
  {
    var pre, tail := ys[..j], ys[j..];
    assert ys == pre + tail;
    SumOfAppend(pre, tail, val);
    assert tail[0] == ys[j] && tail[1..] == ys[j + 1..];
    SumOfAppend(pre, tail[1..], val);
  }

  /** A sum does not depend on the order of its terms. */
  lemma {:induction false} SumOfPermutation<T>(xs: seq<T>, ys: seq<T>, val: T -> real)
    requires multiset(xs) == multiset(ys)
    ensures SumOf(xs, val) == SumOf(ys, val)
    decreases |xs|
  {
    if |xs| == 0 {
      assert |multiset(ys)| == 0;
    } else {
      var rest := MatchFirst(xs, ys, val);
      SumOfPermutation(xs[1..], rest, val);
    }
  }

  /** Takes the first element of `xs` out of its permutation `ys`. */
  lemma MatchFirst<T>(xs: seq<T>, ys: seq<T>, val: T -> real) returns (rest: seq<T>)
    requires |xs| > 0 && multiset(xs) == multiset(ys)
    ensures multiset(xs[1..]) == multiset(rest)
    ensures SumOf(ys, val) == val(xs[0]) + SumOf(rest, val)
  {
    var j := Occurrence(ys, xs[0]);
    MultisetTail(xs);
    MultisetWithout(ys, j);
    rest := ys[..j] + ys[j + 1..];
    SumOfExcept(ys, j, val);
  }

  lemma Occurrence<T>(ys: seq<T>, x: T) returns (j: nat)
    requires x in multiset(ys)
    ensures j < |ys| && ys[j] == x
  {
    j :| 0 <= j < |ys| && ys[j] == x;
  }

  lemma MultisetTail<T>(xs: seq<T>)
    requires |xs| > 0
    ensures multiset(xs[1..]) == multiset(xs) - multiset{xs[0]}
  {
    assert xs == [xs[0]] + xs[1..];
  }

  lemma MultisetWithout<T>(ys: seq<T>, j: nat)
    requires j < |ys|
    ensures multiset(ys[..j] + ys[j + 1..]) == multiset(ys) - multiset{ys[j]}
  {
    assert ys == ys[..j] + [ys[j]] + ys[j + 1..];
  }

  /** The `k` entries of a filtered sequence are the entries of the filter
      that also asks for key `k`. */
  lemma {:induction false} SumWhereOfFilter<T(!new), K>(xs: seq<T>, p: T -> bool, q: T -> bool, key: T -> K, val: T -> real, k: K)
    requires forall x :: q(x) == (p(x) && key(x) == k)
    ensures SumWhere(Filter(xs, p), key, val, k) == SumOf(Filter(xs, q), val)
    decreases |xs|
  {
    if |xs| > 0 {
      SumWhereOfFilter(xs[1..], p, q, key, val, k);
    }
  }

  /** Summing the elements a filter keeps is summing the elements of one key. */
  lemma {:induction false} SumOfFilterIsSumWhere<T(!new), K>(xs: seq<T>, p: T -> bool, key: T -> K, val: T -> real, k: K)
    requires forall x :: p(x) == (key(x) == k)
    ensures SumOf(Filter(xs, p), val) == SumWhere(xs, key, val, k)
    decreases |xs|
  {
    if |xs| > 0 {
      SumOfFilterIsSumWhere(xs[1..], p, key, val, k);
    }
  }

  /** The value of a key/value pair. */
  function Second<K>(kv: (K, real)): real
  {
    kv.1
  }

  /** The group sums add up to the plain sum. */
  lemma GroupSumsTotal<T, K(!new)>(xs: seq<T>, key: T -> K, val: T -> real)
    ensures SumOf(GroupSums(xs, key, val), Second) == SumOf(xs, val)
  {
    var r := GroupSums(xs, key, val);
    var ks := KeysOf(r);
    forall i | 0 <= i < |xs| ensures key(xs[i]) in ks {
    }
    GroupedSumIsTotal(ks, xs, key, val);
    GroupValuesOverKeys(r, ks, xs, key, val);
  }

  lemma {:induction false} GroupValuesOverKeys<T, K>(r: seq<(K, real)>, ks: seq<K>, xs: seq<T>, key: T -> K, val: T -> real)
    requires |ks| == |r|
    requires forall i :: 0 <= i < |r| ==> r[i].0 == ks[i] && r[i].1 == SumWhere(xs, key, val, ks[i])
    ensures SumOf(r, Second) == SumOverKeys(ks, xs, key, val)
    decreases |r|
  {
    if |r| > 0 {
      GroupValuesOverKeys(r[1..], ks[1..], xs, key, val);
    }
  }

  /** Sum over the keys `ks` of the per-key sums of `xs`. */
  function SumOverKeys<T, K(==)>(ks: seq<K>, xs: seq<T>, key: T -> K, val: T -> real): real
    decreases |ks|
  {
    if |ks| == 0 then 0.0 else SumWhere(xs, key, val, ks[0]) + SumOverKeys(ks[1..], xs, key, val)
  }

  /** Over distinct keys that contain `k` exactly once, the indicator sum picks one term. */
  lemma {:induction false} SumOverKeysSingle<T, K>(ks: seq<K>, t: T, key: T -> K, val: T -> real)
    requires Distinct(ks)
    requires key(t) in ks
    ensures SumOverKeys(ks, [t], key, val) == val(t)
    decreases |ks|
  {
    SumWhereSingle(t, key, val, ks[0]);
    if ks[0] == key(t) {
      assert key(t) !in ks[1..];
      SumOverKeysAbsent(ks[1..], t, key, val);
    } else {
      SumOverKeysSingle(ks[1..], t, key, val);
    }
  }

  lemma {:induction false} SumOverKeysAbsent<T, K>(ks: seq<K>, t: T, key: T -> K, val: T -> real)
    requires key(t) !in ks
    ensures SumOverKeys(ks, [t], key, val) == 0.0
    decreases |ks|
  {
    if |ks| > 0 {
      SumWhereSingle(t, key, val, ks[0]);
      SumOverKeysAbsent(ks[1..], t, key, val);
    }
  }

  lemma {:induction false} SumOverKeysSplit<T, K>(ks: seq<K>, t: T, rest: seq<T>, key: T -> K, val: T -> real)
    ensures SumOverKeys(ks, [t] + rest, key, val)
         == SumOverKeys(ks, [t], key, val) + SumOverKeys(ks, rest, key, val)
    decreases |ks|
  {
    if |ks| > 0 {
      SumWhereAppend([t], rest, key, val, ks[0]);
      SumOverKeysSplit(ks[1..], t, rest, key, val);
    }
  }

  /** Grouping never double counts: summing the per-key sums over a list of
      distinct keys that covers every key gives the plain total. */
  lemma {:induction false} GroupedSumIsTotal<T, K>(ks: seq<K>, xs: seq<T>, key: T -> K, val: T -> real)
    requires Distinct(ks)
    requires forall i :: 0 <= i < |xs| ==> key(xs[i]) in ks
    ensures SumOverKeys(ks, xs, key, val) == SumOf(xs, val)
    decreases |xs|
  {
    if |xs| == 0 {
      SumOverKeysEmpty(ks, xs, key, val);
    } else {
      assert xs == [xs[0]] + xs[1..];
      SumOverKeysSplit(ks, xs[0], xs[1..], key, val);
      SumOverKeysSingle(ks, xs[0], key, val);
      GroupedSumIsTotal(ks, xs[1..], key, val);
    }
  }

  lemma {:induction false} SumOverKeysEmpty<T, K>(ks: seq<K>, xs: seq<T>, key: T -> K, val: T -> real)
    requires |xs| == 0
    ensures SumOverKeys(ks, xs, key, val) == 0.0
    decreases |ks|
  {
    if |ks| > 0 {
      SumOverKeysEmpty(ks[1..], xs, key, val);
    }
  }

  /** Inserts `x` into `xs` (non-increasing by `key`) after every element whose
      key is at least `key(x)`: a stable descending insertion. */
  function InsertDesc<T>(x: T, xs: seq<T>, key: T -> real): (r: seq<T>)
    requires NonIncreasing(xs, key)
    ensures NonIncreasing(r, key)
    ensures multiset(r) == multiset(xs) + multiset{x}
    ensures |r| == |xs| + 1
    ensures forall k :: 0 <= k < |r| ==> r[k] == x || r[k] in xs
    decreases |xs|
  {
    if |xs| == 0 then [x]
    else if key(xs[0]) >= key(x) then
      var tail := InsertDesc(x, xs[1..], key);
      ConsSorted(xs, x, tail, key);
      [xs[0]] + tail
    else
      assert forall j :: 0 <= j < |xs| ==> key(xs[j]) <= key(xs[0]);
      [x] + xs
  }

  lemma ConsSorted<T>(xs: seq<T>, x: T, tail: seq<T>, key: T -> real)
    requires |xs| > 0 && key(xs[0]) >= key(x)
    requires NonIncreasing(xs, key) && NonIncreasing(tail, key)
    requires multiset(tail) == multiset(xs[1..]) + multiset{x}
    requires forall k :: 0 <= k < |tail| ==> tail[k] == x || tail[k] in xs[1..]
    ensures NonIncreasing([xs[0]] + tail, key)
    ensures multiset([xs[0]] + tail) == multiset(xs) + multiset{x}
    ensures forall k :: 0 <= k < |[xs[0]] + tail| ==> ([xs[0]] + tail)[k] == x || ([xs[0]] + tail)[k] in xs
  {
    assert xs == [xs[0]] + xs[1..];
    forall k | 0 <= k < |tail|
      ensures key(tail[k]) <= key(xs[0])
    {
      if tail[k] != x {
        var m :| 0 <= m < |xs[1..]| && xs[1..][m] == tail[k];
        assert xs[m + 1] == tail[k];
      }
    }
  }

  ghost predicate NonIncreasing<T>(xs: seq<T>, key: T -> real)
  {
    forall i, j :: 0 <= i < j < |xs| ==> key(xs[i]) >= key(xs[j])
  }

  /** Stable sort in non-increasing `key` order (Python `sorted(..., reverse=True)`). */
  function SortDesc<T>(xs: seq<T>, key: T -> real): (r: seq<T>)
    ensures NonIncreasing(r, key)
    ensures multiset(r) == multiset(xs)
    ensures |r| == |xs|
    decreases |xs|
  {
    if |xs| == 0 then []
    else
      var sorted := SortDesc(xs[..|xs| - 1], key);
      assert xs == xs[..|xs| - 1] + [xs[|xs| - 1]];
      InsertDesc(xs[|xs| - 1], sorted, key)
  }

  /** The `n` pairs with the largest values, largest first (`ORDER BY value
      DESC LIMIT n`, ties in input order). */
  function Largest<K>(xs: seq<(K, real)>, n: nat): (r: seq<(K, real)>)
    ensures |r| == if |xs| < n then |xs| else n
    ensures NonIncreasing(r, Second)
    ensures forall i :: 0 <= i < |r| ==> r[i] in xs
    ensures multiset(r) <= multiset(xs)
  {
    var sorted := SortDesc(xs, Second);
    TakeSubMultiset(sorted, n);
    TakeNonIncreasing(sorted, n, Second);
    SubMultisetMembers(Take(sorted, n), xs);
    Take(sorted, n)
  }

  /** A prefix of a non-increasing sequence is non-increasing. */
  lemma TakeNonIncreasing<T>(xs: seq<T>, n: nat, key: T -> real)
    requires NonIncreasing(xs, key)
    ensures NonIncreasing(Take(xs, n), key)
  {
    var r := Take(xs, n);
    assert forall i :: 0 <= i < |r| ==> r[i] == xs[i];
  }

  /** A prefix of a non-increasing sequence is non-increasing, and no
      element left out of it exceeds an element kept. */
  lemma TakeOfSorted<T>(xs: seq<T>, n: nat, key: T -> real)
    requires NonIncreasing(xs, key)
    ensures NonIncreasing(Take(xs, n), key)
    ensures forall x, y :: x in xs && x !in Take(xs, n) && y in Take(xs, n) ==> key(x) <= key(y)
  {
    var r := Take(xs, n);
    TakeNonIncreasing(xs, n, key);
    forall x, y | x in xs && x !in r && y in r
      ensures key(x) <= key(y)
    {
      var k :| 0 <= k < |xs| && xs[k] == x;
      var j :| 0 <= j < |r| && r[j] == y;
    }
  }

  /** The elements of a sub-multiset are elements of the whole. */
  lemma SubMultisetMembers<T>(r: seq<T>, xs: seq<T>)
    requires multiset(r) <= multiset(xs)
    ensures forall i :: 0 <= i < |r| ==> r[i] in xs
  {
    forall i | 0 <= i < |r| ensures r[i] in xs {
      assert r[i] in multiset(r);
    }
  }

  /** Nothing left out of `Largest` beats anything in it, and nothing is
      left out when there are at most `n` pairs. */
  lemma LargestAreLargest<K>(xs: seq<(K, real)>, n: nat, g: (K, real), i: nat)
    requires g in xs
    ensures g !in Largest(xs, n) && i < |Largest(xs, n)| ==> g.1 <= Largest(xs, n)[i].1
    ensures |xs| <= n ==> g in Largest(xs, n)
  {
    var sorted := SortDesc(xs, Second);
    var top := Largest(xs, n);
    assert top == Take(sorted, n);
    assert g in multiset(sorted);
    var j :| 0 <= j < |sorted| && sorted[j] == g;
    if j < |top| {
      assert top[j] == g;
    }
    if i < |top| {
      assert top[i] == sorted[i];
    }
  }

  /** Per-key sums in first-seen key order (a Python dict accumulated with
      `d[k] = d.get(k, 0.0) + v`, or SQL GROUP BY). */
  function GroupSums<T, K(==,!new)>(xs: seq<T>, key: T -> K, val: T -> real): (r: seq<(K, real)>)
    ensures Distinct(KeysOf(r))
    ensures forall k :: k in KeysOf(r) <==> exists i :: 0 <= i < |xs| && key(xs[i]) == k
    ensures forall i :: 0 <= i < |r| ==> r[i].1 == SumWhere(xs, key, val, r[i].0)
  {
    var ks := Dedup(Map(xs, key));
    assert forall k :: k in ks <==> exists i :: 0 <= i < |xs| && key(xs[i]) == k by {
      forall k ensures k in ks <==> exists i :: 0 <= i < |xs| && key(xs[i]) == k {
        if k in ks {
          var i :| 0 <= i < |Map(xs, key)| && Map(xs, key)[i] == k;
        }
        if exists i :: 0 <= i < |xs| && key(xs[i]) == k {
          var i :| 0 <= i < |xs| && key(xs[i]) == k;
          assert Map(xs, key)[i] == k;
        }
      }
    }
    var r := seq(|ks|, i requires 0 <= i < |ks| => (ks[i], SumWhere(xs, key, val, ks[i])));
    assert KeysOf(r) == ks;
    r
  }

  /** A permutation has the same elements. */
  lemma PermutationMembers<T>(a: seq<T>, b: seq<T>)
    requires multiset(a) == multiset(b)
    ensures forall x :: x in a <==> x in b
  {
    forall x ensures x in a <==> x in b {
      assert x in a <==> x in multiset(a);
      assert x in b <==> x in multiset(b);
    }
  }

  function Map<T, U>(xs: seq<T>, f: T -> U): (r: seq<U>)
    ensures |r| == |xs|
    ensures forall i :: 0 <= i < |xs| ==> r[i] == f(xs[i])
  {
    seq(|xs|, i requires 0 <= i < |xs| => f(xs[i]))
  }

  /** Mapping two permutations of each other gives permutations of each
      other. */
  lemma {:induction false} MapPermutation<T, U>(xs: seq<T>, ys: seq<T>, f: T -> U)
    requires multiset(xs) == multiset(ys)
    ensures multiset(Map(xs, f)) == multiset(Map(ys, f))
    decreases |xs|
  {
    if |xs| == 0 {
      assert |ys| == |multiset(ys)| == 0;
    } else {
      var x := xs[0];
      assert x in multiset(ys);
      var k :| 0 <= k < |ys| && ys[k] == x;
      var front, back := ys[..k], ys[k + 1..];
      RemoveMatched(xs, ys, k);
      MapPermutation(xs[1..], front + back, f);
      MapSplit(front, x, back, f);
      assert ys == front + [x] + back;
      assert Map(xs, f) == [f(x)] + Map(xs[1..], f);
      calc {
        multiset(Map(xs, f));
        multiset{f(x)} + multiset(Map(xs[1..], f));
        multiset{f(x)} + multiset(Map(front + back, f));
        multiset(Map(ys, f));
      }
    }
  }

  /** A permutation of a mapped sequence holds the image of every element
      and nothing else. */
  lemma PermutedMapMembers<T, U>(r: seq<U>, xs: seq<T>, f: T -> U)
    requires multiset(r) == multiset(Map(xs, f))
    ensures forall x :: x in xs ==> f(x) in r
    ensures forall i :: 0 <= i < |r| ==> exists x :: x in xs && r[i] == f(x)
  {
    var m := Map(xs, f);
    PermutationMembers(r, m);
    forall x | x in xs ensures f(x) in r {
      var j :| 0 <= j < |xs| && xs[j] == x;
      assert m[j] == f(x);
      assert f(x) in multiset(m);
      assert f(x) in multiset(r);
    }
    forall i | 0 <= i < |r| ensures exists x :: x in xs && r[i] == f(x) {
      assert r[i] in r;
      assert r[i] in m;
      var j :| 0 <= j < |m| && m[j] == r[i];
      assert xs[j] in xs;
    }
  }

  /** Taking the head of `xs` out of a permutation `ys` at a position
      holding it leaves permutations of each other. */
  lemma RemoveMatched<T>(xs: seq<T>, ys: seq<T>, k: nat)
    requires multiset(xs) == multiset(ys) && |xs| > 0 && k < |ys| && ys[k] == xs[0]
    ensures multiset(xs[1..]) == multiset(ys[..k] + ys[k + 1..])
  {
    var front, back := ys[..k], ys[k + 1..];
    assert ys == front + [ys[k]] + back;
    assert xs == [xs[0]] + xs[1..];
    calc {
      multiset(xs[1..]);
      multiset(xs) - multiset{xs[0]};
      multiset(ys) - multiset{ys[k]};
      multiset(front) + multiset(back);
      multiset(front + back);
    }
  }

  /** Mapping splits around one element. */
  lemma MapSplit<T, U>(front: seq<T>, x: T, back: seq<T>, f: T -> U)
    ensures multiset(Map(front + [x] + back, f)) == multiset(Map(front + back, f)) + multiset{f(x)}
  {
    assert Map(front + [x] + back, f) == Map(front, f) + [f(x)] + Map(back, f);
    assert Map(front + back, f) == Map(front, f) + Map(back, f);
  }

  function KeysOf<K, V>(ps: seq<(K, V)>): (r: seq<K>)
    ensures |r| == |ps|
    ensures forall i :: 0 <= i < |ps| ==> r[i] == ps[i].0
  {
    seq(|ps|, i requires 0 <= i < |ps| => ps[i].0)
  }

  /** The first `n` elements, or all of them when there are fewer (`xs[:n]`). */
  function Take<T>(xs: seq<T>, n: nat): (r: seq<T>)
    ensures |r| == if |xs| < n then |xs| else n
    ensures r == xs[..|r|]
  {
    if |xs| <= n then xs else xs[..n]
  }

  /** A prefix holds no element more often than the whole. */
  lemma TakeSubMultiset<T>(xs: seq<T>, n: nat)
    ensures multiset(Take(xs, n)) <= multiset(xs)
  {
    var r := Take(xs, n);
    assert xs == r + xs[|r|..];
    assert multiset(xs) == multiset(r) + multiset(xs[|r|..]);
  }
}

=== FILE: features.dfy ===
/** The spending feature vector of one user in one month: a total and a
    share per category name of the category table, then the number of
    expense transactions, the spread of the day totals and the share spent
    on weekends. */
module Features {
  import opened Common
  import opened Records
  import opened Stats
  import opened Calendar

  datatype Features = Features(
    categories: seq<string>,
    totals: map<string, real>,
    ratios: map<string, real>,
    grandTotal: real,
    txCount: nat,
    dailyStd: real,
    weekendRatio: real,
    vector: seq<real>)

  /** The name of every category of the table, every user's, in table order
      and with repetitions. */
  function CategoryNames(cats: seq<Category>): (r: seq<string>)
    ensures |r| == |cats| && forall i :: 0 <= i < |cats| ==> r[i] == cats[i].name
  {
    seq(|cats|, i requires 0 <= i < |cats| => cats[i].name)
  }

  /** The user's spending in the categories named `name` this month. */
  function CategoryTotal(db: Db, userId: int, month: string, name: string): real
  {
    TotalAmount(CategoryExpenseRows(db, userId, month, name))
  }

  function CategoryTotals(db: Db, userId: int, month: string, names: seq<string>): (r: seq<real>)
    ensures |r| == |names|
    ensures forall i :: 0 <= i < |names| ==> r[i] == CategoryTotal(db, userId, month, names[i])
  {
    seq(|names|, i requires 0 <= i < |names| => CategoryTotal(db, userId, month, names[i]))
  }

  /** Each total's share of `grand`, all zero unless `grand` is positive. */
  function Shares(totals: seq<real>, grand: real): (r: seq<real>)
    ensures |r| == |totals|
    ensures forall i :: 0 <= i < |totals| ==> r[i] == if grand > 0.0 then totals[i] / grand else 0.0
  {
    seq(|totals|, i requires 0 <= i < |totals| => if grand > 0.0 then totals[i] / grand else 0.0)
  }

  /** Equal keys carry equal values. */
  ghost predicate Consistent(keys: seq<string>, vals: seq<real>)
    requires |keys| == |vals|
  {
    forall i, j :: 0 <= i < |keys| && 0 <= j < |keys| && keys[i] == keys[j] ==> vals[i] == vals[j]
  }

  /** A dict filled key by key in list order, a later write replacing an
      earlier one. */
  function ToDict(keys: seq<string>, vals: seq<real>): (m: map<string, real>)
    requires |keys| == |vals|
    ensures forall k :: k in m <==> k in keys
    ensures Consistent(keys, vals) ==> forall i :: 0 <= i < |keys| ==> m[keys[i]] == vals[i]
    decreases |keys|
  {
    if |keys| == 0 then map[]
    else
      var n := |keys| - 1;
      var m := ToDict(keys[..n], vals[..n]);
      assert Consistent(keys, vals) ==> Consistent(keys[..n], vals[..n]);
      assert forall k :: k in keys <==> k in keys[..n] || k == keys[n] by {
        assert keys == keys[..n] + [keys[n]];
      }
      m[keys[n] := vals[n]]
  }

  /** The spread of the day totals: zero for at most one day, else the
      sample standard deviation (`var ** 0.5`). */
  function DailyStd(rows: seq<Row>, sqrt: real -> real): (s: real)
    ensures |DailyTotals(rows)| <= 1 ==> s == 0.0
    ensures var xs := Totals(DailyTotals(rows));
            |xs| > 1 && IsSqrt(sqrt, Variance(xs)) ==> s >= 0.0 && s * s == Variance(xs)
  {
    var xs := Totals(DailyTotals(rows));
    if |xs| == 0 then 0.0 else StdDev(xs, sqrt)
  }

  /** Whether a row falls on a weekend, or why its date cannot be read. */
  function DayKind(r: Row): Result<bool, string>
  {
    IsWeekend(r.tx.date)
  }

  /** The weekend and weekday spending of the rows; the first unreadable
      date stops the loop with its error. */
  function WeekendSplit(rows: seq<Row>): (r: Result<(real, real), string>)
    ensures r.Ok? <==> forall i :: 0 <= i < |rows| ==> DayKind(rows[i]).Ok?
    ensures r.Ok? ==> r.value.0 == SumWhere(rows, DayKind, Amount, Ok(true))
                      && r.value.1 == SumWhere(rows, DayKind, Amount, Ok(false))
    decreases |rows|
  {
    if |rows| == 0 then Ok((0.0, 0.0))
    else
      match DayKind(rows[0])
      case Err(e) => Err(e)
      case Ok(weekend) =>
        match WeekendSplit(rows[1..])
        case Err(e) => Err(e)
        case Ok(split) =>
          var a := rows[0].tx.amount;
          Ok(if weekend then (a + split.0, split.1) else (split.0, a + split.1))
  }

  /** The weekend share of the spending, zero when nothing was spent. */
  function WeekendRatio(weekend: real, weekday: real): (r: real)
    ensures weekend >= 0.0 && weekday >= 0.0 ==> 0.0 <= r <= 1.0
    ensures weekend + weekday > 0.0 ==> r * (weekend + weekday) == weekend
  {
    if weekend + weekday > 0.0 then weekend / (weekend + weekday) else 0.0
  }

  /** `f` lays out `totals` as the source does: the totals, their shares of
      the grand total, then the three temporal features; the dicts map every
      listed name to its total and share. */
  ghost predicate LaidOut(f: Features, names: seq<string>, totals: seq<real>, count: nat,
                          std: real, ratio: real)
  {
    var k := |totals|;
    |names| == k
    && f.categories == names
    && f.grandTotal == Sum(totals)
    && f.txCount == count && f.dailyStd == std && f.weekendRatio == ratio
    && |f.vector| == 2 * k + 3
    && f.vector[..k] == totals
    && f.vector[k..2 * k] == Shares(totals, f.grandTotal)
    && f.vector[2 * k] == count as real
    && f.vector[2 * k + 1] == std
    && f.vector[2 * k + 2] == ratio
    && (forall name :: name in f.totals <==> name in names)
    && (forall name :: name in f.ratios <==> name in names)
    && (Consistent(names, totals) ==>
          forall i :: 0 <= i < k ==> f.totals[names[i]] == f.vector[i] && f.ratios[names[i]] == f.vector[k + i])
  }

  /** Consistent totals give consistent shares. */
  lemma SharesConsistent(names: seq<string>, totals: seq<real>, grand: real)
    requires |names| == |totals|
    ensures Consistent(names, totals) ==> Consistent(names, Shares(totals, grand))
  {
  }

  /** The vector: totals, shares, count, spread, weekend share. */
  function FeatureVector(totals: seq<real>, grand: real, count: nat, std: real, ratio: real): (v: seq<real>)
    ensures var k := |totals|;
            |v| == 2 * k + 3
            && v[..k] == totals
            && v[k..2 * k] == Shares(totals, grand)
            && v[2 * k] == count as real
            && v[2 * k + 1] == std
            && v[2 * k + 2] == ratio
  {
    var shares := Shares(totals, grand);
    var v := totals + shares + [count as real, std, ratio];
    assert v[..|totals|] == totals && v[|totals|..2 * |totals|] == shares;
    v
  }

  /** Puts the parts together in the source's order. */
  function Assemble(names: seq<string>, totals: seq<real>, count: nat, std: real, ratio: real): (f: Features)
    requires |names| == |totals|
    ensures LaidOut(f, names, totals, count, std, ratio)
  {
    var grand := Sum(totals);
    var v := FeatureVector(totals, grand, count, std, ratio);
    DictsMatchVector(names, totals, grand, v);
    Features(names, ToDict(names, totals), ToDict(names, Shares(totals, grand)), grand, count, std, ratio, v)
  }

  /** With consistent totals, the two dicts agree with the two blocks of
      the vector. */
  lemma DictsMatchVector(names: seq<string>, totals: seq<real>, grand: real, v: seq<real>)
    requires |names| == |totals| && |v| >= 2 * |totals|
    requires v[..|totals|] == totals && v[|totals|..2 * |totals|] == Shares(totals, grand)
    ensures Consistent(names, totals) ==>
              forall i :: 0 <= i < |names| ==>
                ToDict(names, totals)[names[i]] == v[i]
                && ToDict(names, Shares(totals, grand))[names[i]] == v[|names| + i]
  {
    var k := |totals|;
    SharesConsistent(names, totals, grand);
    assert forall i :: 0 <= i < k ==> v[i] == v[..k][i] && v[k + i] == v[k..2 * k][i];
  }

  /** The same name always has the same total. */
  lemma TotalsConsistent(db: Db, userId: int, month: string, names: seq<string>)
    ensures Consistent(names, CategoryTotals(db, userId, month, names))
  {
  }

  /** `build_spending_feature_vector`: totals and shares per category name,
      then the transaction count, the daily spread and the weekend share;
      an unreadable transaction date is an error. */
  function BuildSpendingFeatureVector(db: Db, userId: int, month: string,
                                      sqrt: real -> real): (r: Result<Features, string>)
    ensures var rows := ExpenseRows(db, userId, month);
            r.Ok? <==> forall i :: 0 <= i < |rows| ==> DayKind(rows[i]).Ok?
    ensures var rows := ExpenseRows(db, userId, month);
            r.Ok? ==> LaidOut(r.value, CategoryNames(db.categories),
                              CategoryTotals(db, userId, month, CategoryNames(db.categories)),
                              |rows|, DailyStd(rows, sqrt),
                              WeekendRatio(SumWhere(rows, DayKind, Amount, Ok(true)),
                                           SumWhere(rows, DayKind, Amount, Ok(false))))
  {
    var rows := ExpenseRows(db, userId, month);
    match WeekendSplit(rows)
    case Err(e) => Err(e)
    case Ok(split) =>
      var names := CategoryNames(db.categories);
      Ok(Assemble(names, CategoryTotals(db, userId, month, names), |rows|, DailyStd(rows, sqrt),
                  WeekendRatio(split.0, split.1)))
  }

  /** The shares of a positive grand total add up to one. */
  lemma SharesSumToOne(totals: seq<real>)
    requires Sum(totals) > 0.0
    ensures Sum(Shares(totals, Sum(totals))) == 1.0
  {
    var g := Sum(totals);
    SumScaled(totals, Shares(totals, g), g);
    assert g / g == 1.0;
  }

  /** Whenever the user spent a positive amount, the share block of the
      vector sums to one. */
  lemma RatioBlockSumsToOne(db: Db, userId: int, month: string, sqrt: real -> real)
    requires BuildSpendingFeatureVector(db, userId, month, sqrt).Ok?
    requires BuildSpendingFeatureVector(db, userId, month, sqrt).value.grandTotal > 0.0
    ensures var f := BuildSpendingFeatureVector(db, userId, month, sqrt).value;
            var k := |f.categories|;
            |f.vector| == 2 * k + 3 && Sum(f.vector[k..2 * k]) == 1.0
  {
    var names := CategoryNames(db.categories);
    SharesSumToOne(CategoryTotals(db, userId, month, names));
  }

  /** Every category total is the per-name sum of the month's expense rows. */
  lemma {:induction false} TotalsOverKeys(db: Db, userId: int, month: string, names: seq<string>)
    ensures Sum(CategoryTotals(db, userId, month, names))
            == SumOverKeys(names, ExpenseRows(db, userId, month), CategoryName, Amount)
    decreases |names|
  {
    if |names| > 0 {
      var rows := ExpenseRows(db, userId, month);
      assert CategoryTotals(db, userId, month, names)[1..] == CategoryTotals(db, userId, month, names[1..]);
      TotalsOverKeys(db, userId, month, names[1..]);
      SumOfFilterIsSumWhere(rows, NamedOf(names[0]), CategoryName, Amount, names[0]);
    }
  }

  /** The grand total counts a category name once per listing in the
      category table; with every name listed once it is exactly the month's
      expense total. */
  lemma GrandTotalIsMonthTotal(db: Db, userId: int, month: string, sqrt: real -> real)
    requires BuildSpendingFeatureVector(db, userId, month, sqrt).Ok?
    ensures var f := BuildSpendingFeatureVector(db, userId, month, sqrt).value;
            f.grandTotal == SumOverKeys(f.categories, ExpenseRows(db, userId, month), CategoryName, Amount)
    ensures var f := BuildSpendingFeatureVector(db, userId, month, sqrt).value;
            Distinct(f.categories) ==> f.grandTotal == TotalAmount(ExpenseRows(db, userId, month))
  {
    TotalsOverKeys(db, userId, month, CategoryNames(db.categories));
    NamesTotalIsMonthTotal(db, userId, month);
  }

  /** With every category name listed once, summing per name counts each
      expense exactly once. */
  lemma NamesTotalIsMonthTotal(db: Db, userId: int, month: string)
    ensures var names := CategoryNames(db.categories);
            Distinct(names) ==>
              SumOverKeys(names, ExpenseRows(db, userId, month), CategoryName, Amount)
              == TotalAmount(ExpenseRows(db, userId, month))
  {
    var names := CategoryNames(db.categories);
    var rows := ExpenseRows(db, userId, month);
    if Distinct(names) {
      ExpenseNamesListed(db, userId, month);
      GroupedSumIsTotal(names, rows, CategoryName, Amount);
    }
  }

  /** Every expense row's category name is in the category table. */
  lemma ExpenseNamesListed(db: Db, userId: int, month: string)
    ensures var rows := ExpenseRows(db, userId, month);
            forall i :: 0 <= i < |rows| ==> CategoryName(rows[i]) in CategoryNames(db.categories)
  {
    var names := CategoryNames(db.categories);
    var rows := ExpenseRows(db, userId, month);
    forall i | 0 <= i < |rows| ensures CategoryName(rows[i]) in names {
      var c := rows[i].category;
      assert rows[i] in Joined(db.categories, db.transactions);
      var j :| 0 <= j < |db.categories| && db.categories[j] == c;
      assert names[j] == c.name;
    }
  }

  /** Every readable expense is either a weekend or a weekday expense. */
  lemma {:induction false} WeekendPartition(rows: seq<Row>)
    requires forall i :: 0 <= i < |rows| ==> DayKind(rows[i]).Ok?
    ensures SumWhere(rows, DayKind, Amount, Ok(true)) + SumWhere(rows, DayKind, Amount, Ok(false))
            == TotalAmount(rows)
    decreases |rows|
  {
    if |rows| > 0 {
      WeekendPartition(rows[1..]);
    }
  }

  lemma {:induction false} SumWhereNonNegative(rows: seq<Row>, k: Result<bool, string>)
    requires forall i :: 0 <= i < |rows| ==> rows[i].tx.amount >= 0.0
    ensures SumWhere(rows, DayKind, Amount, k) >= 0.0
    decreases |rows|
  {
    if |rows| > 0 {
      SumWhereNonNegative(rows[1..], k);
    }
  }

  /** With no refunds among the expenses, the weekend share lies in [0, 1]
      and the weekend and weekday parts make up the month's spending. */
  lemma WeekendShareInUnitRange(db: Db, userId: int, month: string, sqrt: real -> real)
    requires BuildSpendingFeatureVector(db, userId, month, sqrt).Ok?
    requires var rows := ExpenseRows(db, userId, month);
             forall i :: 0 <= i < |rows| ==> rows[i].tx.amount >= 0.0
    ensures var f := BuildSpendingFeatureVector(db, userId, month, sqrt).value;
            0.0 <= f.weekendRatio <= 1.0
    ensures var rows := ExpenseRows(db, userId, month);
            SumWhere(rows, DayKind, Amount, Ok(true)) + SumWhere(rows, DayKind, Amount, Ok(false))
            == TotalAmount(rows)
  {
    var rows := ExpenseRows(db, userId, month);
    SumWhereNonNegative(rows, Ok(true));
    SumWhereNonNegative(rows, Ok(false));
    WeekendPartition(rows);
  }
}

=== FILE: legacy_router.dfy ===
/** The older, purely rule-based router: pick a month (the first
    "YYYY-MM" in the question, else the latest month with data), build and
    store that month's summary, then answer by intent from the stored
    figures and text. */
module LegacyRouter {
  import opened Common
  import opened Text
  import opened Records
  import opened Months
  import opened Summary

  datatype Reply = Reply(db: Db, answer: string, debug: string)

  /** The intents, in the order the router checks them. */
  datatype Intent = SummaryIntent | TotalSpentIntent | NetSavingsIntent | BudgetIntent | FallbackIntent

  predicate AsksSpent(q: string)
  {
    (Contains(q, "how much") && Contains(q, "spend")) || Contains(q, "expense")
  }

  predicate AsksBudget(q: string)
  {
    Contains(q, "budget") || Contains(q, "over budget")
  }

  /** The first intent, in the router's order, whose keywords the question
      holds; the fallback when it holds none. */
  function IntentOf(q: string): (i: Intent)
    ensures i == SummaryIntent <==> AsksSummary(q)
    ensures i == TotalSpentIntent <==> !AsksSummary(q) && AsksSpent(q)
    ensures i == NetSavingsIntent <==> !AsksSummary(q) && !AsksSpent(q) && AsksSavings(q)
    ensures i == BudgetIntent <==> !AsksSummary(q) && !AsksSpent(q) && !AsksSavings(q) && AsksBudget(q)
    ensures i == FallbackIntent <==> !AsksSummary(q) && !AsksSpent(q) && !AsksSavings(q) && !AsksBudget(q)
  {
    if AsksSummary(q) then SummaryIntent
    else if AsksSpent(q) then TotalSpentIntent
    else if AsksSavings(q) then NetSavingsIntent
    else if AsksBudget(q) then BudgetIntent
    else FallbackIntent
  }

  /** The intent's name in the debug tag. */
  function IntentTag(i: Intent): string
  {
    match i
    case SummaryIntent => "summary"
    case TotalSpentIntent => "total_spent"
    case NetSavingsIntent => "net_savings"
    case BudgetIntent => "budget_status"
    case FallbackIntent => "fallback_summary"
  }

  const NoDataText := "I could not find any transactions for this user yet, so I cannot answer the question."
  const NoSummaryText := "No summary text available."
  const NoBudgetText := "Budget status not available."

  function SpentText(month: string, spent: real, income: real): string
  {
    "In " + month + ", you spent a total of " + Fmt2(Abs(spent)) + " and your income was " + Fmt2(income) + "."
  }

  function NetText(month: string, spent: real, income: real): string
  {
    "In " + month + ", your net savings (income minus expenses) are " + Fmt2(NetSavings(spent, income))
      + ". Income: " + Fmt2(income) + ", Expenses: " + Fmt2(Abs(spent)) + "."
  }

  /** The first line of the summary text that mentions the budget status. */
  function BudgetLine(text: string): string
  {
    match FirstWith(SplitLines(text), BudgetStatus)
    case Some(line) => if line != "" then line else NoBudgetText
    case None => NoBudgetText
  }

  function OrNoSummary(text: string): string
  {
    if text != "" then text else NoSummaryText
  }

  /** The answer for one intent from the stored row. */
  function IntentAnswer(i: Intent, row: SummaryRow): string
  {
    match i
    case SummaryIntent => OrNoSummary(row.summaryText)
    case TotalSpentIntent => SpentText(row.month, row.totalSpent, row.totalIncome)
    case NetSavingsIntent => NetText(row.month, row.totalSpent, row.totalIncome)
    case BudgetIntent => BudgetLine(row.summaryText)
    case FallbackIntent => OrNoSummary(row.summaryText)
  }

  /** `answer_question` of the rule-based router. */
  function AnswerQuestion(db: Db, userId: int, question: string): (r: Reply)
    ensures var (month, note) := ExtractMonthLegacy(db, userId, Strip(Lower(question)));
            month.None? ==> r == Reply(db, NoDataText, note)
    ensures var (month, note) := ExtractMonthLegacy(db, userId, Strip(Lower(question)));
            month.Some? ==>
              r.debug == "intent=" + IntentTag(IntentOf(Strip(Lower(question)))) + "; " + note
              && FindSummary(r.db.summaries, userId, month.value).Some?
    ensures r.db.users == db.users && r.db.categories == db.categories
         && r.db.transactions == db.transactions && r.db.budgets == db.budgets
  {
    var q := Strip(Lower(question));
    var (month, note) := ExtractMonthLegacy(db, userId, q);
    match month
    case None => Reply(db, NoDataText, note)
    case Some(m) =>
      if m == "" then Reply(db, NoDataText, note)
      else
        var (db', row) := BuildMonthlySummary(db, userId, m);
        var i := IntentOf(q);
        Reply(db', IntentAnswer(i, row), "intent=" + IntentTag(i) + "; " + note)
  }

  /** The row the summary builder returns, spelled out. */
  lemma BuiltRow(db: Db, userId: int, month: string)
    ensures BuildMonthlySummary(db, userId, month).1
         == SummaryRow(userId, month, TotalSpent(db, userId, month), TotalIncome(db, userId, month),
                       SummaryText(db, userId, month))
  {
    CategorySumsAddUp(db, userId, month);
  }

  /** The placeholders for a missing summary or budget line never show:
      a summary text is never empty and always has a line that mentions
      the budget status. */
  lemma TextAnswers(row: SummaryRow, spent: real, income: real, top: string, over: string, i: Intent)
    requires row.summaryText == SummaryTextOf(row.month, spent, income, top, over)
    ensures (i == SummaryIntent || i == FallbackIntent) ==>
              IntentAnswer(i, row) == row.summaryText && IntentAnswer(i, row) != NoSummaryText
    ensures i == BudgetIntent ==>
              Some(IntentAnswer(i, row)) == FirstWith(SplitLines(row.summaryText), BudgetStatus)
              && IntentAnswer(i, row) in SplitLines(row.summaryText)
              && Contains(IntentAnswer(i, row), BudgetStatus)
  {
    SummaryStartsWithMonth(row.month, spent, income, top, over);
    assert row.summaryText[0] == 'S';
    assert NoSummaryText[0] == 'N';
    BudgetLineAlwaysFound(row.month, spent, income, top, over);
    var line := FirstWith(SplitLines(row.summaryText), BudgetStatus).value;
    NonEmptyWhenContains(line, BudgetStatus);
  }

  /** The built summary's answers: its own text for the summary and
      fallback intents, and its budget line for the budget intent. */
  lemma BuiltSummaryAnswers(db: Db, userId: int, month: string, i: Intent)
    ensures var row := BuildMonthlySummary(db, userId, month).1;
            (i == SummaryIntent || i == FallbackIntent) ==>
              IntentAnswer(i, row) == SummaryText(db, userId, month) && IntentAnswer(i, row) != NoSummaryText
    ensures var row := BuildMonthlySummary(db, userId, month).1;
            i == BudgetIntent ==>
              IntentAnswer(i, row) in SplitLines(SummaryText(db, userId, month))
              && Contains(IntentAnswer(i, row), BudgetStatus)
  {
    BuiltRow(db, userId, month);
    TextAnswers(BuildMonthlySummary(db, userId, month).1, TotalSpent(db, userId, month), TotalIncome(db, userId, month),
                TopText(TopCategories(db, userId, month)), OverText(Overspent(db, userId, month)), i);
  }

  lemma NonEmptyWhenContains(s: string, p: string)
    requires |p| > 0 && Contains(s, p)
    ensures s != ""
  {
  }

  /** When the month and the two list texts are single lines free of the
      marker, the budget answer is the summary's last line. */
  lemma BudgetAnswerIsLastLine(db: Db, userId: int, month: string)
    requires NoBreaks(month) && !Contains(month, BudgetStatus)
    requires NoBreaks(TopText(TopCategories(db, userId, month)))
    requires !Contains(TopText(TopCategories(db, userId, month)), BudgetStatus)
    requires NoBreaks(OverText(Overspent(db, userId, month)))
    ensures IntentAnswer(BudgetIntent, BuildMonthlySummary(db, userId, month).1)
         == "- Budget status: " + OverText(Overspent(db, userId, month))
  {
    BuiltRow(db, userId, month);
    LastLineAnswer(BuildMonthlySummary(db, userId, month).1, TotalSpent(db, userId, month), TotalIncome(db, userId, month),
                   TopText(TopCategories(db, userId, month)), OverText(Overspent(db, userId, month)));
  }

  lemma LastLineAnswer(row: SummaryRow, spent: real, income: real, top: string, over: string)
    requires row.summaryText == SummaryTextOf(row.month, spent, income, top, over)
    requires NoBreaks(row.month) && !Contains(row.month, BudgetStatus)
    requires NoBreaks(top) && !Contains(top, BudgetStatus) && NoBreaks(over)
    ensures IntentAnswer(BudgetIntent, row) == "- Budget status: " + over
  {
    BudgetLineIsLast(row.month, spent, income, top, over);
  }

  /** What the router answers once a month is known: the stored summary
      text, the month's totals, or the stored summary's budget line. */
  lemma {:induction false} AnswerContents(db: Db, userId: int, question: string)
    ensures var q := Strip(Lower(question));
            var (month, note) := ExtractMonthLegacy(db, userId, q);
            var r := AnswerQuestion(db, userId, question);
            month.Some? && month.value != "" ==>
              var m := month.value;
              var stored := FindSummary(r.db.summaries, userId, m).value.summaryText;
              var spent := TotalSpent(db, userId, m);
              var income := TotalIncome(db, userId, m);
              (IntentOf(q) in {SummaryIntent, FallbackIntent} ==> r.answer == stored && stored == SummaryText(db, userId, m))
              && (IntentOf(q) == TotalSpentIntent ==> r.answer == SpentText(m, spent, income))
              && (IntentOf(q) == NetSavingsIntent ==> r.answer == NetText(m, spent, income))
              && (IntentOf(q) == BudgetIntent ==> r.answer in SplitLines(stored) && Contains(r.answer, BudgetStatus))
  {
    var q := Strip(Lower(question));
    var (month, note) := ExtractMonthLegacy(db, userId, q);
    if month.Some? && month.value != "" {
      var m := month.value;
      var i := IntentOf(q);
      BuiltSummaryAnswers(db, userId, m, i);
      TotalsAnswers(db, userId, m);
      var row := BuildMonthlySummary(db, userId, m).1;
      if i == BudgetIntent {
        BudgetLineAlwaysFound(m, TotalSpent(db, userId, m), TotalIncome(db, userId, m),
                              TopText(TopCategories(db, userId, m)), OverText(Overspent(db, userId, m)));
      }
    }
  }

  /** The spent and net answers quote the month's totals. */
  lemma TotalsAnswers(db: Db, userId: int, month: string)
    ensures var row := BuildMonthlySummary(db, userId, month).1;
            var spent := TotalSpent(db, userId, month);
            var income := TotalIncome(db, userId, month);
            IntentAnswer(TotalSpentIntent, row) == SpentText(month, spent, income)
            && IntentAnswer(NetSavingsIntent, row) == NetText(month, spent, income)
  {
    var row := BuildMonthlySummary(db, userId, month).1;
    BuiltRow(db, userId, month);
    RowTotals(row, month, TotalSpent(db, userId, month), TotalIncome(db, userId, month));
  }

  /** The totals answers read the row's month and totals. */
  lemma RowTotals(row: SummaryRow, month: string, spent: real, income: real)
    requires row.month == month && row.totalSpent == spent && row.totalIncome == income
    ensures IntentAnswer(TotalSpentIntent, row) == SpentText(month, spent, income)
    ensures IntentAnswer(NetSavingsIntent, row) == NetText(month, spent, income)
  {
  }
}

=== FILE: months.dfy ===
/** Months and dates read out of a free-text question: the regular
    expressions `\b(\d{4})-(\d{2})\b`, `\b(\d{2})-(\d{4})\b` and
    `\b<month name>\s+(\d{4})\b` scanned as `re.findall` scans them, the
    first `\d{4}-\d{2}-\d{2}` or `\d{4}-\d{2}` substring as `re.search` finds
    it, and the choice of one month with the latest month with data as the
    fallback. Digits, word characters and case mapping are ASCII. */
module Months {
  import opened Common
  import opened Text
  import opened Records

  // ---------------------------------------------------------------------
  // Shapes

  /** "YYYY-MM": four digits, a dash, two digits. */
  predicate YearMonthShaped(s: string)
  {
    |s| == 7 && AllDigits(s[..4]) && s[4] == '-' && AllDigits(s[5..])
  }

  /** "YYYY-MM-DD". */
  predicate IsoDateShaped(s: string)
  {
    |s| == 10 && YearMonthShaped(s[..7]) && s[7] == '-' && AllDigits(s[8..])
  }

  // ---------------------------------------------------------------------
  // re.search: the first window of a shape

  /** The `w`-character window at `j` exists and has the shape `ok`. */
  predicate WindowOk(q: string, w: nat, ok: string -> bool, j: nat)
  {
    j + w <= |q| && ok(q[j..j + w])
  }

  /** The first position `k >= i` whose `w`-character window has the shape
      `ok`. */
  function FirstWindow(q: string, w: nat, ok: string -> bool, i: nat): (r: Option<nat>)
    ensures r.Some? ==> i <= r.value && WindowOk(q, w, ok, r.value)
    ensures r.Some? ==> forall j :: i <= j < r.value ==> !WindowOk(q, w, ok, j)
    ensures r.None? ==> forall j :: i <= j ==> !WindowOk(q, w, ok, j)
    decreases |q| - i
  {
    if i + w > |q| then None
    else if ok(q[i..i + w]) then Some(i)
    else FirstWindow(q, w, ok, i + 1)
  }

  function IsoDateShapedOf(): string -> bool { (s: string) => IsoDateShaped(s) }

  function YearMonthShapedOf(): string -> bool { (s: string) => YearMonthShaped(s) }

  /** A "YYYY-MM-DD" run starts at `i`. */
  predicate IsoDateAt(q: string, i: nat)
  {
    WindowOk(q, 10, IsoDateShapedOf(), i)
  }

  /** A "YYYY-MM" run starts at `i`. */
  predicate YearMonthAt(q: string, i: nat)
  {
    WindowOk(q, 7, YearMonthShapedOf(), i)
  }

  /** Where the first "YYYY-MM-DD" run starts. */
  function FirstIsoDate(q: string): (r: Option<nat>)
    ensures r.Some? ==> IsoDateAt(q, r.value) && forall j: nat :: j < r.value ==> !IsoDateAt(q, j)
    ensures r.None? ==> forall j: nat :: !IsoDateAt(q, j)
  {
    FirstWindow(q, 10, IsoDateShapedOf(), 0)
  }

  /** Where the first "YYYY-MM" run starts. */
  function FirstYearMonth(q: string): (r: Option<nat>)
    ensures r.Some? ==> YearMonthAt(q, r.value) && forall j: nat :: j < r.value ==> !YearMonthAt(q, j)
    ensures r.None? ==> forall j: nat :: !YearMonthAt(q, j)
  {
    FirstWindow(q, 7, YearMonthShapedOf(), 0)
  }

  /** `_extract_full_date`: the first `\d{4}-\d{2}-\d{2}` substring. */
  function ExtractFullDate(question: string): (r: Option<string>)
    ensures r.Some? <==> FirstIsoDate(question).Some?
    ensures r.Some? ==> IsoDateShaped(r.value)
    ensures r.Some? ==> var i := FirstIsoDate(question).value; i + 10 <= |question| && r.value == question[i..i + 10]
  {
    match FirstIsoDate(question)
    case None => None
    case Some(i) => Some(question[i..i + 10])
  }

  /** The older router's month: the first `\d{4}-\d{2}` substring, word
      boundaries or not. */
  function SearchYearMonth(question: string): (r: Option<string>)
    ensures r.Some? <==> FirstYearMonth(question).Some?
    ensures r.Some? ==> YearMonthShaped(r.value)
    ensures r.Some? ==> var i := FirstYearMonth(question).value; i + 7 <= |question| && r.value == question[i..i + 7]
  {
    match FirstYearMonth(question)
    case None => None
    case Some(i) => Some(question[i..i + 7])
  }

  // ---------------------------------------------------------------------
  // re.findall over the three month patterns

  /** `\b` before position `i` when `q[i]` is a word character. */
  predicate StartEdge(q: string, i: nat)
    requires i <= |q|
  {
    i == 0 || !IsWordChar(q[i - 1])
  }

  /** `\b` at position `e` when `q[e - 1]` is a word character. */
  predicate EndEdge(q: string, e: nat)
    requires e <= |q|
  {
    e == |q| || !IsWordChar(q[e])
  }

  function SpaceRun(q: string, j: nat): (k: nat)
    ensures j + k <= |q| || (j >= |q| && k == 0)
    ensures forall t :: j <= t < j + k ==> IsSpace(q[t])
    ensures j + k < |q| ==> !IsSpace(q[j + k])
    decreases |q| - j
  {
    if j < |q| && IsSpace(q[j]) then 1 + SpaceRun(q, j + 1) else 0
  }

  /** One of the three patterns; `Named` is a month name with its number. */
  datatype Pattern = YearMonth | MonthYear | Named(name: string, mm: string)

  predicate LowerWord(s: string)
  {
    |s| > 0 && forall i :: 0 <= i < |s| ==> 'a' <= s[i] <= 'z'
  }

  predicate WellFormed(p: Pattern)
  {
    p.Named? ==> LowerWord(p.name) && |p.mm| == 2 && AllDigits(p.mm)
  }

  /** A match of `p` starting at `i`: the normalised month and where the
      match ends. `\s+` is greedy and cannot give back a character the
      following `\d` would accept, so only the whole run of spaces is tried. */
  function MatchAt(p: Pattern, q: string, i: nat): (r: Option<(string, nat)>)
    ensures r.Some? ==> i < r.value.1 <= |q| && StartEdge(q, i) && EndEdge(q, r.value.1)
    ensures r.Some? && WellFormed(p) ==> YearMonthShaped(r.value.0)
    ensures r.Some? && p.YearMonth? ==> i + 7 <= |q| && r.value == (q[i..i + 7], i + 7)
    ensures r.Some? && p.MonthYear? ==> i + 7 <= |q| && r.value == (q[i + 3..i + 7] + "-" + q[i..i + 2], i + 7)
    ensures r.Some? && p.Named? ==>
              i + |p.name| <= |q| && 4 <= r.value.1 && q[i..i + |p.name|] == p.name && r.value.0 == q[r.value.1 - 4..r.value.1] + "-" + p.mm
  {
    if |q| < i || !StartEdge(q, i) then None
    else
      match p
      case YearMonth =>
        if i + 7 <= |q| && YearMonthShaped(q[i..i + 7]) && EndEdge(q, i + 7)
        then Some((q[i..i + 7], i + 7)) else None
      case MonthYear =>
        if i + 7 <= |q| && AllDigits(q[i..i + 2]) && q[i + 2] == '-' && AllDigits(q[i + 3..i + 7])
           && EndEdge(q, i + 7)
        then
          var v := q[i + 3..i + 7] + "-" + q[i..i + 2];
          assert v[..4] == q[i + 3..i + 7] && v[5..] == q[i..i + 2];
          Some((v, i + 7))
        else None
      case Named(name, mm) =>
        if i + |name| <= |q| && q[i..i + |name|] == name then
          var k := SpaceRun(q, i + |name|);
          var d := i + |name| + k;
          if k >= 1 && d + 4 <= |q| && AllDigits(q[d..d + 4]) && EndEdge(q, d + 4) then
            var v := q[d..d + 4] + "-" + mm;
            assert v[..4] == q[d..d + 4] && v[5..] == mm;
            Some((v, d + 4))
          else None
        else None
  }

  /** A match of a well-formed pattern covers every position it spans: no
      other match can start inside it. */
  lemma NoMatchInside(p: Pattern, q: string, i: nat, j: nat)
    requires WellFormed(p) && MatchAt(p, q, i).Some?
    requires i < j < MatchAt(p, q, i).value.1
    ensures MatchAt(p, q, j).None?
  {
    match p
    case YearMonth => NoYearMonthInside(q, i, j);
    case MonthYear => NoMonthYearInside(q, i, j);
    case Named(name, mm) => NoNamedInside(name, mm, q, i, j);
  }

  lemma NoYearMonthInside(q: string, i: nat, j: nat)
    requires MatchAt(YearMonth, q, i).Some? && i < j < i + 7
    ensures MatchAt(YearMonth, q, j).None?
  {
    var m := q[i..i + 7];
    if j == i + 5 {
      assert i + 12 <= |q| ==> q[j..j + 7][..4][2] == q[i + 7];
    } else if j - 1 - i < 4 {
      assert m[..4][j - 1 - i] == q[j - 1];
    } else {
      assert m[5..][j - 1 - i - 5] == q[j - 1];
    }
  }

  lemma NoMonthYearInside(q: string, i: nat, j: nat)
    requires MatchAt(MonthYear, q, i).Some? && i < j < i + 7
    ensures MatchAt(MonthYear, q, j).None?
  {
  }

  lemma NoNamedInside(name: string, mm: string, q: string, i: nat, j: nat)
    requires WellFormed(Named(name, mm)) && MatchAt(Named(name, mm), q, i).Some?
    requires i < j < MatchAt(Named(name, mm), q, i).value.1
    ensures MatchAt(Named(name, mm), q, j).None?
  {
    var d := NamedShape(name, mm, q, i);
    NamedNeedsLetter(name, mm, q, j);
    if j <= i + |name| {
      assert q[i..i + |name|][j - 1 - i] == q[j - 1];
      assert !StartEdge(q, j);
    } else if j < d {
      assert IsSpace(q[j]);
    } else if j == d {
      assert q[d..d + 4][0] == q[d];
    } else {
      assert q[d..d + 4][j - 1 - d] == q[j - 1];
      assert !StartEdge(q, j);
    }
  }

  /** A named match: the name, a run of spaces up to `d`, four digits. */
  lemma NamedShape(name: string, mm: string, q: string, i: nat) returns (d: nat)
    requires MatchAt(Named(name, mm), q, i).Some?
    ensures i + |name| < d && d + 4 <= |q| && MatchAt(Named(name, mm), q, i).value.1 == d + 4
    ensures q[i..i + |name|] == name && AllDigits(q[d..d + 4])
    ensures forall t :: i + |name| <= t < d ==> IsSpace(q[t])
  {
    var k := SpaceRun(q, i + |name|);
    d := i + |name| + k;
  }

  /** A named match starts at a word edge with a lower-case letter. */
  lemma NamedNeedsLetter(name: string, mm: string, q: string, j: nat)
    requires WellFormed(Named(name, mm))
    ensures MatchAt(Named(name, mm), q, j).Some? ==>
              j < |q| && StartEdge(q, j) && 'a' <= q[j] <= 'z'
  {
    if MatchAt(Named(name, mm), q, j).Some? {
      assert q[j..j + |name|][0] == q[j];
    }
  }

  /** `re.findall(p, q[i:])`, resuming after each match. */
  function FindAll(p: Pattern, q: string, i: nat): (r: seq<string>)
    ensures forall v :: v in r ==> exists j :: i <= j && MatchAt(p, q, j).Some? && MatchAt(p, q, j).value.0 == v
    decreases |q| - i
  {
    if i >= |q| then []
    else
      match MatchAt(p, q, i)
      case None => FindAll(p, q, i + 1)
      case Some((v, e)) => [v] + FindAll(p, q, e)
  }

  /** One step of the scan: skip a position without a match, or take the
      match and resume where it ends. */
  lemma FindAllStep(p: Pattern, q: string, i: nat)
    requires i < |q|
    ensures MatchAt(p, q, i).None? ==> FindAll(p, q, i) == FindAll(p, q, i + 1)
    ensures MatchAt(p, q, i).Some? ==>
              FindAll(p, q, i) == [MatchAt(p, q, i).value.0] + FindAll(p, q, MatchAt(p, q, i).value.1)
  {
  }

  /** Every match at or after `i` is found. */
  lemma {:induction false} FindAllComplete(p: Pattern, q: string, i: nat, j: nat)
    requires WellFormed(p) && i <= j && MatchAt(p, q, j).Some?
    ensures MatchAt(p, q, j).value.0 in FindAll(p, q, i)
    decreases |q| - i
  {
    assert i < |q|;
    FindAllStep(p, q, i);
    var m := MatchAt(p, q, i);
    if m.None? {
      FindAllComplete(p, q, i + 1, j);
    } else if j != i {
      var e := m.value.1;
      if j < e { NoMatchInside(p, q, i, j); }
      FindAllComplete(p, q, e, j);
    }
  }

  /** The first match at or after `i` heads the list. */
  lemma {:induction false} FindAllFirst(p: Pattern, q: string, i: nat, j: nat)
    requires i <= j && MatchAt(p, q, j).Some?
    requires forall k :: i <= k < j ==> MatchAt(p, q, k).None?
    ensures |FindAll(p, q, i)| > 0 && FindAll(p, q, i)[0] == MatchAt(p, q, j).value.0
    decreases j - i
  {
    assert i < |q|;
    FindAllStep(p, q, i);
    if i < j {
      FindAllFirst(p, q, i + 1, j);
    }
  }

  /** The month names in the order the name table lists them. */
  const MonthNames: seq<Pattern> := [
    Named("january", "01"), Named("jan", "01"), Named("february", "02"), Named("feb", "02"),
    Named("march", "03"), Named("mar", "03"), Named("april", "04"), Named("apr", "04"),
    Named("may", "05"), Named("june", "06"), Named("jun", "06"), Named("july", "07"),
    Named("jul", "07"), Named("august", "08"), Named("aug", "08"), Named("september", "09"),
    Named("sep", "09"), Named("sept", "09"), Named("october", "10"), Named("oct", "10"),
    Named("november", "11"), Named("nov", "11"), Named("december", "12"), Named("dec", "12")]

  /** The patterns in the order they are tried. */
  function Patterns(): (ps: seq<Pattern>)
    ensures |ps| == 26 && ps[0] == YearMonth && ps[1] == MonthYear
  {
    [YearMonth, MonthYear] + MonthNames
  }

  /** Every name of the table is a lower-case word and every number two
      digits. */
  lemma PatternsWellFormed(k: nat)
    requires k < |Patterns()|
    ensures WellFormed(Patterns()[k])
  {
    if k >= 2 {
      assert Patterns()[k] == MonthNames[k - 2];
      MonthNamesWellFormed(k - 2);
    }
  }

  lemma MonthNamesWellFormed(k: nat)
    requires k < |MonthNames|
    ensures WellFormed(MonthNames[k])
  {
    if k < 8 {
      EarlyNamesWellFormed(k);
    } else if k < 16 {
      MiddleNamesWellFormed(k);
    } else {
      LateNamesWellFormed(k);
    }
  }

  lemma EarlyNamesWellFormed(k: nat)
    requires k < 8
    ensures WellFormed(MonthNames[k])
  {
  }

  lemma MiddleNamesWellFormed(k: nat)
    requires 8 <= k < 16
    ensures WellFormed(MonthNames[k])
  {
  }

  lemma LateNamesWellFormed(k: nat)
    requires 16 <= k < |MonthNames|
    ensures WellFormed(MonthNames[k])
  {
  }

  /** The matches of every pattern, grouped by pattern. */
  function AllMatches(ps: seq<Pattern>, q: string): (r: seq<string>)
    ensures forall v :: v in r ==> exists k, j :: 0 <= k < |ps| && MatchAt(ps[k], q, j).Some? && MatchAt(ps[k], q, j).value.0 == v
    decreases |ps|
  {
    if |ps| == 0 then []
    else
      var rest := AllMatches(ps[1..], q);
      assert forall v :: v in rest ==> exists k, j :: 0 <= k < |ps| && MatchAt(ps[k], q, j).Some? && MatchAt(ps[k], q, j).value.0 == v by {
        forall v | v in rest ensures exists k, j :: 0 <= k < |ps| && MatchAt(ps[k], q, j).Some? && MatchAt(ps[k], q, j).value.0 == v {
          var k, j :| 0 <= k < |ps| - 1 && MatchAt(ps[1..][k], q, j).Some? && MatchAt(ps[1..][k], q, j).value.0 == v;
          assert ps[1..][k] == ps[k + 1];
        }
      }
      FindAll(ps[0], q, 0) + rest
  }

  /** Any match of any well-formed pattern is among all the matches. */
  lemma {:induction false} AllMatchesComplete(ps: seq<Pattern>, q: string, k: nat, j: nat)
    requires k < |ps| && WellFormed(ps[k]) && MatchAt(ps[k], q, j).Some?
    ensures MatchAt(ps[k], q, j).value.0 in AllMatches(ps, q)
    decreases |ps|
  {
    if k == 0 {
      FindAllComplete(ps[0], q, 0, j);
    } else {
      assert ps[1..][k - 1] == ps[k];
      AllMatchesComplete(ps[1..], q, k - 1, j);
    }
  }

  ghost predicate AllWellFormed(ps: seq<Pattern>)
  {
    forall k :: 0 <= k < |ps| ==> WellFormed(ps[k])
  }

  /** The distinct matches of `ps` in `q`, in the order found. */
  function MonthsIn(ps: seq<Pattern>, q: string): (r: seq<string>)
    requires AllWellFormed(ps)
    ensures Distinct(r)
    ensures forall i :: 0 <= i < |r| ==> YearMonthShaped(r[i])
    ensures forall v :: v in r ==>
              exists k, j :: 0 <= k < |ps| && MatchAt(ps[k], q, j).Some? && MatchAt(ps[k], q, j).value.0 == v
  {
    var all := AllMatches(ps, q);
    var r := Dedup(all);
    assert forall i :: 0 <= i < |r| ==> YearMonthShaped(r[i]) by {
      forall i | 0 <= i < |r| ensures YearMonthShaped(r[i]) {
        assert r[i] in all;
      }
    }
    r
  }

  lemma AllPatternsWellFormed()
    ensures AllWellFormed(Patterns())
  {
    forall k | 0 <= k < |Patterns()| ensures WellFormed(Patterns()[k]) {
      PatternsWellFormed(k);
    }
  }

  /** `_extract_months_from_question`: every month the lower-cased question
      names, normalised to "YYYY-MM", without repetition. */
  function ExtractMonths(question: string): (r: seq<string>)
    ensures Distinct(r)
    ensures forall i :: 0 <= i < |r| ==> YearMonthShaped(r[i])
    ensures forall v :: v in r ==>
              exists k, j :: 0 <= k < |Patterns()| && MatchAt(Patterns()[k], Lower(question), j).Some?
                             && MatchAt(Patterns()[k], Lower(question), j).value.0 == v
  {
    AllPatternsWellFormed();
    MonthsIn(Patterns(), Lower(question))
  }

  /** Every match of every pattern in the lower-cased question is extracted:
      with the ensures of ExtractMonths, a month is extracted exactly when
      one of the patterns matches it. */
  lemma ExtractMonthsComplete(question: string, k: nat, j: nat)
    requires k < |Patterns()| && MatchAt(Patterns()[k], Lower(question), j).Some?
    ensures MatchAt(Patterns()[k], Lower(question), j).value.0 in ExtractMonths(question)
  {
    PatternsWellFormed(k);
    AllMatchesComplete(Patterns(), Lower(question), k, j);
  }

  /** "MM-YYYY" is read as "YYYY-MM". */
  lemma MonthYearNormalised(question: string, j: nat)
    requires MatchAt(MonthYear, Lower(question), j).Some?
    ensures var q := Lower(question);
            q[j + 3..j + 7] + "-" + q[j..j + 2] in ExtractMonths(question)
  {
    ExtractMonthsComplete(question, 1, j);
  }

  /** The full order of the extracted months: every YYYY-MM match in text
      order, then every MM-YYYY match in text order, then the matches of
      each month name in the name table's order (each in text order), with
      only the first occurrence of a month kept. */
  lemma ExtractMonthsOrder(question: string)
    ensures var q := Lower(question);
            ExtractMonths(question)
              == Dedup(FindAll(YearMonth, q, 0) + FindAll(MonthYear, q, 0) + AllMatches(MonthNames, q))
  {
    var q := Lower(question);
    var ps := Patterns();
    ExtractMonthsUnfold(question);
    AllMatchesStep(ps, q);
    AllMatchesStep(ps[1..], q);
    PatternsTail();
    assert ps[1..][0] == MonthYear;
    RegroupDedup(AllMatches(ps, q), FindAll(ps[0], q, 0), AllMatches(ps[1..], q),
                 FindAll(ps[1..][0], q, 0), AllMatches(ps[1..][1..], q));
  }

  lemma RegroupDedup<T(!new)>(whole: seq<T>, a: seq<T>, rest: seq<T>, b: seq<T>, c: seq<T>)
    requires whole == a + rest && rest == b + c
    ensures Dedup(whole) == Dedup(a + b + c)
  {
    assert a + (b + c) == a + b + c;
  }

  /** After the two numeric patterns come the month names. */
  lemma PatternsTail()
    ensures Patterns()[1..][1..] == MonthNames
  {
    var ps := Patterns();
    assert ps == [YearMonth, MonthYear] + MonthNames;
    assert ps[1..] == [MonthYear] + MonthNames;
  }

  lemma ExtractMonthsUnfold(question: string)
    ensures ExtractMonths(question) == Dedup(AllMatches(Patterns(), Lower(question)))
  {
    AllPatternsWellFormed();
    assert ExtractMonths(question) == MonthsIn(Patterns(), Lower(question));
  }

  /** The matches of the first pattern, then those of the rest. */
  lemma AllMatchesStep(ps: seq<Pattern>, q: string)
    requires |ps| > 0
    ensures AllMatches(ps, q) == FindAll(ps[0], q, 0) + AllMatches(ps[1..], q)
  {
  }

  /** A month written YYYY-MM comes before every month the question names
      only in the other forms. */
  lemma YearMonthFormFirst(question: string, x: string, y: string)
    requires var q := Lower(question);
             x in FindAll(YearMonth, q, 0) && y in ExtractMonths(question) && y !in FindAll(YearMonth, q, 0)
    ensures Precedes(ExtractMonths(question), x, y)
  {
    var q := Lower(question);
    ExtractMonthsOrder(question);
    FirstPartFirst(FindAll(YearMonth, q, 0), FindAll(MonthYear, q, 0), AllMatches(MonthNames, q), x, y);
  }

  /** A month written with digits (YYYY-MM or MM-YYYY) comes before every
      month the question names only by a month name. */
  lemma NumericFormsBeforeNames(question: string, x: string, y: string)
    requires var q := Lower(question);
             var numeric := FindAll(YearMonth, q, 0) + FindAll(MonthYear, q, 0);
             x in numeric && y in ExtractMonths(question) && y !in numeric
    ensures Precedes(ExtractMonths(question), x, y)
  {
    var q := Lower(question);
    ExtractMonthsOrder(question);
    var a, b := FindAll(YearMonth, q, 0) + FindAll(MonthYear, q, 0), AllMatches(MonthNames, q);
    DedupEarlierFirst(a, b, x, y);
  }

  /** Of three parts, what the first holds comes before what only the
      others hold. */
  lemma FirstPartFirst<T(!new)>(a: seq<T>, b: seq<T>, c: seq<T>, x: T, y: T)
    requires x in a && y in Dedup(a + b + c) && y !in a
    ensures Precedes(Dedup(a + b + c), x, y)
  {
    assert a + b + c == a + (b + c);
    DedupEarlierFirst(a, b + c, x, y);
  }

  /** The first match of the first pattern heads the distinct matches. */
  lemma FirstOfFirstPattern(ps: seq<Pattern>, q: string, j: nat)
    requires AllWellFormed(ps) && |ps| > 0 && MatchAt(ps[0], q, j).Some?
    requires forall k :: 0 <= k < j ==> MatchAt(ps[0], q, k).None?
    ensures |MonthsIn(ps, q)| > 0 && MonthsIn(ps, q)[0] == MatchAt(ps[0], q, j).value.0
  {
    FindAllFirst(ps[0], q, 0, j);
    DedupHead(AllMatches(ps, q));
  }

  /** When the question has a "YYYY-MM" of its own, the first of them comes
      first. */
  lemma FirstYearMonthFirst(question: string, j: nat)
    requires MatchAt(YearMonth, Lower(question), j).Some?
    requires forall k :: 0 <= k < j ==> MatchAt(YearMonth, Lower(question), k).None?
    ensures |ExtractMonths(question)| > 0 && ExtractMonths(question)[0] == Lower(question)[j..j + 7]
  {
    AllPatternsWellFormed();
    FirstOfFirstPattern(Patterns(), Lower(question), j);
  }

  // ---------------------------------------------------------------------
  // One month for a question

  const FromQuestion := "month taken from question"
  const FromLatest := "month inferred as latest month with data"
  const NoMonth := "no month found and user has no data"

  /** The month a question is about, with a note on where it came from: a
      month the question names (the first of them), else the month of the
      user's latest transaction, else none. `named` is what the router reads
      out of the question. */
  function ChooseMonth(db: Db, userId: int, named: Option<string>): (r: (Option<string>, string))
    ensures named.Some? ==> r == (named, FromQuestion)
    ensures named.None? && r.0.Some? ==> r.1 == FromLatest && r.0 == LatestMonth(db, userId)
    ensures named.None? ==>
              (r.0.None? <==> forall d :: d in UserDates(db, userId) ==> d == "")
    ensures r.0.None? ==> r.1 == NoMonth
  {
    if named.Some? then (named, FromQuestion)
    else
      match LatestMonth(db, userId)
      case Some(m) => (Some(m), FromLatest)
      case None => (None, NoMonth)
  }

  function FirstOf(ms: seq<string>): (r: Option<string>)
    ensures r.None? <==> |ms| == 0
    ensures r.Some? ==> r.value == ms[0]
  {
    if |ms| == 0 then None else Some(ms[0])
  }

  /** `_extract_month_from_question`: the first month the question names,
      else the latest month with data. */
  function ExtractMonth(db: Db, userId: int, question: string): (r: (Option<string>, string))
    ensures |ExtractMonths(question)| > 0 ==> r == (Some(ExtractMonths(question)[0]), FromQuestion)
    ensures r.0.None? <==>
              ExtractMonths(question) == [] && forall d :: d in UserDates(db, userId) ==> d == ""
    ensures r.0.Some? && r.1 == FromLatest ==> ExtractMonths(question) == [] && r.0 == LatestMonth(db, userId)
  {
    ChooseMonth(db, userId, FirstOf(ExtractMonths(question)))
  }

  /** The older router's `_extract_month_from_question`: the first
      `\d{4}-\d{2}` substring, else the latest month with data. */
  function ExtractMonthLegacy(db: Db, userId: int, question: string): (r: (Option<string>, string))
    ensures SearchYearMonth(question).Some? ==> r == (SearchYearMonth(question), FromQuestion)
    ensures r.0.None? <==>
              (forall i: nat :: !YearMonthAt(question, i))
              && forall d :: d in UserDates(db, userId) ==> d == ""
  {
    ChooseMonth(db, userId, SearchYearMonth(question))
  }

  /** The first "YYYY-MM" run is what the search finds. */
  lemma SearchFindsFirst(q: string, j: nat)
    requires YearMonthAt(q, j) && forall k: nat :: k < j ==> !YearMonthAt(q, k)
    ensures SearchYearMonth(q) == Some(q[j..j + 7])
  {
    var i := FirstYearMonth(q).value;
    assert i == j;
  }

  /** No "dddd-dd" run at all before `j` means no standalone one either. */
  lemma NoEarlierMatch(q: string, j: nat)
    requires forall k: nat :: k < j ==> !YearMonthAt(q, k)
    ensures forall k :: 0 <= k < j ==> MatchAt(YearMonth, q, k).None?
  {
    forall k | 0 <= k < j ensures MatchAt(YearMonth, q, k).None? {
      assert !YearMonthAt(q, k);
    }
  }

  /** A standalone "YYYY-MM" that is the lower-cased question's first
      "dddd-dd" run is what both routers read as the month. */
  lemma RoutersAgreeOnLeadingMonth(question: string, j: nat)
    requires MatchAt(YearMonth, Lower(question), j).Some?
    requires forall k: nat :: k < j ==> !YearMonthAt(Lower(question), k)
    ensures |ExtractMonths(question)| > 0
    ensures SearchYearMonth(Lower(question)) == Some(ExtractMonths(question)[0])
  {
    NoEarlierMatch(Lower(question), j);
    FirstYearMonthFirst(question, j);
    SearchFindsFirst(Lower(question), j);
  }
}

=== FILE: records.dfy ===
/** The record store as an in-memory snapshot, and the queries every part of
    the engine shares: the transaction-to-category join, the month filter
    `substr(transaction_date, 1, 7) == month`, date ordering, per-day sums
    and the latest month with data. */
module Records {
  import opened Common
  import opened Text

  datatype User = User(id: int, name: string, email: string)

  /** `kind` is the `type` column: "expense" or "income". */
  datatype Category = Category(id: int, userId: int, name: string, kind: string)

  datatype Transaction = Transaction(
    id: int, userId: int, categoryId: int, amount: real, date: string,
    description: Option<string>)

  datatype Budget = Budget(id: int, userId: int, categoryId: int, month: string, amount: real)

  datatype SummaryRow = SummaryRow(
    userId: int, month: string, totalSpent: real, totalIncome: real, summaryText: string)

  datatype Db = Db(
    users: seq<User>, categories: seq<Category>, transactions: seq<Transaction>,
    budgets: seq<Budget>, summaries: seq<SummaryRow>)

  const ExpenseKind := "expense"
  const IncomeKind := "income"

  /** A transaction joined with its category. */
  datatype Row = Row(tx: Transaction, category: Category)

  /** The category whose primary key is `id`. */
  function FindCategory(cats: seq<Category>, id: int): (r: Option<Category>)
    ensures r.Some? ==> r.value in cats && r.value.id == id
    ensures r.None? ==> forall i :: 0 <= i < |cats| ==> cats[i].id != id
    decreases |cats|
  {
    if |cats| == 0 then None
    else if cats[0].id == id then Some(cats[0])
    else FindCategory(cats[1..], id)
  }

  function FindUser(users: seq<User>, id: int): (r: Option<User>)
    ensures r.Some? ==> r.value in users && r.value.id == id
    ensures r.None? ==> forall i :: 0 <= i < |users| ==> users[i].id != id
    decreases |users|
  {
    if |users| == 0 then None
    else if users[0].id == id then Some(users[0])
    else FindUser(users[1..], id)
  }

  /** `JOIN categories ON transactions.category_id == categories.id`, in
      transaction order; a transaction without a category drops out. */
  function Joined(cats: seq<Category>, txs: seq<Transaction>): (r: seq<Row>)
    ensures |r| <= |txs|
    ensures forall i :: 0 <= i < |r| ==> r[i].tx in txs && r[i].category in cats
    ensures forall i :: 0 <= i < |r| ==> r[i].category.id == r[i].tx.categoryId
    ensures forall i :: 0 <= i < |r| ==> FindCategory(cats, r[i].tx.categoryId) == Some(r[i].category)
    decreases |txs|
  {
    if |txs| == 0 then []
    else
      match FindCategory(cats, txs[0].categoryId)
      case None => Joined(cats, txs[1..])
      case Some(c) => [Row(txs[0], c)] + Joined(cats, txs[1..])
  }

  /** The join loses no transaction that has a category: each one is
      paired in some row. */
  lemma {:induction false} JoinedComplete(cats: seq<Category>, txs: seq<Transaction>, t: Transaction)
    requires t in txs && FindCategory(cats, t.categoryId).Some?
    ensures exists i :: 0 <= i < |Joined(cats, txs)| && Joined(cats, txs)[i].tx == t
    decreases |txs|
  {
    var r := Joined(cats, txs);
    var rest := Joined(cats, txs[1..]);
    JoinedStep(cats, txs);
    if t == txs[0] {
      assert r[0].tx == t;
    } else {
      assert t in txs[1..];
      JoinedComplete(cats, txs[1..], t);
      var i :| 0 <= i < |rest| && rest[i].tx == t;
      var shift := |r| - |rest|;
      assert r[i + shift] == rest[i];
    }
  }

  /** One step of the join: the head row, when the head has a category,
      then the join of the rest. */
  lemma JoinedStep(cats: seq<Category>, txs: seq<Transaction>)
    requires |txs| > 0
    ensures var head := match FindCategory(cats, txs[0].categoryId)
                        case None => []
                        case Some(c) => [Row(txs[0], c)];
            Joined(cats, txs) == head + Joined(cats, txs[1..])
  {
  }

  /** `substr(date, 1, 7)`: the month part of a date string. */
  function MonthOf(date: string): (m: string)
    ensures |m| == if |date| < 7 then |date| else 7
    ensures StartsWith(date, m)
  {
    Take(date, 7)
  }

  /** The rows of one user, of one category kind, dated in `month`. */
  predicate InScope(r: Row, userId: int, kind: string, month: string)
  {
    r.tx.userId == userId && r.category.kind == kind && MonthOf(r.tx.date) == month
  }

  /** `InScope` as a filter predicate. */
  function InScopeOf(userId: int, kind: string, month: string): Row -> bool
  {
    (r: Row) => InScope(r, userId, kind, month)
  }

  function ScopedRows(db: Db, userId: int, kind: string, month: string): (rs: seq<Row>)
    ensures forall i :: 0 <= i < |rs| ==> InScope(rs[i], userId, kind, month)
    ensures forall r :: r in rs <==> r in Joined(db.categories, db.transactions) && InScope(r, userId, kind, month)
  {
    Filter(Joined(db.categories, db.transactions), InScopeOf(userId, kind, month))
  }

  /** The user's expense rows dated in `month`. */
  function ExpenseRows(db: Db, userId: int, month: string): (rs: seq<Row>)
    ensures forall r :: r in rs <==>
      r in Joined(db.categories, db.transactions) && InScope(r, userId, ExpenseKind, month)
  {
    ScopedRows(db, userId, ExpenseKind, month)
  }

  /** Rows whose category is named `name`, as a filter predicate. */
  function NamedOf(name: string): Row -> bool
  {
    (r: Row) => r.category.name == name
  }

  /** The same rows restricted to categories named `name` (exact match). */
  function CategoryExpenseRows(db: Db, userId: int, month: string, name: string): (rs: seq<Row>)
    ensures forall r :: r in rs <==> r in ExpenseRows(db, userId, month) && r.category.name == name
  {
    Filter(ExpenseRows(db, userId, month), NamedOf(name))
  }

  function Amount(r: Row): real { r.tx.amount }

  function DateOf(r: Row): string { r.tx.date }

  function CategoryName(r: Row): string { r.category.name }

  /** `COALESCE(SUM(amount), 0.0)` over the rows. */
  function TotalAmount(rs: seq<Row>): real
  {
    SumOf(rs, Amount)
  }

  // ---------------------------------------------------------------------
  // Date ordering: SQLite compares TEXT by code points.

  predicate StrLess(a: string, b: string)
    decreases |a|
  {
    if |a| == 0 then |b| > 0
    else if |b| == 0 then false
    else if a[0] != b[0] then a[0] < b[0]
    else StrLess(a[1..], b[1..])
  }

  lemma {:induction false} StrLessIrreflexive(a: string)
    ensures !StrLess(a, a)
    decreases |a|
  {
    if |a| > 0 {
      StrLessIrreflexive(a[1..]);
    }
  }

  lemma {:induction false} StrLessTransitive(a: string, b: string, c: string)
    requires StrLess(a, b) && StrLess(b, c)
    ensures StrLess(a, c)
    decreases |a|
  {
    if |a| > 0 && |b| > 0 && |c| > 0 && a[0] == b[0] && b[0] == c[0] {
      StrLessTransitive(a[1..], b[1..], c[1..]);
    }
  }

  lemma {:induction false} StrLessTotal(a: string, b: string)
    requires a != b
    ensures StrLess(a, b) || StrLess(b, a)
    decreases |a|
  {
    if |a| > 0 && |b| > 0 && a[0] == b[0] {
      assert a == [a[0]] + a[1..] && b == [b[0]] + b[1..];
      StrLessTotal(a[1..], b[1..]);
    }
  }

  lemma {:induction false} StrLessAsymmetric(a: string, b: string)
    requires StrLess(a, b)
    ensures !StrLess(b, a)
    decreases |a|
  {
    if |a| > 0 && |b| > 0 && a[0] == b[0] {
      StrLessAsymmetric(a[1..], b[1..]);
    }
  }

  /** Strictly increasing, hence also duplicate-free. */
  ghost predicate Ascending(ds: seq<string>)
  {
    forall i, j :: 0 <= i < j < |ds| ==> StrLess(ds[i], ds[j])
  }

  lemma AscendingDistinct(ds: seq<string>)
    requires Ascending(ds)
    ensures Distinct(ds)
  {
    forall i, j | 0 <= i < j < |ds|
      ensures ds[i] != ds[j]
    {
      if ds[i] == ds[j] {
        StrLessIrreflexive(ds[i]);
      }
    }
  }

  /** Inserts a date into an ascending list of distinct dates. */
  function InsertDate(d: string, ds: seq<string>): (r: seq<string>)
    requires Ascending(ds)
    ensures Ascending(r)
    ensures forall x :: x in r <==> x in ds || x == d
    decreases |ds|
  {
    if |ds| == 0 then [d]
    else if d == ds[0] then ds
    else if StrLess(d, ds[0]) then
      assert forall j :: 0 <= j < |ds| ==> StrLess(d, ds[j]) by {
        forall j | 0 <= j < |ds| ensures StrLess(d, ds[j]) {
          if j > 0 { StrLessTransitive(d, ds[0], ds[j]); }
        }
      }
      [d] + ds
    else
      StrLessTotal(d, ds[0]);
      var tail := InsertDate(d, ds[1..]);
      assert forall j :: 0 <= j < |tail| ==> StrLess(ds[0], tail[j]) by {
        forall j | 0 <= j < |tail| ensures StrLess(ds[0], tail[j]) {
          if tail[j] != d {
            assert tail[j] in ds[1..];
            var m :| 0 <= m < |ds[1..]| && ds[1..][m] == tail[j];
            assert StrLess(ds[0], ds[m + 1]);
          }
        }
      }
      [ds[0]] + tail
  }

  /** The date of every row, in row order. */
  function RowDates(rs: seq<Row>): (r: seq<string>)
    ensures |r| == |rs| && forall i :: 0 <= i < |rs| ==> r[i] == rs[i].tx.date
  {
    Map(rs, DateOf)
  }

  /** Every date of a sub-collection of rows is a date of the whole. */
  lemma RowDatesOfSubset(sub: seq<Row>, rs: seq<Row>, d: string)
    requires forall r :: r in sub ==> r in rs
    requires d in RowDates(sub)
    ensures d in RowDates(rs)
  {
    var i :| 0 <= i < |sub| && RowDates(sub)[i] == d;
    assert sub[i] in rs;
    var j :| 0 <= j < |rs| && rs[j] == sub[i];
    assert RowDates(rs)[j] == d;
  }

  /** The distinct dates of the rows in ascending order
      (`GROUP BY transaction_date ORDER BY transaction_date ASC`). */
  function SortedDates(rs: seq<Row>): (r: seq<string>)
    ensures Ascending(r)
    ensures forall d :: d in r <==> d in RowDates(rs)
    decreases |rs|
  {
    if |rs| == 0 then []
    else
      assert RowDates(rs) == [rs[0].tx.date] + RowDates(rs[1..]);
      InsertDate(rs[0].tx.date, SortedDates(rs[1..]))
  }

  datatype DayTotal = DayTotal(date: string, total: real)

  function Totals(ds: seq<DayTotal>): (r: seq<real>)
    ensures |r| == |ds| && forall i :: 0 <= i < |ds| ==> r[i] == ds[i].total
  {
    seq(|ds|, i requires 0 <= i < |ds| => ds[i].total)
  }

  function DayDate(d: DayTotal): string
  {
    d.date
  }

  /** The dates of the day entries, in order. */
  function Dates(ds: seq<DayTotal>): seq<string>
  {
    Map(ds, DayDate)
  }

  /** One entry per distinct date in ascending date order, holding that
      date's summed amount (`SUM(amount) ... GROUP BY transaction_date`). */
  function DailyTotals(rs: seq<Row>): (r: seq<DayTotal>)
    ensures Ascending(Dates(r))
    ensures forall d :: d in Dates(r) <==> d in RowDates(rs)
    ensures forall i :: 0 <= i < |r| ==> r[i].total == SumWhere(rs, DateOf, Amount, r[i].date)
    ensures |rs| == 0 <==> |r| == 0
  {
    var ds := SortedDates(rs);
    assert |rs| > 0 ==> RowDates(rs)[0] in ds;
    var r := seq(|ds|, i requires 0 <= i < |ds| => DayTotal(ds[i], SumWhere(rs, DateOf, Amount, ds[i])));
    assert Dates(r) == ds;
    r
  }

  /** Grouping by day never double counts: the day totals add up to the
      plain sum of the rows. */
  lemma DailyTotalsConserveSum(rs: seq<Row>)
    ensures Sum(Totals(DailyTotals(rs))) == TotalAmount(rs)
  {
    var r := DailyTotals(rs);
    var ds := Dates(r);
    AscendingDistinct(ds);
    forall i | 0 <= i < |rs| ensures DateOf(rs[i]) in ds {
      assert RowDates(rs)[i] in ds;
    }
    GroupedSumIsTotal(ds, rs, DateOf, Amount);
    SumOverKeysIsSum(ds, r, rs);
  }

  lemma {:induction false} SumOverKeysIsSum(ds: seq<string>, r: seq<DayTotal>, rs: seq<Row>)
    requires |ds| == |r|
    requires forall i :: 0 <= i < |r| ==> r[i].date == ds[i] && r[i].total == SumWhere(rs, DateOf, Amount, ds[i])
    ensures Sum(Totals(r)) == SumOverKeys(ds, rs, DateOf, Amount)
    decreases |r|
  {
    if |r| > 0 {
      assert Totals(r)[1..] == Totals(r[1..]);
      SumOverKeysIsSum(ds[1..], r[1..], rs);
    }
  }

  /** Greatest date in code-point order (`MAX(transaction_date)`). */
  function MaxDate(ds: seq<string>): (m: string)
    requires |ds| > 0
    ensures m in ds
    ensures forall i :: 0 <= i < |ds| ==> !StrLess(m, ds[i])
    decreases |ds|
  {
    if |ds| == 1 then
      StrLessIrreflexive(ds[0]);
      ds[0]
    else
      var rest := MaxDate(ds[1..]);
      if StrLess(rest, ds[0]) then
        assert forall i :: 1 <= i < |ds| ==> !StrLess(ds[0], ds[i]) by {
          forall i | 1 <= i < |ds| ensures !StrLess(ds[0], ds[i]) {
            assert !StrLess(rest, ds[1..][i - 1]);
            if StrLess(ds[0], ds[i]) { StrLessTransitive(rest, ds[0], ds[i]); }
          }
        }
        StrLessIrreflexive(ds[0]);
        ds[0]
      else
        assert forall i :: 1 <= i < |ds| ==> !StrLess(rest, ds[i]) by {
          forall i | 1 <= i < |ds| ensures !StrLess(rest, ds[i]) {
            assert ds[i] == ds[1..][i - 1];
          }
        }
        rest
  }

  function UserDates(db: Db, userId: int): (r: seq<string>)
    ensures forall d :: d in r <==> exists i :: 0 <= i < |db.transactions| && db.transactions[i].userId == userId && db.transactions[i].date == d
  {
    var txs := Filter(db.transactions, (t: Transaction) => t.userId == userId);
    var r := Map(txs, (t: Transaction) => t.date);
    assert forall d :: d in r <==> exists t :: t in txs && t.date == d by {
      forall d ensures d in r ==> exists t :: t in txs && t.date == d {
        if d in r {
          var i :| 0 <= i < |r| && r[i] == d;
          assert txs[i] in txs;
        }
      }
      forall d ensures (exists t :: t in txs && t.date == d) ==> d in r {
        if exists t :: t in txs && t.date == d {
          var t :| t in txs && t.date == d;
          var i :| 0 <= i < |txs| && txs[i] == t;
          assert r[i] == d;
        }
      }
    }
    r
  }

  /** The month of the user's latest transaction date (`MAX(transaction_date)`
      over all of the user's transactions, then `[:7]`), or None when the user
      has no transaction with a non-empty date. */
  function LatestMonth(db: Db, userId: int): (r: Option<string>)
    ensures r.Some? ==> exists d :: d in UserDates(db, userId) && d != "" && r.value == MonthOf(d)
                          && forall e :: e in UserDates(db, userId) ==> !StrLess(d, e)
    ensures r.None? <==> forall d :: d in UserDates(db, userId) ==> d == ""
    ensures r.Some? ==> |r.value| > 0
  {
    var ds := UserDates(db, userId);
    if |ds| == 0 then None
    else
      var m := MaxDate(ds);
      if m == "" then
        assert forall d :: d in ds ==> d == "" by {
          forall d | d in ds ensures d == "" {
            var i :| 0 <= i < |ds| && ds[i] == d;
            if d != "" { assert StrLess(m, d); }
          }
        }
        None
      else
        assert forall e :: e in ds ==> !StrLess(m, e) by {
          forall e | e in ds ensures !StrLess(m, e) {
            var i :| 0 <= i < |ds| && ds[i] == e;
          }
        }
        Some(MonthOf(m))
  }
}

=== FILE: router.dfy ===
/** The question router: greetings, the privacy guard, two-month segment
    comparison, anomaly explanation, the single-month segment and, for
    everything else, retrieval followed by the language model with the
    rule-based answer as its fallback. The model itself is a parameter. */
module Router {
  import opened Common
  import opened Text
  import opened Records
  import opened Months
  import opened Summary
  import opened Anomaly
  import opened Features
  import opened Segments
  import opened Answer

  // ---------------------------------------------------------------------
  // Greetings and the privacy guard

  const GreetingWords: seq<string> := ["hi", "hii", "hiii", "hello", "hey", "hola", "namaste"]

  /** `q` is a greeting word, or starts with one followed by a space. */
  function GreetsWith(q: string, ws: seq<string>): (r: bool)
    ensures r <==> exists j :: 0 <= j < |ws| && (q == ws[j] || StartsWith(q, ws[j] + " "))
    decreases |ws|
  {
    if |ws| == 0 then false
    else
      q == ws[0] || StartsWith(q, ws[0] + " ") || GreetsWith(q, ws[1..])
  }

  /** The stripped, lower-cased question is a simple greeting. */
  predicate IsGreeting(question: string)
  {
    GreetsWith(Lower(Strip(question)), GreetingWords)
  }

  /** "â€™" is how the source spells the right single quotation mark after
      a UTF-8/Windows-1252 mix-up: U+00E2 U+20AC U+2122. */
  const Apostrophe := "\U{E2}\U{20AC}\U{2122}"

  const CrossUserPhrases: seq<string> := [
    "other user", "another user", "someone else", "other people", "other account",
    "other person", "my friend's account", "my friends account",
    "friend" + Apostrophe + "s account"]

  /** `_is_cross_user_question`: the lower-cased question contains one of
      the phrases about other people's accounts. */
  function IsCrossUserQuestion(question: string): (r: bool)
    ensures r <==> exists j :: 0 <= j < |CrossUserPhrases| && Contains(Lower(question), CrossUserPhrases[j])
  {
    FirstKeyword(Lower(question), CrossUserPhrases).Some?
  }

  /** The guard does not depend on letter case. */
  lemma CrossUserIgnoresCase(question: string)
    ensures IsCrossUserQuestion(Lower(question)) == IsCrossUserQuestion(question)
  {
    LowerIdempotent(question);
  }

  function GreetingText(name: string): string
  {
    "Hi " + name + ", I" + Apostrophe + "m Rcube, your personal finance assistant. "
      + "You can ask me things like:\n"
      + "- \"How much did I spend on Pizza in 2025-12?\"\n"
      + "- \"What was my top category this month?\"\n"
      + "- \"Why was 2025-12-03 flagged as an anomaly?\""
  }

  const PrivacyText := "For privacy and security reasons, I can only show information for your own "
                       + "account, not other users."

  // ---------------------------------------------------------------------
  // Comparing the segments of two months

  /** The dominant category of `describe_segment_change`: the first name
      in dict order with the largest share, unless that share is not
      positive. */
  function DominantName(f: Features): (r: Option<string>)
    ensures r.Some? ==> r.value in f.categories && RatioOf(f, r.value) > 0.0
    ensures r.Some? ==> forall name :: name in f.categories ==> RatioOf(f, name) <= RatioOf(f, r.value)
    ensures r.None? ==> forall name :: name in f.categories ==> RatioOf(f, name) <= 0.0
    ensures r.Some? ==> FirstWithShare(f, Dedup(f.categories), r.value)
  {
    var names := Dedup(f.categories);
    match Dominant(f, names)
    case None =>
      assert forall name :: name in f.categories ==> name in names;
      None
    case Some(i) =>
      if RatioOf(f, names[i]) <= 0.0 then
        assert forall name :: name in f.categories ==> name in names;
        None
      else
        assert forall name :: name in f.categories ==> name in names;
        FirstOfMaximal(f, names, i);
        Some(names[i])
  }

  /** No name before `name` in `names` has a share as large as its own:
      ties go to the earliest name, as Python's `max` keeps the first. */
  ghost predicate FirstWithShare(f: Features, names: seq<string>, name: string)
  {
    forall j :: 0 <= j < |names| && RatioOf(f, names[j]) >= RatioOf(f, name) ==> name in names[..j + 1]
  }

  lemma FirstOfMaximal(f: Features, names: seq<string>, i: nat)
    requires i < |names|
    requires forall j :: 0 <= j < i ==> RatioOf(f, names[j]) < RatioOf(f, names[i])
    ensures FirstWithShare(f, names, names[i])
  {
    forall j | 0 <= j < |names| && RatioOf(f, names[j]) >= RatioOf(f, names[i])
      ensures names[i] in names[..j + 1]
    {
      assert names[..j + 1][i] == names[i];
    }
  }

  function WasText(month: string, f: Features): string
  {
    "In " + month + ", your spending segment was '" + ClusterUserProfile(f).name
      + "', with a total of " + Fmt2(f.grandTotal) + "."
  }

  function IsText(month: string, f: Features): string
  {
    "In " + month + ", your spending segment is '" + ClusterUserProfile(f).name
      + "', with a total of " + Fmt2(f.grandTotal) + "."
  }

  /** A present, non-empty dominant name as a one-element sentence list. */
  function DominantSentence(d: Option<string>, verb: string): (r: seq<string>)
    ensures |r| <= 1
  {
    if d.Some? && d.value != "" then ["The dominant category " + verb + " " + d.value + "."] else []
  }

  const ChangedText := "This means your spending pattern changed between the two months."
  const SimilarText := "Overall, your spending pattern is quite similar between these months."

  /** Segments or dominant categories differ between the two months. */
  predicate PatternChanged(f1: Features, f2: Features)
  {
    ClusterUserProfile(f1).name != ClusterUserProfile(f2).name || DominantName(f1) != DominantName(f2)
  }

  function ChangeText(m1: string, m2: string, f1: Features, f2: Features): string
  {
    var parts := [WasText(m1, f1)] + DominantSentence(DominantName(f1), "was")
                 + [IsText(m2, f2)] + DominantSentence(DominantName(f2), "is");
    Join(parts + [Verdict(PatternChanged(f1, f2))], " ")
  }

  function Verdict(changed: bool): string
  {
    if changed then ChangedText else SimilarText
  }

  /** `describe_segment_change`; an error where building either month's
      features fails. */
  function DescribeSegmentChange(db: Db, userId: int, m1: string, m2: string,
                                 sqrt: real -> real): (r: Result<string, string>)
    ensures r.Ok? <==> BuildSpendingFeatureVector(db, userId, m1, sqrt).Ok?
                       && BuildSpendingFeatureVector(db, userId, m2, sqrt).Ok?
  {
    match BuildSpendingFeatureVector(db, userId, m1, sqrt)
    case Err(e) => Err(e)
    case Ok(f1) =>
      match BuildSpendingFeatureVector(db, userId, m2, sqrt)
      case Err(e) => Err(e)
      case Ok(f2) => Ok(ChangeText(m1, m2, f1, f2))
  }

  /** The verdict closes the description: "changed" exactly when the
      segments or the dominant categories differ, "similar" otherwise. */
  lemma ChangeVerdict(m1: string, m2: string, f1: Features, f2: Features)
    ensures EndsWith(ChangeText(m1, m2, f1, f2), " " + ChangedText) <==> PatternChanged(f1, f2)
    ensures EndsWith(ChangeText(m1, m2, f1, f2), " " + SimilarText) <==> !PatternChanged(f1, f2)
    ensures StartsWith(ChangeText(m1, m2, f1, f2), WasText(m1, f1))
  {
    var parts := [WasText(m1, f1)] + DominantSentence(DominantName(f1), "was")
                 + [IsText(m2, f2)] + DominantSentence(DominantName(f2), "is");
    ClosingVerdict(parts, PatternChanged(f1, f2));
    JoinStartsWithFirst(parts + [Verdict(PatternChanged(f1, f2))], " ");
  }

  /** Whichever verdict closes a joined text is the one it ends with. */
  lemma ClosingVerdict(parts: seq<string>, changed: bool)
    requires |parts| > 0
    ensures EndsWith(Join(parts + [Verdict(changed)], " "), " " + ChangedText) <==> changed
    ensures EndsWith(Join(parts + [Verdict(changed)], " "), " " + SimilarText) <==> !changed
  {
    var a := Join(parts, " ");
    JoinSnoc(parts, Verdict(changed), " ");
    ConcatAssoc(a, " ", Verdict(changed));
    EndsWithSuffix(a, " " + Verdict(changed));
    VerdictTails();
    EndingsDiffer(a, ChangedText, SimilarText);
    EndingsDiffer(a, SimilarText, ChangedText);
  }

  lemma EndsWithSuffix(a: string, b: string)
    ensures EndsWith(a + b, b)
  {
    assert (a + b)[|a + b| - |b|..] == b;
  }

  /** The two verdicts differ in their ninth character from the end. */
  lemma VerdictTails()
    ensures |ChangedText| >= 9 && |SimilarText| >= 9
    ensures ChangedText[|ChangedText| - 9] != SimilarText[|SimilarText| - 9]
  {
  }

  /** A text ending in `c` does not end in `s` when the two differ at the
      same distance from the end. */
  lemma EndingsDiffer(a: string, c: string, s: string)
    requires |c| >= 9 && |s| >= 9 && c[|c| - 9] != s[|s| - 9]
    ensures !EndsWith(a + (" " + c), " " + s)
  {
    var x := a + (" " + c);
    if |s| + 1 <= |x| {
      assert x[|x| - |s| - 1..][|s| - 8] == x[|x| - 9] == c[|c| - 9];
      assert (" " + s)[|s| - 8] == s[|s| - 9];
    }
  }

  /** A month compared with itself is always "quite similar". */
  lemma SameMonthIsSimilar(db: Db, userId: int, m: string, sqrt: real -> real)
    requires DescribeSegmentChange(db, userId, m, m, sqrt).Ok?
    ensures EndsWith(DescribeSegmentChange(db, userId, m, m, sqrt).value, " " + SimilarText)
  {
    var f := BuildSpendingFeatureVector(db, userId, m, sqrt).value;
    ChangeVerdict(m, m, f, f);
  }

  // ---------------------------------------------------------------------
  // The single-month segment

  /** Python's `max` over the ratios in dict order: the first name with the
      largest share; None for no names. */
  function FirstMax(f: Features, names: seq<string>): (r: Option<nat>)
    ensures r.None? <==> |names| == 0
    ensures r.Some? ==> r.value < |names|
    ensures r.Some? ==> forall j :: 0 <= j < |names| ==> RatioOf(f, names[j]) <= RatioOf(f, names[r.value])
    ensures r.Some? ==> forall j :: 0 <= j < r.value ==> RatioOf(f, names[j]) < RatioOf(f, names[r.value])
    decreases |names|
  {
    if |names| == 0 then None
    else
      var n := |names| - 1;
      match FirstMax(f, names[..n])
      case None => Some(n)
      case Some(b) => if RatioOf(f, names[n]) > RatioOf(f, names[b]) then Some(n) else Some(b)
  }

  /** The largest-share category of the single-month answer, if any. */
  function LargestShare(f: Features): (r: Option<string>)
    ensures r.None? <==> |f.categories| == 0
    ensures r.Some? ==> r.value in f.categories
                        && forall name :: name in f.categories ==> RatioOf(f, name) <= RatioOf(f, r.value)
    ensures r.Some? ==> FirstWithShare(f, Dedup(f.categories), r.value)
  {
    var names := Dedup(f.categories);
    match FirstMax(f, names)
    case None =>
      assert |f.categories| > 0 ==> f.categories[0] in names;
      None
    case Some(i) =>
      assert forall name :: name in f.categories ==> name in names;
      FirstOfMaximal(f, names, i);
      Some(names[i])
  }

  function SegmentText(month: string, f: Features): string
  {
    var extra := match LargestShare(f)
                 case Some(d) => if d != "" then " Your dominant category is " + d + "." else ""
                 case None => "";
    "In " + month + ", your spending segment is '" + ClusterUserProfile(f).name + "'." + extra
  }

  const NoSegmentDataText := "I don't yet have enough data to build your spending segment."

  // ---------------------------------------------------------------------
  // Routing

  /** Which branch of the router answers a question, in the order the
      router tries them. */
  datatype Route =
    | Greeting
    | Blocked
    | Compare(first: string, second: string)
    | Explain(date: string)
    | SegmentOne
    | Retrieve

  predicate AsksComparison(q: string)
  {
    Contains(q, "compare") || Contains(q, "difference") || Contains(q, "change")
  }

  predicate AsksWhy(q: string)
  {
    Contains(q, "why") || Contains(q, "anomal") || Contains(q, "spike") || Contains(q, "unusual")
  }

  predicate AsksSegment(q: string)
  {
    Contains(q, "cluster") || Contains(q, "segment") || Contains(q, "spending profile")
  }

  /** The question asks to compare two of the months it names. */
  predicate ComparesMonths(months: seq<string>, q: string)
  {
    |months| >= 2 && AsksComparison(q)
  }

  /** The question asks why the full date it names stands out. */
  predicate ExplainsDate(date: Option<string>, q: string)
  {
    date.Some? && AsksWhy(q)
  }

  /** The branch the router takes for a question: the decision of
      `RouteFor` on what the question says. */
  function RouteOf(question: string): (r: Route)
    ensures r == Greeting <==> IsGreeting(question)
    ensures r == Blocked <==> !IsGreeting(question) && IsCrossUserQuestion(question)
    ensures r.Compare? ==> |ExtractMonths(question)| >= 2
                           && r == Compare(ExtractMonths(question)[0], ExtractMonths(question)[1])
    ensures r.Explain? ==> ExtractFullDate(question) == Some(r.date)
  {
    RouteFor(IsGreeting(question), IsCrossUserQuestion(question), ExtractMonths(question),
             ExtractFullDate(question), Lower(Strip(question)))
  }

  /** The router's priority chain on a question: greeting, privacy guard,
      comparison of two named months, explanation of a named date, the
      segment question, and retrieval for everything else, each taken
      exactly when every earlier one fails and its own test holds. */
  lemma RouteOfChoice(question: string)
    ensures var r := RouteOf(question);
            var greeting, crossUser := IsGreeting(question), IsCrossUserQuestion(question);
            var months, date, q := ExtractMonths(question), ExtractFullDate(question), Lower(Strip(question));
            var earlierFail := !greeting && !crossUser && !ComparesMonths(months, q);
            && (r.Compare? <==> !greeting && !crossUser && ComparesMonths(months, q))
            && (r.Explain? <==> earlierFail && ExplainsDate(date, q))
            && (r == SegmentOne <==> earlierFail && !ExplainsDate(date, q) && AsksSegment(q))
            && (r == Retrieve <==> earlierFail && !ExplainsDate(date, q) && !AsksSegment(q))
  {
  }

  /** The routing decision from what was read off the question: whether it
      is a greeting or a cross-user question, the months and the full date
      it names, and its lower-cased, stripped text. Each branch is taken
      exactly when every earlier one fails and its own test holds. */
  function RouteFor(greeting: bool, crossUser: bool, months: seq<string>, date: Option<string>, q: string): (r: Route)
    ensures r == Greeting <==> greeting
    ensures r == Blocked <==> !greeting && crossUser
    ensures r.Compare? <==> !greeting && !crossUser && ComparesMonths(months, q)
    ensures r.Compare? ==> r == Compare(months[0], months[1])
    ensures r.Explain? <==> !greeting && !crossUser && !ComparesMonths(months, q) && ExplainsDate(date, q)
    ensures r.Explain? ==> date == Some(r.date)
    ensures r == SegmentOne <==> !greeting && !crossUser && !ComparesMonths(months, q)
                                 && !ExplainsDate(date, q) && AsksSegment(q)
    ensures r == Retrieve <==> !greeting && !crossUser && !ComparesMonths(months, q)
                               && !ExplainsDate(date, q) && !AsksSegment(q)
  {
    if greeting then Greeting
    else if crossUser then Blocked
    else if ComparesMonths(months, q) then Compare(months[0], months[1])
    else if ExplainsDate(date, q) then Explain(date.value)
    else if AsksSegment(q) then SegmentOne
    else Retrieve
  }

  /** The language model's reply to the prompt built from the question and
      the context: a text (possibly empty) or a failure message. */
  datatype LlmReply = Replied(text: string) | Failed(error: string)

  datatype Outcome = Outcome(db: Db, answer: string, debug: string)

  const EmptyReplyError := "Empty answer from Ollama"

  /** The threshold `explain_anomalous_date` is called with. */
  const ExplainThreshold := 2.0

  /** The single-month segment branch: the first month the question
      names, else the latest month with data. */
  function SegmentAnswer(db: Db, userId: int, question: string, sqrt: real -> real): (r: Result<Outcome, string>)
    ensures r.Ok? ==> r.value.db == db
    ensures |ExtractMonths(question)| > 0 ==> r == SegmentOf(db, userId, Some(ExtractMonths(question)[0]), sqrt)
    ensures |ExtractMonths(question)| == 0 ==> r == SegmentOf(db, userId, LatestMonth(db, userId), sqrt)
  {
    var months := ExtractMonths(question);
    SegmentOf(db, userId, if |months| > 0 then Some(months[0]) else LatestMonth(db, userId), sqrt)
  }

  /** The segment answer for the chosen month: without one, the report
      that there is no data; otherwise the segment of that month's
      features, or the error of building them. */
  function SegmentOf(db: Db, userId: int, month: Option<string>, sqrt: real -> real): (r: Result<Outcome, string>)
    ensures r.Ok? ==> r.value.db == db
    ensures month.None? <==> r == Ok(Outcome(db, NoSegmentDataText, "no_data_for_cluster"))
    ensures month.Some? ==>
              var built := BuildSpendingFeatureVector(db, userId, month.value, sqrt);
              && (built.Err? ==> r == Err(built.error))
              && (built.Ok? ==> r.Ok? && r.value.answer == SegmentText(month.value, built.value)
                                && r.value.debug == "segment_single; month=" + month.value)
  {
    match month
    case None => Ok(Outcome(db, NoSegmentDataText, "no_data_for_cluster"))
    case Some(m) =>
      match BuildSpendingFeatureVector(db, userId, m, sqrt)
      case Err(e) => Err(e)
      case Ok(f) => Ok(Outcome(db, SegmentText(m, f), "segment_single; month=" + m))
  }

  const NoDataText := "I could not find any transactions for you yet, so I cannot answer that question."

  /** The retrieval branch: the model's non-empty reply, else the rule-based
      answer with the model's error in the debug tag. */
  function RetrievalAnswer(db: Db, userId: int, question: string,
                           llm: (string, Context) -> LlmReply): (r: Result<Outcome, string>)
    ensures r.Ok? ==> r.value.db.users == db.users && r.value.db.categories == db.categories
                      && r.value.db.transactions == db.transactions && r.value.db.budgets == db.budgets
  {
    AnswerFrom(RetrieveContext(db, userId, question), question, llm)
  }

  /** What the router makes of a retrieval's outcome. */
  function AnswerFrom(ret: Retrieval, question: string, llm: (string, Context) -> LlmReply): (r: Result<Outcome, string>)
    ensures r.Ok? ==> r.value.db == ret.db
    ensures ret.context.None? ==> r == Ok(Outcome(ret.db, NoDataText, "retrieval_failed; " + ret.info))
    ensures ret.context.Some? ==>
              var ctx := ret.context.value;
              var reply := llm(question, ctx);
              (reply.Replied? && reply.text != "" ==> r == Ok(Outcome(ret.db, reply.text, ret.info + "; engine=ollama")))
              && (reply.Failed? ==>
                    r.Ok? == GenerateAnswerRuleBased(question, ctx).Some?
                    && (r.Ok? ==> Some(r.value.answer) == GenerateAnswerRuleBased(question, ctx)
                                  && r.value.debug == ret.info + "; engine=rule_based; ollama_error=" + reply.error))
              && (reply == Replied("") ==>
                    r.Ok? == GenerateAnswerRuleBased(question, ctx).Some?
                    && (r.Ok? ==> Some(r.value.answer) == GenerateAnswerRuleBased(question, ctx)
                                  && r.value.debug == ret.info + "; engine=rule_based; ollama_error=" + EmptyReplyError))
  {
    match ret.context
    case None => Ok(Outcome(ret.db, NoDataText, "retrieval_failed; " + ret.info))
    case Some(ctx) =>
      var reply := llm(question, ctx);
      if reply.Replied? && reply.text != "" then
        Ok(Outcome(ret.db, reply.text, ret.info + "; engine=ollama"))
      else
        var err := if reply.Failed? then reply.error else EmptyReplyError;
        match GenerateAnswerRuleBased(question, ctx)
        case None => Err("IndexError")
        case Some(a) => Ok(Outcome(ret.db, a, ret.info + "; engine=rule_based; ollama_error=" + err))
  }

  /** `answer_question`: (answer, debug tag), with the store as changed by
      building the monthly summary; an error where the source lets an
      exception escape. */
  function AnswerQuestion(db: Db, userId: int, question: string, sqrt: real -> real,
                          llm: (string, Context) -> LlmReply): (r: Result<Outcome, string>)
    ensures RouteOf(question) != Retrieve && r.Ok? ==> r.value.db == db
    ensures r.Ok? ==> r.value.db.transactions == db.transactions && r.value.db.users == db.users
  {
    Dispatch(RouteOf(question), db, userId, question, sqrt, llm)
  }

  /** The branch a route leads to. Only retrieval writes to the store. */
  function Dispatch(route: Route, db: Db, userId: int, question: string, sqrt: real -> real,
                    llm: (string, Context) -> LlmReply): (r: Result<Outcome, string>)
    ensures route != Retrieve && r.Ok? ==> r.value.db == db
    ensures r.Ok? ==> r.value.db.transactions == db.transactions && r.value.db.users == db.users
  {
    if route == Retrieve then RetrievalAnswer(db, userId, question, llm)
    else ReadOnlyAnswer(route, db, userId, question, sqrt)
  }

  /** The branches that only read the store. */
  function ReadOnlyAnswer(route: Route, db: Db, userId: int, question: string, sqrt: real -> real): (r: Result<Outcome, string>)
    requires route != Retrieve
    ensures r.Ok? ==> r.value.db == db
  {
    match route
    case Greeting => Ok(GreetingAnswer(db, userId))
    case Blocked => Ok(Outcome(db, PrivacyText, "blocked_for_privacy"))
    case Compare(m1, m2) => CompareAnswer(db, userId, m1, m2, sqrt)
    case Explain(date) => Ok(ExplainAnswer(db, userId, date, sqrt))
    case SegmentOne => SegmentAnswer(db, userId, question, sqrt)
  }

  /** The greeting branch: a greeting by the user's display name. */
  function GreetingAnswer(db: Db, userId: int): (r: Outcome)
    ensures r.db == db && r.debug == "greeting_only"
    ensures r.answer == GreetingText(UserDisplayName(FindUser(db.users, userId), userId))
  {
    Outcome(db, GreetingText(UserDisplayName(FindUser(db.users, userId), userId)), "greeting_only")
  }

  /** The anomaly branch: the explanation of the named date, tagged with
      its kind. */
  function ExplainAnswer(db: Db, userId: int, date: string, sqrt: real -> real): (r: Outcome)
    ensures r.db == db
    ensures var e := ExplainAnomalousDate(db, userId, date, ExplainThreshold, sqrt);
            r.answer == e.text && r.debug == "anomaly_explain; date=" + date + "; " + KindName(e.kind)
  {
    var e := ExplainAnomalousDate(db, userId, date, ExplainThreshold, sqrt);
    Outcome(db, e.text, "anomaly_explain; date=" + date + "; " + KindName(e.kind))
  }

  /** The two-month segment branch. */
  function CompareAnswer(db: Db, userId: int, m1: string, m2: string, sqrt: real -> real): (r: Result<Outcome, string>)
    ensures r.Ok? <==> DescribeSegmentChange(db, userId, m1, m2, sqrt).Ok?
    ensures r.Ok? ==> r.value == Outcome(db, DescribeSegmentChange(db, userId, m1, m2, sqrt).value,
                                         "segment_compare; " + m1 + "_vs_" + m2)
  {
    match DescribeSegmentChange(db, userId, m1, m2, sqrt)
    case Err(e) => Err(e)
    case Ok(text) => Ok(Outcome(db, text, "segment_compare; " + m1 + "_vs_" + m2))
  }

  // ---------------------------------------------------------------------
  // Properties of the router

  /** Once retrieval succeeds the router always answers: the model's reply
      or, failing that, the rule-based answer, which cannot raise on a
      retrieved context. */
  lemma RetrievalAlwaysAnswers(db: Db, userId: int, question: string, llm: (string, Context) -> LlmReply)
    ensures RetrievalAnswer(db, userId, question, llm).Ok?
  {
    var ret := RetrieveContext(db, userId, question);
    if ret.context.Some? {
      RetrievedAnswerExists(db, userId, question, question);
    }
    AnswerFromOk(ret, question, llm);
  }

  /** The router answers whenever the rule-based fallback would. */
  lemma AnswerFromOk(ret: Retrieval, question: string, llm: (string, Context) -> LlmReply)
    requires ret.context.Some? ==> GenerateAnswerRuleBased(question, ret.context.value).Some?
    ensures AnswerFrom(ret, question, llm).Ok?
  {
  }

  /** The only exceptions that escape come from building a month's
      features in the two segment branches. */
  lemma ErrorsOnlyFromFeatures(db: Db, userId: int, question: string, sqrt: real -> real,
                               llm: (string, Context) -> LlmReply)
    requires AnswerQuestion(db, userId, question, sqrt, llm).Err?
    ensures RouteOf(question).Compare? || RouteOf(question) == SegmentOne
  {
    DispatchErrors(RouteOf(question), db, userId, question, sqrt, llm);
  }

  lemma DispatchErrors(route: Route, db: Db, userId: int, question: string, sqrt: real -> real,
                       llm: (string, Context) -> LlmReply)
    requires Dispatch(route, db, userId, question, sqrt, llm).Err?
    ensures route.Compare? || route == SegmentOne
  {
    if route == Retrieve {
      RetrievalAlwaysAnswers(db, userId, question, llm);
    }
  }

  /** The privacy guard answers without looking at the store: the same
      refusal whatever the data, and nothing is written. */
  lemma GuardIgnoresData(db: Db, userId: int, question: string, sqrt: real -> real,
                         llm: (string, Context) -> LlmReply)
    requires !IsGreeting(question) && IsCrossUserQuestion(question)
    ensures AnswerQuestion(db, userId, question, sqrt, llm) == Ok(Outcome(db, PrivacyText, "blocked_for_privacy"))
  {
    DispatchBlocked(db, userId, question, sqrt, llm);
  }

  lemma DispatchBlocked(db: Db, userId: int, question: string, sqrt: real -> real,
                        llm: (string, Context) -> LlmReply)
    ensures Dispatch(Blocked, db, userId, question, sqrt, llm) == Ok(Outcome(db, PrivacyText, "blocked_for_privacy"))
  {
  }
}

=== FILE: segment.dfy ===
/** Spending segments: the rule-based segment of one feature vector (by
    grand total, overridden by a category holding at least 70% of the
    spending), and the dispatch of the all-users clustering, whose model
    fit is a parameter. */
module Segments {
  import opened Common
  import opened Text
  import opened Records
  import opened Features

  datatype Segment = Segment(clusterId: int, name: string, centroid: seq<real>)

  /** `ratios.get(name, 0.0)`. */
  function RatioOf(f: Features, name: string): real
  {
    if name in f.ratios then f.ratios[name] else 0.0
  }

  /** The index of the first category holding the largest ratio, found by a
      scan that starts from -1.0 and moves only on a strictly larger ratio;
      None when no ratio exceeds -1.0. */
  function Dominant(f: Features, names: seq<string>): (r: Option<nat>)
    ensures r.Some? ==> r.value < |names| && RatioOf(f, names[r.value]) > -1.0
    ensures r.Some? ==> forall j :: 0 <= j < |names| ==> RatioOf(f, names[j]) <= RatioOf(f, names[r.value])
    ensures r.Some? ==> forall j :: 0 <= j < r.value ==> RatioOf(f, names[j]) < RatioOf(f, names[r.value])
    ensures r.None? ==> forall j :: 0 <= j < |names| ==> RatioOf(f, names[j]) <= -1.0
    decreases |names|
  {
    if |names| == 0 then None
    else
      var n := |names| - 1;
      var best := Dominant(f, names[..n]);
      var bestRatio := if best.None? then -1.0 else RatioOf(f, names[best.value]);
      if RatioOf(f, names[n]) > bestRatio then Some(n) else best
  }

  /** The segment by grand total alone. */
  function TotalSegment(grand: real): (r: (int, string))
  {
    if grand < 50.0 then (1, "Light Spender")
    else if grand > 500.0 then (2, "Big Spender")
    else (3, "Balanced Spender")
  }

  /** `cluster_user_profile` (and its identical copy
      `cluster_user_profile_rule_based`): "Inactive" without spending, else
      the grand-total segment unless the dominant category holds at least
      70%, which makes the segment "<category>-heavy". The centroid is the
      feature vector itself. */
  function ClusterUserProfile(f: Features): (s: Segment)
    ensures s.centroid == f.vector
    ensures 0 <= s.clusterId <= 4
    ensures s.clusterId == 0 <==> f.grandTotal == 0.0
    ensures s.clusterId == 0 ==> s.name == "Inactive"
    ensures s.clusterId == 4 <==>
              f.grandTotal != 0.0 && exists j :: 0 <= j < |f.categories| && RatioOf(f, f.categories[j]) >= 0.7
    ensures s.clusterId == 4 ==>
              exists i :: 0 <= i < |f.categories| && s.name == f.categories[i] + "-heavy"
                && (forall j :: 0 <= j < |f.categories| ==> RatioOf(f, f.categories[j]) <= RatioOf(f, f.categories[i]))
                && (forall j :: 0 <= j < i ==> RatioOf(f, f.categories[j]) < RatioOf(f, f.categories[i]))
    ensures s.clusterId in {1, 2, 3} ==>
              (s.clusterId, s.name) == TotalSegment(f.grandTotal)
              && forall j :: 0 <= j < |f.categories| ==> RatioOf(f, f.categories[j]) < 0.7
  {
    if f.grandTotal == 0.0 then Segment(0, "Inactive", f.vector)
    else
      var seg := TotalSegment(f.grandTotal);
      match Dominant(f, f.categories)
      case Some(i) =>
        if RatioOf(f, f.categories[i]) >= 0.7 then Segment(4, f.categories[i] + "-heavy", f.vector)
        else Segment(seg.0, seg.1, f.vector)
      case None => Segment(seg.0, seg.1, f.vector)
  }

  // ---------------------------------------------------------------------
  // All users of a month

  /** An expense row of `month`, whoever spent it. */
  predicate ExpenseIn(r: Row, month: string)
  {
    r.category.kind == ExpenseKind && MonthOf(r.tx.date) == month
  }

  function ExpenseInOf(month: string): Row -> bool
  {
    (r: Row) => ExpenseIn(r, month)
  }

  function UserOf(r: Row): int { r.tx.userId }

  /** `SELECT DISTINCT user_id` over the month's expense rows, in first-seen
      row order. */
  function SpendingUsers(db: Db, month: string): (ids: seq<int>)
    ensures Distinct(ids)
    ensures forall u :: u in ids <==>
              exists r :: r in Joined(db.categories, db.transactions) && ExpenseIn(r, month) && r.tx.userId == u
  {
    var rows := Filter(Joined(db.categories, db.transactions), ExpenseInOf(month));
    var ids := Dedup(Map(rows, UserOf));
    assert forall u :: u in ids ==> exists r :: r in rows && r.tx.userId == u by {
      forall u | u in ids ensures exists r :: r in rows && r.tx.userId == u {
        var i :| 0 <= i < |rows| && Map(rows, UserOf)[i] == u;
        assert rows[i] in rows;
      }
    }
    assert forall r :: r in rows ==> r.tx.userId in ids by {
      forall r | r in rows ensures r.tx.userId in ids {
        var i :| 0 <= i < |rows| && rows[i] == r;
        assert Map(rows, UserOf)[i] == r.tx.userId;
      }
    }
    ids
  }

  /** The features `build` gives every user in `ids`, in order; the first
      failure stops the collection with its error. */
  function FeaturesOf(ids: seq<int>, build: int -> Result<Features, string>)
    : (r: Result<seq<(int, Features)>, string>)
    ensures r.Ok? <==> forall i :: 0 <= i < |ids| ==> build(ids[i]).Ok?
    ensures r.Ok? ==> |r.value| == |ids| && forall i :: 0 <= i < |ids| ==>
              r.value[i] == (ids[i], build(ids[i]).value)
    decreases |ids|
  {
    if |ids| == 0 then Ok([])
    else
      match build(ids[0])
      case Err(e) => Err(e)
      case Ok(f) =>
        match FeaturesOf(ids[1..], build)
        case Err(e) => Err(e)
        case Ok(rest) => Ok([(ids[0], f)] + rest)
  }

  function BuildFor(db: Db, month: string, sqrt: real -> real): int -> Result<Features, string>
  {
    (u: int) => BuildSpendingFeatureVector(db, u, month, sqrt)
  }

  /** `collect_all_user_features_for_month`: the features of every user with
      an expense in the month, or the error of the first that fails. */
  function CollectAllUserFeatures(db: Db, month: string, sqrt: real -> real)
    : (r: Result<seq<(int, Features)>, string>)
    ensures var ids := SpendingUsers(db, month);
            r.Ok? <==> forall i :: 0 <= i < |ids| ==> BuildSpendingFeatureVector(db, ids[i], month, sqrt).Ok?
    ensures r.Ok? ==> Users(r.value) == SpendingUsers(db, month)
                      && forall i :: 0 <= i < |r.value| ==>
                           r.value[i].1 == BuildSpendingFeatureVector(db, r.value[i].0, month, sqrt).value
  {
    FeaturesOf(SpendingUsers(db, month), BuildFor(db, month, sqrt))
  }

  datatype Method = KMeans | Gmm

  function MethodName(m: Method): string
  {
    match m
    case KMeans => "KMeans"
    case Gmm => "GMM"
  }

  /** The `RuntimeError` raised when scikit-learn is not installed. */
  function MissingLibrary(m: Method): string
  {
    "scikit-learn is not installed; cannot run " + MethodName(m) + " clustering."
  }

  /** The library's `ValueError` for a cluster count it cannot fit: fewer
      than one cluster, or fewer samples than clusters. Its wording is the
      library's own and is not modelled; the message names the sizes. */
  function FitRejected(m: Method, samples: nat, clusters: int): string
  {
    MethodName(m) + " cannot fit " + NatToString(samples) + " samples into "
      + IntToString(clusters) + " clusters."
  }

  /** Whether the library refuses to fit `samples` vectors into `clusters`
      clusters (`n_clusters` / `n_components`). */
  predicate FitRefuses(samples: nat, clusters: int)
  {
    clusters < 1 || samples < clusters
  }

  /** The cluster count the endpoints use unless told otherwise. */
  const DefaultClusters := 4

  /** What the fitted model says about one vector: its cluster and that
      cluster's centre (`cluster_centers_` / `means_`). */
  datatype Assignment = Assignment(cluster: nat, center: seq<real>)

  /** Every user segmented by `seg`; a user listed twice keeps its last
      entry, as a dict assignment in a loop does. */
  function SegmentEach(feats: seq<(int, Features)>, seg: Features -> Segment): (m: map<int, Segment>)
    ensures forall u :: u in m <==> u in Users(feats)
    decreases |feats|
  {
    if |feats| == 0 then map[]
    else
      var n := |feats| - 1;
      assert Users(feats) == Users(feats[..n]) + [feats[n].0];
      SegmentEach(feats[..n], seg)[feats[n].0 := seg(feats[n].1)]
  }

  /** Every user segmented by rules. */
  function RuleBasedAll(feats: seq<(int, Features)>): (m: map<int, Segment>)
    ensures forall u :: u in m <==> u in Users(feats)
  {
    SegmentEach(feats, ClusterUserProfile)
  }

  function Users(feats: seq<(int, Features)>): (us: seq<int>)
    ensures |us| == |feats| && forall i :: 0 <= i < |feats| ==> us[i] == feats[i].0
  {
    seq(|feats|, i requires 0 <= i < |feats| => feats[i].0)
  }

  /** No later entry names the same user as entry `i`. */
  ghost predicate LastOf(feats: seq<(int, Features)>, i: nat, n: nat)
    requires i < n <= |feats|
  {
    forall j :: i < j < n ==> feats[j].0 != feats[i].0
  }

  /** The last entry of a user decides its segment. */
  lemma {:induction false} SegmentEachAt(feats: seq<(int, Features)>, seg: Features -> Segment, i: nat)
    requires i < |feats| && LastOf(feats, i, |feats|)
    ensures feats[i].0 in SegmentEach(feats, seg)
    ensures SegmentEach(feats, seg)[feats[i].0] == seg(feats[i].1)
    decreases |feats|
  {
    var n := |feats| - 1;
    var prev := feats[..n];
    if i < n {
      assert prev[i] == feats[i];
      assert LastOf(prev, i, n) by {
        forall j | i < j < n ensures prev[j].0 != prev[i].0 {
          assert prev[j] == feats[j];
        }
      }
      SegmentEachAt(prev, seg, i);
      assert feats[n].0 != feats[i].0;
    }
  }

  /** The last entry of a user decides its rule-based segment. */
  lemma RuleBasedAllAt(feats: seq<(int, Features)>, i: nat)
    requires i < |feats| && LastOf(feats, i, |feats|)
    ensures feats[i].0 in RuleBasedAll(feats)
    ensures RuleBasedAll(feats)[feats[i].0] == ClusterUserProfile(feats[i].1)
  {
    SegmentEachAt(feats, ClusterUserProfile, i);
  }

  /** The segment the fitted model gives one user. */
  function FittedSegment(a: Assignment, m: Method): (s: Segment)
    ensures s.clusterId >= 0 && s.name == ClusterName(m, s.clusterId)
  {
    Segment(a.cluster, ClusterName(m, a.cluster), a.center)
  }

  /** The first `n` users labelled with their assignments; a later entry for
      the same user wins. */
  function Labelled(feats: seq<(int, Features)>, fit: seq<Assignment>, m: Method, n: nat): (r: map<int, Segment>)
    requires n <= |feats| && n <= |fit|
    ensures forall u :: u in r <==> u in Users(feats)[..n]
    ensures forall u :: u in r ==> r[u].clusterId >= 0 && r[u].name == ClusterName(m, r[u].clusterId)
    decreases n
  {
    if n == 0 then map[]
    else
      assert Users(feats)[..n] == Users(feats)[..n - 1] + [feats[n - 1].0];
      Labelled(feats, fit, m, n - 1)[feats[n - 1].0 := FittedSegment(fit[n - 1], m)]
  }

  /** The last of a user's first `n` entries decides its fitted segment. */
  lemma {:induction false} LabelledAt(feats: seq<(int, Features)>, fit: seq<Assignment>, m: Method, n: nat, i: nat)
    requires n <= |feats| && n <= |fit| && i < n && LastOf(feats, i, n)
    ensures feats[i].0 in Labelled(feats, fit, m, n)
    ensures Labelled(feats, fit, m, n)[feats[i].0] == FittedSegment(fit[i], m)
    decreases n
  {
    if i < n - 1 {
      assert LastOf(feats, i, n - 1);
      LabelledAt(feats, fit, m, n - 1, i);
      assert feats[n - 1].0 != feats[i].0;
    }
  }

  function Vectors(feats: seq<(int, Features)>): (r: seq<seq<real>>)
    ensures |r| == |feats| && forall i :: 0 <= i < |feats| ==> r[i] == feats[i].1.vector
  {
    seq(|feats|, i requires 0 <= i < |feats| => feats[i].1.vector)
  }

  /** The clustering of collected features: fewer than two users are each
      segmented by rules; otherwise users and the fit's assignments are
      paired up to the shorter of the two (`zip`), and every label is
      "<method>-Cluster-<id>" for its own cluster id. */
  function ClustersOf(feats: seq<(int, Features)>, fit: seq<Assignment>, m: Method): (r: map<int, Segment>)
    ensures forall u :: u in r ==> u in Users(feats)
    ensures |feats| < 2 || |fit| >= |feats| ==> forall u :: u in Users(feats) ==> u in r
    ensures |feats| >= 2 ==>
              forall u :: u in r ==> r[u].clusterId >= 0 && r[u].name == ClusterName(m, r[u].clusterId)
  {
    if |feats| < 2 then RuleBasedAll(feats)
    else
      var n := if |fit| < |feats| then |fit| else |feats|;
      assert Users(feats)[..|feats|] == Users(feats);
      Labelled(feats, fit, m, n)
  }

  /** `f"KMeans-Cluster-{lbl}"` / `f"GMM-Cluster-{lbl}"`. */
  function ClusterName(m: Method, c: nat): string
  {
    ClusterPrefix(m) + NatToString(c)
  }

  function ClusterPrefix(m: Method): string
  {
    MethodName(m) + "-Cluster-"
  }

  /** A cluster's name gives its number back: what follows the prefix is
      the decimal rendering of the cluster. */
  lemma ClusterNameRoundTrip(m: Method, c: nat)
    ensures StartsWith(ClusterName(m, c), ClusterPrefix(m))
    ensures var rest := ClusterName(m, c)[|ClusterPrefix(m)|..];
            AllDigits(rest) && DigitsValue(rest) == c
  {
    assert ClusterName(m, c)[|ClusterPrefix(m)|..] == NatToString(c);
    NatToStringRoundTrip(c);
  }

  /** `global_kmeans_clusters` / `global_gmm_clusters` with `clusters` for
      `n_clusters` / `n_components`: without the library an error before
      anything else; otherwise the clustering of every spending user's
      features, where `fit` stands for the model fitted on their vectors
      (`fit_predict` with the cluster centres). A failure to build one
      user's features is the error of the whole call; so is the library's
      refusal to fit two or more users into a cluster count it rejects. */
  function GlobalClusters(db: Db, month: string, m: Method, clusters: int, hasLibrary: bool,
                          fit: seq<seq<real>> -> seq<Assignment>, sqrt: real -> real)
    : (r: Result<map<int, Segment>, string>)
    ensures !hasLibrary ==> r == Err(MissingLibrary(m))
    ensures hasLibrary ==>
              (r.Ok? <==> CollectAllUserFeatures(db, month, sqrt).Ok?
                          && !(|CollectAllUserFeatures(db, month, sqrt).value| >= 2
                               && FitRefuses(|CollectAllUserFeatures(db, month, sqrt).value|, clusters)))
    ensures hasLibrary && CollectAllUserFeatures(db, month, sqrt).Ok? ==>
              var n := |CollectAllUserFeatures(db, month, sqrt).value|;
              n >= 2 && FitRefuses(n, clusters) ==> r == Err(FitRejected(m, n, clusters))
    ensures r.Ok? ==>
              var feats := CollectAllUserFeatures(db, month, sqrt).value;
              r.value == ClustersOf(feats, fit(Vectors(feats)), m)
  {
    if !hasLibrary then Err(MissingLibrary(m))
    else
      match CollectAllUserFeatures(db, month, sqrt)
      case Err(e) => Err(e)
      case Ok(feats) =>
        if |feats| >= 2 && FitRefuses(|feats|, clusters) then Err(FitRejected(m, |feats|, clusters))
        else Ok(ClustersOf(feats, fit(Vectors(feats)), m))
  }

  /** With the default four clusters, two or three spending users are too
      few: the call fails where one user or four and more succeed. */
  lemma DefaultClustersNeedFourUsers(db: Db, month: string, m: Method,
                                     fit: seq<seq<real>> -> seq<Assignment>, sqrt: real -> real)
    requires CollectAllUserFeatures(db, month, sqrt).Ok?
    ensures var n := |SpendingUsers(db, month)|;
            GlobalClusters(db, month, m, DefaultClusters, true, fit, sqrt).Ok? <==> n < 2 || n >= 4
  {
  }

  /** Every segment the clustering hands out belongs to a user with an
      expense in the month, and with a fit covering every user, every such
      user has one. */
  lemma GlobalClustersCoverSpenders(db: Db, month: string, m: Method, clusters: int,
                                    fit: seq<seq<real>> -> seq<Assignment>, sqrt: real -> real)
    requires GlobalClusters(db, month, m, clusters, true, fit, sqrt).Ok?
    ensures var r := GlobalClusters(db, month, m, clusters, true, fit, sqrt).value;
            forall u :: u in r ==> u in SpendingUsers(db, month)
    ensures var feats := CollectAllUserFeatures(db, month, sqrt).value;
            var r := GlobalClusters(db, month, m, clusters, true, fit, sqrt).value;
            |fit(Vectors(feats))| >= |feats| ==> forall u :: u in SpendingUsers(db, month) ==> u in r
  {
    var feats := CollectAllUserFeatures(db, month, sqrt).value;
    var ids := SpendingUsers(db, month);
    var r := GlobalClusters(db, month, m, clusters, true, fit, sqrt).value;
    forall u | u in r ensures u in ids {
      var i :| 0 <= i < |feats| && feats[i].0 == u;
    }
    if |fit(Vectors(feats))| >= |feats| {
      forall u | u in ids ensures u in r {
        var i :| 0 <= i < |ids| && ids[i] == u;
        assert feats[i].0 == u;
      }
    }
  }

  /** A lone user is segmented by rules. */
  lemma ClustersOfOne(feats: seq<(int, Features)>, fit: seq<Assignment>, m: Method)
    requires |feats| == 1
    ensures ClustersOf(feats, fit, m) == map[feats[0].0 := ClusterUserProfile(feats[0].1)]
  {
    RuleBasedAllAt(feats, 0);
    assert Users(feats) == [feats[0].0];
  }

  /** With two or more users, every label is "<method>-Cluster-<id>" for its
      own cluster id; a lone user gets its rule-based segment. */
  lemma GlobalClusterLabels(db: Db, month: string, m: Method, clusters: int,
                            fit: seq<seq<real>> -> seq<Assignment>, sqrt: real -> real)
    requires GlobalClusters(db, month, m, clusters, true, fit, sqrt).Ok?
    ensures var r := GlobalClusters(db, month, m, clusters, true, fit, sqrt).value;
            |SpendingUsers(db, month)| >= 2 ==>
              forall u :: u in r ==> r[u].clusterId >= 0 && r[u].name == ClusterName(m, r[u].clusterId)
    ensures var r := GlobalClusters(db, month, m, clusters, true, fit, sqrt).value;
            |SpendingUsers(db, month)| == 1 ==>
              var u := SpendingUsers(db, month)[0];
              r == map[u := ClusterUserProfile(BuildSpendingFeatureVector(db, u, month, sqrt).value)]
  {
    var feats := CollectAllUserFeatures(db, month, sqrt).value;
    assert |feats| == |Users(feats)| == |SpendingUsers(db, month)|;
    if |feats| == 1 {
      ClustersOfOne(feats, fit(Vectors(feats)), m);
      assert feats[0].0 == SpendingUsers(db, month)[0];
    }
  }

  /** With two or more users, user `i` gets the segment of the `i`-th
      assignment of the fit, when the fit has one. */
  lemma GlobalClusterOfUser(db: Db, month: string, m: Method, clusters: int,
                            fit: seq<seq<real>> -> seq<Assignment>, sqrt: real -> real, i: nat)
    requires GlobalClusters(db, month, m, clusters, true, fit, sqrt).Ok?
    requires var feats := CollectAllUserFeatures(db, month, sqrt).value;
             2 <= |feats| && i < |feats| && i < |fit(Vectors(feats))|
    ensures var feats := CollectAllUserFeatures(db, month, sqrt).value;
            var r := GlobalClusters(db, month, m, clusters, true, fit, sqrt).value;
            feats[i].0 in r && r[feats[i].0] == FittedSegment(fit(Vectors(feats))[i], m)
  {
    var feats := CollectAllUserFeatures(db, month, sqrt).value;
    var fs := fit(Vectors(feats));
    var n := if |fs| < |feats| then |fs| else |feats|;
    var ids := SpendingUsers(db, month);
    assert LastOf(feats, i, n) by {
      forall j | i < j < n ensures feats[j].0 != feats[i].0 {
        assert feats[j].0 == ids[j] && feats[i].0 == ids[i];
      }
    }
    LabelledAt(feats, fs, m, n, i);
  }
}

=== FILE: stats.dfy ===
/** Z-score statistics shared by every anomaly detector: the mean, the
    sample standard deviation (n - 1 denominator, zero for a single value),
    and per-value z-scores flagged against a threshold. The square root is a
    parameter, so the model holds for whatever `sqrt` the platform provides;
    facts that need `std * std == variance` ask for it through `IsSqrt`. */
module Stats {
  import opened Common

  function Mean(xs: seq<real>): (m: real)
    requires |xs| > 0
    ensures m * (|xs| as real) == Sum(xs)
  {
    Sum(xs) / (|xs| as real)
  }

  /** `x - c` for every element. */
  function Shift(xs: seq<real>, c: real): (r: seq<real>)
    ensures |r| == |xs| && forall i :: 0 <= i < |xs| ==> r[i] == xs[i] - c
  {
    seq(|xs|, i requires 0 <= i < |xs| => xs[i] - c)
  }

  function Sq(x: real): (r: real)
    ensures r >= 0.0
  {
    x * x
  }

  /** Sum of squares. */
  function SumSq(xs: seq<real>): (r: real)
    ensures r >= 0.0
    decreases |xs|
  {
    if |xs| == 0 then 0.0 else Sq(xs[0]) + SumSq(xs[1..])
  }

  lemma {:induction false} SumSqAppend(a: seq<real>, b: seq<real>)
    ensures SumSq(a + b) == SumSq(a) + SumSq(b)
    decreases |a|
  {
    if |a| == 0 {
      assert a + b == b;
    } else {
      assert (a + b)[1..] == a[1..] + b;
      SumSqAppend(a[1..], b);
    }
  }

  /** Sample variance: squared deviations from the mean over n - 1. */
  function Variance(xs: seq<real>): (v: real)
    requires |xs| > 1
    ensures v >= 0.0
    ensures v * (|xs| as real) - v == SumSq(Shift(xs, Mean(xs)))
  {
    SumSq(Shift(xs, Mean(xs))) / ((|xs| - 1) as real)
  }

  /** `sqrt` returns the non-negative square root of `v`. */
  predicate IsSqrt(sqrt: real -> real, v: real)
  {
    sqrt(v) >= 0.0 && sqrt(v) * sqrt(v) == v
  }

  /** The sample standard deviation, 0.0 for fewer than two values. */
  function StdDev(xs: seq<real>, sqrt: real -> real): (s: real)
    requires |xs| > 0
    ensures |xs| == 1 ==> s == 0.0
    ensures |xs| > 1 && IsSqrt(sqrt, Variance(xs)) ==> s >= 0.0 && s * s == Variance(xs)
  {
    if |xs| > 1 then sqrt(Variance(xs)) else 0.0
  }

  datatype Score = Score(value: real, z: real, isAnomaly: bool)

  datatype Analysis = Analysis(mean: real, std: real, scores: seq<Score>)

  /** The z-score of `x`, 0.0 when the spread is not positive. */
  function ZScore(x: real, mean: real, std: real): (z: real)
    ensures std > 0.0 ==> z * std == x - mean
    ensures std <= 0.0 ==> z == 0.0
  {
    if std > 0.0 then (x - mean) / std else 0.0
  }

  function Scores(xs: seq<real>, mean: real, std: real, threshold: real): (r: seq<Score>)
    ensures |r| == |xs|
    ensures forall i :: 0 <= i < |xs| ==>
      r[i].value == xs[i] && r[i].z == ZScore(xs[i], mean, std)
      && (r[i].isAnomaly <==> Abs(r[i].z) >= threshold)
  {
    seq(|xs|, i requires 0 <= i < |xs| =>
      var z := ZScore(xs[i], mean, std);
      Score(xs[i], z, Abs(z) >= threshold))
  }

  /** The values the scores were computed for. */
  function Values(ss: seq<Score>): (r: seq<real>)
    ensures |r| == |ss| && forall i :: 0 <= i < |ss| ==> r[i] == ss[i].value
  {
    seq(|ss|, i requires 0 <= i < |ss| => ss[i].value)
  }

  /** `a` holds the mean and spread of its own values and every value's
      z-score, flagged when its magnitude reaches `threshold`; no values
      means zero mean and spread. */
  ghost predicate Scored(a: Analysis, threshold: real, sqrt: real -> real)
  {
    var xs := Values(a.scores);
    (|xs| == 0 ==> a.mean == 0.0 && a.std == 0.0)
    && (|xs| > 0 ==> a.mean == Mean(xs) && a.std == StdDev(xs, sqrt))
    && forall i :: 0 <= i < |a.scores| ==>
         a.scores[i].z == ZScore(a.scores[i].value, a.mean, a.std)
         && (a.scores[i].isAnomaly <==> Abs(a.scores[i].z) >= threshold)
  }

  /** Mean, spread and flagged scores of a series; an empty series yields
      zero mean and spread and no scores. */
  function Analyze(xs: seq<real>, threshold: real, sqrt: real -> real): (a: Analysis)
    ensures Values(a.scores) == xs
    ensures Scored(a, threshold, sqrt)
  {
    if |xs| == 0 then Analysis(0.0, 0.0, [])
    else
      var m := Mean(xs);
      var s := StdDev(xs, sqrt);
      Analysis(m, s, Scores(xs, m, s, threshold))
  }

  /** With no spread (in particular a single value) every z-score is zero, so
      nothing is flagged unless the threshold is at most zero. */
  lemma FlatSeriesFlagsNothing(xs: seq<real>, threshold: real, sqrt: real -> real, i: nat)
    requires threshold > 0.0
    requires i < |xs|
    requires Analyze(xs, threshold, sqrt).std <= 0.0
    ensures !Analyze(xs, threshold, sqrt).scores[i].isAnomaly
  {
  }

  // ---------------------------------------------------------------------
  // Samuelson's inequality: in a sample of n values no value lies more than
  // (n - 1) / sqrt(n) sample standard deviations from the mean, so a small
  // series can never produce an anomaly at threshold 2.

  lemma {:induction false} SumShift(xs: seq<real>, c: real)
    ensures Sum(Shift(xs, c)) == Sum(xs) - (|xs| as real) * c
    decreases |xs|
  {
    if |xs| > 0 {
      assert Shift(xs, c)[1..] == Shift(xs[1..], c);
      SumShift(xs[1..], c);
    }
  }

  lemma DeviationsSumToZero(xs: seq<real>)
    requires |xs| > 0
    ensures Sum(Shift(xs, Mean(xs))) == 0.0
  {
    SumShift(xs, Mean(xs));
  }

  /** Cauchy–Schwarz for sums: (a_1 + ... + a_k)^2 <= k * (a_1^2 + ... + a_k^2). */
  lemma {:induction false} SquareOfSumBound(xs: seq<real>)
    ensures Sq(Sum(xs)) <= (|xs| as real) * SumSq(xs)
    decreases |xs|
  {
    if |xs| > 0 {
      var t := xs[1..];
      SquareOfSumBound(t);
      if |t| > 0 {
        CauchyStep(xs[0], Sum(t), SumSq(t), |t| as real, Sum(xs), |xs| as real, SumSq(xs));
      }
    }
  }

  /** The inductive step of `SquareOfSumBound` on plain reals: with
      total = a + s, n = k + 1 and sq = a^2 + q, s^2 <= k * q gives
      total^2 <= n * sq. */
  lemma CauchyStep(a: real, s: real, q: real, k: real, total: real, n: real, sq: real)
    requires total == a + s && n == k + 1.0 && sq == Sq(a) + q
    requires k > 0.0 && Sq(s) <= k * q
    ensures Sq(total) <= n * sq
  {
    CrossTermBound(a, s, q, k);
    assert Sq(a) == a * a && Sq(s) == s * s && Sq(total) == total * total;
    assert total * total == a * a + 2.0 * (a * s) + s * s;
    assert n * sq == k * (a * a) + k * q + a * a + q;
  }

  /** From s^2 <= k * q and k > 0: 2as <= k * a^2 + q. */
  lemma CrossTermBound(a: real, s: real, q: real, k: real)
    requires k > 0.0 && Sq(s) <= k * q
    ensures 2.0 * (a * s) <= k * (a * a) + q
  {
    var u := k * a - s;
    assert u * u >= 0.0;
    assert u * u == k * k * (a * a) - 2.0 * k * (a * s) + s * s;
    var e := k * (a * a) + q - 2.0 * (a * s);
    assert k * e == u * u + (k * q - Sq(s));
    PositiveFactor(k, e);
  }

  /** Removing element k from a sum. */
  lemma SumExcept(xs: seq<real>, k: nat)
    requires k < |xs|
    ensures Sum(xs) == xs[k] + Sum(xs[..k] + xs[k + 1..])
  {
    var pre, tail := xs[..k], xs[k..];
    assert xs == pre + tail;
    SumAppend(pre, tail);
    assert tail[0] == xs[k] && tail[1..] == xs[k + 1..];
    SumAppend(pre, tail[1..]);
  }

  /** Removing element k from a sum of squares. */
  lemma SumSqExcept(xs: seq<real>, k: nat)
    requires k < |xs|
    ensures SumSq(xs) == Sq(xs[k]) + SumSq(xs[..k] + xs[k + 1..])
  {
    var pre, tail := xs[..k], xs[k..];
    assert xs == pre + tail;
    SumSqAppend(pre, tail);
    assert tail[0] == xs[k] && tail[1..] == xs[k + 1..];
    SumSqAppend(pre, tail[1..]);
  }

  /** Removing deviation k leaves a sequence that sums to -d_k and whose
      squares sum to S - d_k^2. */
  lemma RestOfDeviations(xs: seq<real>, k: nat)
    requires k < |xs|
    ensures var ds := Shift(xs, Mean(xs));
            var rest := ds[..k] + ds[k + 1..];
            |rest| == |xs| - 1
            && Sum(rest) == -ds[k]
            && SumSq(ds) == Sq(ds[k]) + SumSq(rest)
  {
    var ds := Shift(xs, Mean(xs));
    DeviationsSumToZero(xs);
    SumExcept(ds, k);
    SumSqExcept(ds, k);
  }

  /** The deviation d_k of value k from the mean and the sum S of all
      squared deviations satisfy n * d_k^2 <= (n - 1) * S. */
  lemma DeviationBound(xs: seq<real>, k: nat)
    requires k < |xs|
    ensures var ds := Shift(xs, Mean(xs));
            DeviationWithin(|xs| as real, Sq(ds[k]), SumSq(ds))
  {
    var ds := Shift(xs, Mean(xs));
    var rest := ds[..k] + ds[k + 1..];
    RestOfDeviations(xs, k);
    var d, q := ds[k], SumSq(rest);
    assert Sq(d) <= (|rest| as real) * q by {
      SquareOfSumBound(rest);
      SqNeg(d);
    }
    DeviationArith(|xs| as real, |rest| as real, Sq(d), q, SumSq(ds));
  }

  /** n * d^2 <= (n - 1) * S. */
  predicate DeviationWithin(n: real, dd: real, total: real)
  {
    n * dd <= n * total - total
  }

  lemma SqNeg(x: real)
    ensures Sq(-x) == Sq(x)
  {
  }

  lemma DeviationArith(n: real, m: real, dd: real, q: real, total: real)
    requires n == m + 1.0
    requires total == dd + q
    requires dd <= m * q
    ensures DeviationWithin(n, dd, total)
  {
    assert n * total - total == m * dd + m * q;
  }

  /** n * z^2 <= (n - 1)^2, that is |z| <= (n - 1) / sqrt(n). */
  predicate WithinSamuelson(n: real, z: real)
  {
    n * Sq(z) <= n * n - 2.0 * n + 1.0
  }

  /** Samuelson's inequality for a z-score: n * z^2 <= n^2 - 2n + 1, that
      is |z| <= (n - 1) / sqrt(n). */
  lemma Samuelson(xs: seq<real>, sqrt: real -> real, i: nat)
    requires 1 < |xs| && i < |xs|
    requires IsSqrt(sqrt, Variance(xs))
    ensures WithinSamuelson(|xs| as real, ZScore(xs[i], Mean(xs), sqrt(Variance(xs))))
  {
    if sqrt(Variance(xs)) > 0.0 {
      SamuelsonSpread(xs, sqrt, i);
    } else {
      NMinusOneSquared(|xs| as real);
    }
  }

  lemma SamuelsonSpread(xs: seq<real>, sqrt: real -> real, i: nat)
    requires 1 < |xs| && i < |xs|
    requires IsSqrt(sqrt, Variance(xs)) && sqrt(Variance(xs)) > 0.0
    ensures WithinSamuelson(|xs| as real, ZScore(xs[i], Mean(xs), sqrt(Variance(xs))))
  {
    var v := Variance(xs);
    var s := sqrt(v);
    var ds := Shift(xs, Mean(xs));
    var z := ZScore(xs[i], Mean(xs), s);
    DeviationBound(xs, i);
    ScaleBack(|xs| as real, SumSq(ds), v, s, z, ds[i]);
  }

  /** Samuelson's inequality for the scores `Analyze` computes. */
  lemma ZScoreBound(xs: seq<real>, threshold: real, sqrt: real -> real, i: nat)
    requires 1 < |xs| && i < |xs|
    requires IsSqrt(sqrt, Variance(xs))
    ensures WithinSamuelson(|xs| as real, Analyze(xs, threshold, sqrt).scores[i].z)
  {
    Samuelson(xs, sqrt, i);
  }

  lemma NMinusOneSquared(n: real)
    requires n >= 1.0
    ensures n * n - 2.0 * n + 1.0 >= 0.0
  {
    assert n * n - 2.0 * n + 1.0 == (n - 1.0) * (n - 1.0);
  }

  lemma PositiveFactor(k: real, x: real)
    requires k > 0.0 && k * x >= 0.0
    ensures x >= 0.0
  {
  }

  /** Cancelling a positive factor from both sides of an inequality. */
  lemma Cancel(k: real, a: real, b: real)
    requires k > 0.0 && a * k <= b * k
    ensures a <= b
  {
    assert (b - a) * k == b * k - a * k;
    PositiveFactor(k, b - a);
  }

  /** From n * d^2 <= (n - 1) * S with S = (n - 1) * v, d = z * s and
      s^2 = v, s > 0 follows n * z^2 <= (n - 1)^2. */
  lemma ScaleBack(n: real, total: real, v: real, s: real, z: real, d: real)
    requires v * n - v == total
    requires s > 0.0 && s * s == v
    requires z * s == d
    requires DeviationWithin(n, Sq(d), total)
    ensures WithinSamuelson(n, z)
  {
    assert Sq(d) == d * d && Sq(z) == z * z;
    var x := n * (z * z);
    var y := n * n - 2.0 * n + 1.0;
    assert (x * s) * s == n * (d * d);
    assert (y * s) * s == n * total - total;
    Cancel(s, x * s, y * s);
    Cancel(s, x, y);
  }

  /** For n in 2..5: n * z^2 <= (n - 1)^2 forces |z| < 2, since
      4n > (n - 1)^2 there. */
  lemma ShortSeriesArith(m: nat, z: real)
    requires 2 <= m <= 5
    requires WithinSamuelson(m as real, z)
    ensures Abs(z) < 2.0
  {
    var n := m as real;
    var w := Sq(z);
    if m == 2 {
      assert 2.0 * w <= 1.0;
    } else if m == 3 {
      assert 3.0 * w <= 4.0;
    } else if m == 4 {
      assert 4.0 * w <= 9.0;
    } else {
      assert 5.0 * w <= 16.0;
    }
    assert w < 4.0;
    var a := Abs(z);
    assert a * a == w;
    SquareMonotone(a, 2.0);
  }

  lemma SquareMonotone(a: real, b: real)
    requires a >= 0.0 && b > 0.0 && a * a < b * b
    ensures a < b
  {
  }

  /** At threshold 2 a series of at most five values has no anomaly. */
  lemma NoAnomalyInShortSeries(xs: seq<real>, sqrt: real -> real, i: nat)
    requires |xs| <= 5 && i < |xs|
    requires |xs| > 1 ==> IsSqrt(sqrt, Variance(xs))
    ensures !Analyze(xs, 2.0, sqrt).scores[i].isAnomaly
  {
    if |xs| > 1 {
      ZScoreBound(xs, 2.0, sqrt, i);
      ShortSeriesArith(|xs|, Analyze(xs, 2.0, sqrt).scores[i].z);
    }
  }

  /** Any scored series of at most five values has no anomaly at threshold 2. */
  lemma ShortSeriesUnflagged(a: Analysis, sqrt: real -> real, i: nat)
    requires Scored(a, 2.0, sqrt)
    requires |a.scores| <= 5 && i < |a.scores|
    requires |a.scores| > 1 ==> IsSqrt(sqrt, Variance(Values(a.scores)))
    ensures !a.scores[i].isAnomaly
  {
    var xs := Values(a.scores);
    NoAnomalyInShortSeries(xs, sqrt, i);
    assert Analyze(xs, 2.0, sqrt).scores[i].z == a.scores[i].z;
  }

  /** `x` lies at least `t` spreads `std` away from `mean`. */
  predicate FarFromMean(x: real, mean: real, std: real, t: real)
  {
    Abs(x - mean) >= t * std
  }

  /** With a positive spread, a value is flagged exactly when it lies at
      least `threshold` spreads away from the mean. */
  lemma FlaggedIffFarFromMean(a: Analysis, threshold: real, sqrt: real -> real, i: nat)
    requires Scored(a, threshold, sqrt)
    requires i < |a.scores| && a.std > 0.0
    ensures a.scores[i].isAnomaly <==> FarFromMean(a.scores[i].value, a.mean, a.std, threshold)
  {
    var s := a.scores[i];
    assert s.z == ZScore(s.value, a.mean, a.std) && (s.isAnomaly <==> Abs(s.z) >= threshold);
    ScaledDistance(s.z, a.std, s.value, a.mean, threshold);
  }

  /** |z| >= t exactly when |z * s| >= t * s, for s > 0. */
  lemma ScaledDistance(z: real, s: real, x: real, m: real, t: real)
    requires s > 0.0 && z * s == x - m
    ensures Abs(z) >= t <==> FarFromMean(x, m, s, t)
  {
    var d := x - m;
    if z >= 0.0 {
      assert Abs(d) == z * s;
    } else {
      assert Abs(d) == (-z) * s;
    }
    assert (Abs(z) - t) * s == Abs(d) - t * s;
    if Abs(z) >= t {
      assert (Abs(z) - t) * s >= 0.0;
    } else {
      assert (t - Abs(z)) * s > 0.0;
    }
  }
}

=== FILE: summary.dfy ===
/** The monthly summary: income and expense totals, the three largest
    spending categories, the categories over budget, the six-line text built
    from them, and the insert-or-update of the stored summary row. */
module Summary {
  import opened Common
  import opened Text
  import opened Records

  // ---------------------------------------------------------------------
  // Totals

  /** Sum of the user's expense amounts in `month` (0.0 when there are none). */
  function TotalSpent(db: Db, userId: int, month: string): real
  {
    TotalAmount(ExpenseRows(db, userId, month))
  }

  /** Sum of the user's income amounts in `month`. */
  function TotalIncome(db: Db, userId: int, month: string): real
  {
    TotalAmount(ScopedRows(db, userId, IncomeKind, month))
  }

  /** Income minus the absolute value of the expenses. */
  function NetSavings(spent: real, income: real): (r: real)
    ensures r <= income
    ensures spent >= 0.0 ==> r + spent == income
    ensures spent < 0.0 ==> r - spent == income
  {
    income - Abs(spent)
  }

  // ---------------------------------------------------------------------
  // Top spending categories

  /** The GROUP BY key of the category breakdown: id and name. */
  function CategoryKey(r: Row): (int, string)
  {
    (r.category.id, r.category.name)
  }

  /** The summed expense amount of every category the user spent in during
      `month`, one entry per category, in first-seen order. */
  function SpendByCategory(db: Db, userId: int, month: string): (r: seq<((int, string), real)>)
    ensures Distinct(KeysOf(r))
    ensures forall k :: k in KeysOf(r) <==>
      exists i :: 0 <= i < |ExpenseRows(db, userId, month)| && CategoryKey(ExpenseRows(db, userId, month)[i]) == k
    ensures forall i :: 0 <= i < |r| ==>
      r[i].1 == SumWhere(ExpenseRows(db, userId, month), CategoryKey, Amount, r[i].0)
  {
    GroupSums(ExpenseRows(db, userId, month), CategoryKey, Amount)
  }

  /** `ORDER BY SUM(amount) DESC LIMIT 3` over the category sums. */
  function TopCategories(db: Db, userId: int, month: string): (r: seq<((int, string), real)>)
    ensures |r| == if |SpendByCategory(db, userId, month)| < 3 then |SpendByCategory(db, userId, month)| else 3
    ensures NonIncreasing(r, Second)
    ensures forall i :: 0 <= i < |r| ==> r[i] in SpendByCategory(db, userId, month)
    ensures multiset(r) <= multiset(SpendByCategory(db, userId, month))
  {
    Largest(SpendByCategory(db, userId, month), 3)
  }

  /** No category left out of the top list spent more than any category in
      it, and with at most three categories none is left out. */
  lemma TopCategoriesLargest(db: Db, userId: int, month: string, g: ((int, string), real), i: nat)
    requires g in SpendByCategory(db, userId, month)
    ensures g !in TopCategories(db, userId, month) && i < |TopCategories(db, userId, month)|
            ==> g.1 <= TopCategories(db, userId, month)[i].1
    ensures |SpendByCategory(db, userId, month)| <= 3 ==> g in TopCategories(db, userId, month)
  {
    LargestAreLargest(SpendByCategory(db, userId, month), 3, g, i);
  }

  /** The category sums add up to the month's total spending. */
  lemma CategorySumsAddUp(db: Db, userId: int, month: string)
    ensures SumOf(SpendByCategory(db, userId, month), Second) == TotalSpent(db, userId, month)
  {
    GroupSumsTotal(ExpenseRows(db, userId, month), CategoryKey, Amount);
  }

  function TopEntry(kv: ((int, string), real)): string
  {
    kv.0.1 + ": " + Fmt2(kv.1)
  }

  const NoTopCategories := "No spending categories recorded."

  /** "name: total" for each listed category, joined with "; ". */
  function TopText(top: seq<((int, string), real)>): (s: string)
    ensures |top| == 0 <==> s == NoTopCategories
    ensures |top| == 1 ==> s == TopEntry(top[0])
  {
    if |top| == 0 then NoTopCategories
    else
      var parts := Map(top, TopEntry);
      assert parts[0] == top[0].0.1 + ":" + (" " + Fmt2(top[0].1));
      ContainsInfix(top[0].0.1, ":", " " + Fmt2(top[0].1));
      JoinContainsFirst(parts, "; ", ":");
      AbsentChar(NoTopCategories, ':');
      Join(parts, "; ")
  }

  // ---------------------------------------------------------------------
  // Budgets exceeded

  /** A budget row joined with its category. */
  datatype BudgetRow = BudgetRow(budget: Budget, category: Category)

  /** The user's budgets for `month` whose category exists (an inner join). */
  function BudgetRows(db: Db, userId: int, month: string): (r: seq<BudgetRow>)
    ensures forall i :: 0 <= i < |r| ==>
      r[i].budget in db.budgets && r[i].budget.userId == userId && r[i].budget.month == month
      && r[i].category in db.categories && r[i].category.id == r[i].budget.categoryId
  {
    BudgetRowsOf(db.categories, db.budgets, userId, month)
  }

  function BudgetRowsOf(cats: seq<Category>, bs: seq<Budget>, userId: int, month: string): (r: seq<BudgetRow>)
    ensures forall i :: 0 <= i < |r| ==>
      r[i].budget in bs && r[i].budget.userId == userId && r[i].budget.month == month
      && r[i].category in cats && r[i].category.id == r[i].budget.categoryId
    ensures forall b :: b in bs && b.userId == userId && b.month == month && FindCategory(cats, b.categoryId).Some? ==>
      BudgetRow(b, FindCategory(cats, b.categoryId).value) in r
    decreases |bs|
  {
    if |bs| == 0 then []
    else
      var rest := BudgetRowsOf(cats, bs[1..], userId, month);
      var b := bs[0];
      if b.userId == userId && b.month == month && FindCategory(cats, b.categoryId).Some? then
        [BudgetRow(b, FindCategory(cats, b.categoryId).value)] + rest
      else rest
  }

  /** The transactions the outer join attaches to a budget: same user, same
      category, dated in the budget's month. */
  predicate Charged(t: Transaction, b: Budget)
  {
    t.userId == b.userId && t.categoryId == b.categoryId && MonthOf(t.date) == b.month
  }

  function ChargedTo(b: Budget): Transaction -> bool
  {
    (t: Transaction) => Charged(t, b)
  }

  function TxAmount(t: Transaction): real { t.amount }

  /** What was actually spent against one budget row (0.0 when nothing). */
  function Actual(db: Db, br: BudgetRow): real
  {
    SumOf(Filter(db.transactions, ChargedTo(br.budget)), TxAmount)
  }

  function ActualOf(db: Db): BudgetRow -> real
  {
    (br: BudgetRow) => Actual(db, br)
  }

  /** The GROUP BY key of the budget check: category name and budget amount
      (the month is fixed by the filter). */
  function BudgetKey(br: BudgetRow): (string, real)
  {
    (br.category.name, br.budget.amount)
  }

  /** One line of the budget report. */
  datatype Overspend = Overspend(name: string, budget: real, actual: real)

  /** The groups whose summed actual spending exceeds their budget amount. */
  function Overspent(db: Db, userId: int, month: string): (r: seq<Overspend>)
    ensures forall i :: 0 <= i < |r| ==> r[i].actual > r[i].budget
  {
    Exceeding(BudgetRows(db, userId, month), BudgetKey, ActualOf(db))
  }

  predicate Over(g: ((string, real), real)) { g.1 > g.0.1 }

  function OverKey(g: ((string, real), real)): bool { Over(g) }

  function ToOverspend(g: ((string, real), real)): Overspend
  {
    Overspend(g.0.0, g.0.1, g.1)
  }

  /** The actual spending of all budget rows with this name and amount. */
  function GroupActual(db: Db, userId: int, month: string, name: string, amount: real): real
  {
    SumWhere(BudgetRows(db, userId, month), BudgetKey, ActualOf(db), (name, amount))
  }

  /** A (name, amount) pair is reported exactly when some budget of the
      month has that category name and amount and the group's actual
      spending exceeds the amount; the figures reported are the group's. */
  lemma OverspentIff(db: Db, userId: int, month: string, name: string, amount: real)
    ensures (exists i :: 0 <= i < |Overspent(db, userId, month)|
               && Overspent(db, userId, month)[i].name == name && Overspent(db, userId, month)[i].budget == amount)
        <==> (exists j :: 0 <= j < |BudgetRows(db, userId, month)| && BudgetKey(BudgetRows(db, userId, month)[j]) == (name, amount))
             && GroupActual(db, userId, month, name, amount) > amount
    ensures forall i :: 0 <= i < |Overspent(db, userId, month)| ==>
      Overspent(db, userId, month)[i].actual
        == GroupActual(db, userId, month, Overspent(db, userId, month)[i].name, Overspent(db, userId, month)[i].budget)
  {
    var rows := BudgetRows(db, userId, month);
    assert Overspent(db, userId, month) == Exceeding(rows, BudgetKey, ActualOf(db));
    assert forall nm, am :: GroupActual(db, userId, month, nm, am) == SumWhere(rows, BudgetKey, ActualOf(db), (nm, am));
    ExceedingIff(rows, BudgetKey, ActualOf(db), name, amount);
  }

  /** The groups of `rows` (by name and limit) whose summed value exceeds
      their limit. */
  function Exceeding<T>(rows: seq<T>, key: T -> (string, real), val: T -> real): (r: seq<Overspend>)
  {
    Map(Filter(GroupSums(rows, key, val), OverKey), ToOverspend)
  }

  lemma ExceedingIff<T>(rows: seq<T>, key: T -> (string, real), val: T -> real, name: string, amount: real)
    ensures (exists i :: 0 <= i < |Exceeding(rows, key, val)|
               && Exceeding(rows, key, val)[i].name == name && Exceeding(rows, key, val)[i].budget == amount)
        <==> (exists j :: 0 <= j < |rows| && key(rows[j]) == (name, amount))
             && SumWhere(rows, key, val, (name, amount)) > amount
    ensures forall i :: 0 <= i < |Exceeding(rows, key, val)| ==>
      Exceeding(rows, key, val)[i].actual
        == SumWhere(rows, key, val, (Exceeding(rows, key, val)[i].name, Exceeding(rows, key, val)[i].budget))
  {
    var r := Exceeding(rows, key, val);
    if exists i :: 0 <= i < |r| && r[i].name == name && r[i].budget == amount {
      var i :| 0 <= i < |r| && r[i].name == name && r[i].budget == amount;
      ExceedingSound(rows, key, val, i);
    }
    if (exists j :: 0 <= j < |rows| && key(rows[j]) == (name, amount))
       && SumWhere(rows, key, val, (name, amount)) > amount {
      var i := ExceedingComplete(rows, key, val, name, amount);
    }
    forall i | 0 <= i < |r|
      ensures r[i].actual == SumWhere(rows, key, val, (r[i].name, r[i].budget))
    {
      ExceedingSound(rows, key, val, i);
    }
  }

  /** Every reported group is a group of the rows and is over its limit. */
  lemma ExceedingSound<T>(rows: seq<T>, key: T -> (string, real), val: T -> real, i: nat)
    requires i < |Exceeding(rows, key, val)|
    ensures var o := Exceeding(rows, key, val)[i];
      (exists j :: 0 <= j < |rows| && key(rows[j]) == (o.name, o.budget))
      && o.actual == SumWhere(rows, key, val, (o.name, o.budget)) && o.actual > o.budget
  {
    var groups := GroupSums(rows, key, val);
    var kept := Filter(groups, OverKey);
    assert kept[i] in groups;
    var g :| 0 <= g < |groups| && groups[g] == kept[i];
    assert KeysOf(groups)[g] == kept[i].0;
    assert kept[i].0 in KeysOf(groups);
    assert Exceeding(rows, key, val)[i] == ToOverspend(kept[i]);
  }

  /** Every group of the rows over its limit is reported. */
  lemma ExceedingComplete<T>(rows: seq<T>, key: T -> (string, real), val: T -> real, name: string, amount: real)
    returns (i: nat)
    requires exists j :: 0 <= j < |rows| && key(rows[j]) == (name, amount)
    requires SumWhere(rows, key, val, (name, amount)) > amount
    ensures i < |Exceeding(rows, key, val)|
    ensures Exceeding(rows, key, val)[i].name == name && Exceeding(rows, key, val)[i].budget == amount
  {
    var groups := GroupSums(rows, key, val);
    var kept := Filter(groups, OverKey);
    assert (name, amount) in KeysOf(groups);
    var g :| 0 <= g < |groups| && KeysOf(groups)[g] == (name, amount);
    assert OverKey(groups[g]);
    assert groups[g] in kept;
    i :| 0 <= i < |kept| && kept[i] == groups[g];
  }

  function OverEntry(o: Overspend): string
  {
    o.name + ": spent " + Fmt2(o.actual) + " vs budget " + Fmt2(o.budget)
  }

  const NoOverspend := "No categories exceeded their budget."

  /** "name: spent X vs budget Y" for each group, joined with "; ". */
  function OverText(over: seq<Overspend>): (s: string)
    ensures |over| == 1 ==> s == OverEntry(over[0])
    ensures |over| == 0 ==> s == NoOverspend
  {
    if |over| == 0 then NoOverspend else Join(Map(over, OverEntry), "; ")
  }

  // ---------------------------------------------------------------------
  // The summary text

  /** The six lines of the summary text, the amounts already formatted. */
  function Lines(month: string, expenses: string, income: string, net: string, top: string, over: string): seq<string>
  {
    [ "Summary for " + month + ":",
      "- Total expenses: " + expenses,
      "- Total income: " + income,
      "- Net savings: " + net,
      "- Top spending categories: " + top,
      "- Budget status: " + over ]
  }

  /** The six lines for the given totals and list texts. */
  function SummaryLines(month: string, spent: real, income: real, top: string, over: string): seq<string>
  {
    Lines(month, Fmt2(Abs(spent)), Fmt2(income), Fmt2(NetSavings(spent, income)), top, over)
  }

  /** The six lines joined with "\n". */
  function SummaryTextOf(month: string, spent: real, income: real, top: string, over: string): string
  {
    Join(SummaryLines(month, spent, income, top, over), "\n")
  }

  const BudgetStatus := "Budget status"

  lemma {:induction false} LinesRoundTrip(month: string, e: string, i: string, n: string, top: string, over: string)
    requires NoBreaks(month) && NoBreaks(e) && NoBreaks(i) && NoBreaks(n) && NoBreaks(top) && NoBreaks(over)
    ensures SplitLines(Join(Lines(month, e, i, n, top, over), "\n")) == Lines(month, e, i, n, top, over)
  {
    var ls := Lines(month, e, i, n, top, over);
    LeadsNoBreaks();
    NoBreaksConcat("Summary for ", month);
    NoBreaksConcat("Summary for " + month, ":");
    NoBreaksConcat("- Total expenses: ", e);
    NoBreaksConcat("- Total income: ", i);
    NoBreaksConcat("- Net savings: ", n);
    NoBreaksConcat("- Top spending categories: ", top);
    NoBreaksConcat("- Budget status: ", over);
    assert forall k :: 0 <= k < |ls| ==> NoBreaks(ls[k]);
    SplitJoinedLines(ls);
  }

  /** Splitting the summary text at its line breaks gives back the six
      lines, as long as the month and the two list texts hold no line break. */
  lemma SummaryLinesRoundTrip(month: string, spent: real, income: real, top: string, over: string)
    requires NoBreaks(month) && NoBreaks(top) && NoBreaks(over)
    ensures SplitLines(SummaryTextOf(month, spent, income, top, over))
         == SummaryLines(month, spent, income, top, over)
  {
    Fmt2NoBreaks(Abs(spent));
    Fmt2NoBreaks(income);
    Fmt2NoBreaks(NetSavings(spent, income));
    LinesRoundTrip(month, Fmt2(Abs(spent)), Fmt2(income), Fmt2(NetSavings(spent, income)), top, over);
  }

  lemma {:induction false} LinesBudgetFound(month: string, e: string, i: string, n: string, top: string, over: string)
    ensures FirstWith(SplitLines(Join(Lines(month, e, i, n, top, over), "\n")), BudgetStatus).Some?
  {
    var ls := Lines(month, e, i, n, top, over);
    var head := Join(ls[..5], "\n") + "\n- ";
    assert ls == ls[..5] + [ls[5]];
    JoinSnoc(ls[..5], ls[5], "\n");
    var s := Join(ls, "\n");
    assert s == head + BudgetStatus + (": " + over);
    InfixSlice(head, BudgetStatus, ": " + over);
    MarkerNoBreaks();
    OccurrenceInSomeLine(s, BudgetStatus, |head|);
  }

  /** Some line of a summary text always mentions the budget status, so the
      budget question never falls back to "not available". */
  lemma BudgetLineAlwaysFound(month: string, spent: real, income: real, top: string, over: string)
    ensures FirstWith(SplitLines(SummaryTextOf(month, spent, income, top, over)), BudgetStatus).Some?
  {
    LinesBudgetFound(month, Fmt2(Abs(spent)), Fmt2(income), Fmt2(NetSavings(spent, income)), top, over);
  }

  lemma EarlyLinesLackMarker(month: string, e: string, i: string, n: string, top: string, over: string)
    requires !Contains(month, BudgetStatus) && !Contains(e, BudgetStatus) && !Contains(i, BudgetStatus)
    requires !Contains(n, BudgetStatus) && !Contains(top, BudgetStatus)
    ensures forall j :: 0 <= j < 5 ==> !Contains(Lines(month, e, i, n, top, over)[j], BudgetStatus)
  {
    LeadsLackMarker();
    NotInLine("Summary for ", month, ":");
    NotInLead("- Total expenses: ", e);
    NotInLead("- Total income: ", i);
    NotInLead("- Net savings: ", n);
    NotInLead("- Top spending categories: ", top);
  }

  lemma LinesBudgetLast(month: string, e: string, i: string, n: string, top: string, over: string)
    requires NoBreaks(month) && NoBreaks(e) && NoBreaks(i) && NoBreaks(n) && NoBreaks(top) && NoBreaks(over)
    requires !Contains(month, BudgetStatus) && !Contains(e, BudgetStatus) && !Contains(i, BudgetStatus)
    requires !Contains(n, BudgetStatus) && !Contains(top, BudgetStatus)
    ensures FirstWith(SplitLines(Join(Lines(month, e, i, n, top, over), "\n")), BudgetStatus)
         == Some("- Budget status: " + over)
  {
    LinesRoundTrip(month, e, i, n, top, over);
    EarlyLinesLackMarker(month, e, i, n, top, over);
    MarkerInLastLead();
    ContainsPrefixOf("- Budget status: ", over, BudgetStatus);
    FirstWithAt(Lines(month, e, i, n, top, over), BudgetStatus, 5);
  }

  /** When the month and the category list do not mention the budget
      status, the budget question answers with the last summary line. */
  lemma BudgetLineIsLast(month: string, spent: real, income: real, top: string, over: string)
    requires NoBreaks(month) && NoBreaks(top) && NoBreaks(over)
    requires !Contains(month, BudgetStatus) && !Contains(top, BudgetStatus)
    ensures FirstWith(SplitLines(SummaryTextOf(month, spent, income, top, over)), BudgetStatus)
         == Some("- Budget status: " + over)
  {
    Fmt2NoBreaks(Abs(spent));
    Fmt2NoBreaks(income);
    Fmt2NoBreaks(NetSavings(spent, income));
    Fmt2NoMarker(Abs(spent));
    Fmt2NoMarker(income);
    Fmt2NoMarker(NetSavings(spent, income));
    LinesBudgetLast(month, Fmt2(Abs(spent)), Fmt2(income), Fmt2(NetSavings(spent, income)), top, over);
  }

  lemma SummaryStartsWithMonth(month: string, spent: real, income: real, top: string, over: string)
    ensures StartsWith(SummaryTextOf(month, spent, income, top, over), "Summary for " + month + ":\n")
  {
    var ls := SummaryLines(month, spent, income, top, over);
    assert Join(ls, "\n") == ls[0] + "\n" + Join(ls[1..], "\n");
  }

  // ---------------------------------------------------------------------
  // Storing the row

  predicate SameKey(a: SummaryRow, userId: int, month: string)
  {
    a.userId == userId && a.month == month
  }

  /** The first stored summary of (user, month), if any. */
  function FindSummary(rows: seq<SummaryRow>, userId: int, month: string): (r: Option<SummaryRow>)
    ensures r.Some? ==> r.value in rows && SameKey(r.value, userId, month)
    ensures r.None? <==> forall i :: 0 <= i < |rows| ==> !SameKey(rows[i], userId, month)
    decreases |rows|
  {
    if |rows| == 0 then None
    else if SameKey(rows[0], userId, month) then Some(rows[0])
    else FindSummary(rows[1..], userId, month)
  }

  /** Updates the first row with the same (user, month) in place, or appends
      the row when there is none. */
  function Upsert(rows: seq<SummaryRow>, row: SummaryRow): (r: seq<SummaryRow>)
    decreases |rows|
  {
    if |rows| == 0 then [row]
    else if SameKey(rows[0], row.userId, row.month) then [row] + rows[1..]
    else [rows[0]] + Upsert(rows[1..], row)
  }

  /** After the upsert the row is what a lookup of its key finds, every
      other key finds what it found before, and at most one row is added. */
  lemma {:induction false} UpsertFinds(rows: seq<SummaryRow>, row: SummaryRow, userId: int, month: string)
    ensures FindSummary(Upsert(rows, row), row.userId, row.month) == Some(row)
    ensures !(userId == row.userId && month == row.month) ==>
      FindSummary(Upsert(rows, row), userId, month) == FindSummary(rows, userId, month)
    ensures |Upsert(rows, row)| == |rows| + (if FindSummary(rows, row.userId, row.month).None? then 1 else 0)
    decreases |rows|
  {
    if |rows| > 0 && !SameKey(rows[0], row.userId, row.month) {
      UpsertFinds(rows[1..], row, userId, month);
      assert Upsert(rows, row)[1..] == Upsert(rows[1..], row);
    }
  }

  /** Storing the same row twice changes nothing more than storing it once. */
  lemma {:induction false} UpsertIdempotent(rows: seq<SummaryRow>, row: SummaryRow)
    ensures Upsert(Upsert(rows, row), row) == Upsert(rows, row)
    decreases |rows|
  {
    if |rows| > 0 && !SameKey(rows[0], row.userId, row.month) {
      UpsertIdempotent(rows[1..], row);
      assert Upsert(rows, row)[1..] == Upsert(rows[1..], row);
    } else if |rows| == 0 {
      assert Upsert([row], row) == [row];
    }
  }

  /** The upsert never creates a second row for a key, leaves exactly one
      row for its own key, and does not change how many rows other keys have. */
  lemma {:induction false} UpsertKeepsKeysUnique(rows: seq<SummaryRow>, row: SummaryRow, userId: int, month: string)
    requires CountKey(rows, userId, month) <= 1
    ensures CountKey(Upsert(rows, row), userId, month) <= 1
    ensures SameKey(row, userId, month) ==> CountKey(Upsert(rows, row), userId, month) == 1
    ensures !SameKey(row, userId, month) ==> CountKey(Upsert(rows, row), userId, month) == CountKey(rows, userId, month)
    decreases |rows|
  {
    if |rows| > 0 {
      if SameKey(rows[0], row.userId, row.month) {
        assert ([row] + rows[1..])[1..] == rows[1..];
      } else {
        UpsertKeepsKeysUnique(rows[1..], row, userId, month);
        var u := Upsert(rows, row);
        assert u == [rows[0]] + Upsert(rows[1..], row);
        assert u[1..] == Upsert(rows[1..], row);
        assert CountKey(u, userId, month) == (if SameKey(rows[0], userId, month) then 1 else 0) + CountKey(u[1..], userId, month);
      }
    }
  }

  /** Number of stored rows for (user, month). */
  function CountKey(rows: seq<SummaryRow>, userId: int, month: string): nat
    decreases |rows|
  {
    if |rows| == 0 then 0
    else (if SameKey(rows[0], userId, month) then 1 else 0) + CountKey(rows[1..], userId, month)
  }

  /** Computes the summary of (user, month), stores it and returns it. */
  function BuildMonthlySummary(db: Db, userId: int, month: string): (r: (Db, SummaryRow))
    ensures r.1.userId == userId && r.1.month == month
    ensures r.1.totalSpent == SumOf(SpendByCategory(db, userId, month), Second)
    ensures r.1.totalIncome == TotalAmount(ScopedRows(db, userId, IncomeKind, month))
    ensures StartsWith(r.1.summaryText, "Summary for " + month + ":\n")
    ensures r.1.summaryText == SummaryText(db, userId, month)
    ensures FindSummary(r.0.summaries, userId, month) == Some(r.1)
    ensures r.0.users == db.users && r.0.categories == db.categories
         && r.0.transactions == db.transactions && r.0.budgets == db.budgets
    ensures r.0.summaries == Upsert(db.summaries, r.1)
  {
    var spent := TotalSpent(db, userId, month);
    var income := TotalIncome(db, userId, month);
    var text := SummaryTextOf(month, spent, income,
                              TopText(TopCategories(db, userId, month)),
                              OverText(Overspent(db, userId, month)));
    var row := SummaryRow(userId, month, spent, income, text);
    CategorySumsAddUp(db, userId, month);
    SummaryStartsWithMonth(month, spent, income,
                           TopText(TopCategories(db, userId, month)),
                           OverText(Overspent(db, userId, month)));
    UpsertFinds(db.summaries, row, userId, month);
    (db.(summaries := Upsert(db.summaries, row)), row)
  }

  /** On a table with at most one row per key, building a summary stores it
      under its own key as the only row for that key, and leaves every other (user, month) with the rows and the
      row count it had. */
  lemma BuildKeepsOtherSummaries(db: Db, userId: int, month: string, u: int, m: string)
    requires CountKey(db.summaries, u, m) <= 1 && CountKey(db.summaries, userId, month) <= 1
    ensures var s := BuildMonthlySummary(db, userId, month).0.summaries;
            CountKey(s, u, m) <= 1
            && CountKey(s, userId, month) == 1
            && (!(u == userId && m == month) ==>
                  FindSummary(s, u, m) == FindSummary(db.summaries, u, m)
                  && CountKey(s, u, m) == CountKey(db.summaries, u, m))
  {
    var row := BuildMonthlySummary(db, userId, month).1;
    UpsertFinds(db.summaries, row, u, m);
    UpsertKeepsKeysUnique(db.summaries, row, u, m);
    UpsertKeepsKeysUnique(db.summaries, row, userId, month);
  }

  /** The text of a built summary. */
  function SummaryText(db: Db, userId: int, month: string): string
  {
    SummaryTextOf(month, TotalSpent(db, userId, month), TotalIncome(db, userId, month),
                  TopText(TopCategories(db, userId, month)),
                  OverText(Overspent(db, userId, month)))
  }


  // ---------------------------------------------------------------------
  // Facts about the fixed line texts

  lemma LeadsNoBreaks()
    ensures NoBreaks("Summary for ") && NoBreaks(":")
    ensures NoBreaks("- Total expenses: ") && NoBreaks("- Total income: ") && NoBreaks("- Net savings: ")
    ensures NoBreaks("- Top spending categories: ") && NoBreaks("- Budget status: ")
  {
    LeadsNoBreaks1();
    LeadsNoBreaks2();
  }

  lemma LeadsNoBreaks1()
    ensures NoBreaks("Summary for ") && NoBreaks(":")
    ensures NoBreaks("- Total expenses: ") && NoBreaks("- Total income: ")
  {
  }

  lemma LeadsNoBreaks2()
    ensures NoBreaks("- Net savings: ") && NoBreaks("- Top spending categories: ") && NoBreaks("- Budget status: ")
  {
  }

  /** None of the fixed leads holds the 'B' that starts the marker, and the
      ':' after the month is not in the marker. */
  lemma LeadsLackMarker()
    ensures forall j :: 0 <= j < |"Summary for "| ==> "Summary for "[j] != 'B'
    ensures forall j :: 0 <= j < |"- Total expenses: "| ==> "- Total expenses: "[j] != 'B'
    ensures forall j :: 0 <= j < |"- Total income: "| ==> "- Total income: "[j] != 'B'
    ensures forall j :: 0 <= j < |"- Net savings: "| ==> "- Net savings: "[j] != 'B'
    ensures forall j :: 0 <= j < |"- Top spending categories: "| ==> "- Top spending categories: "[j] != 'B'
    ensures forall j :: 0 <= j < |":"| ==> ":"[j] !in BudgetStatus
  {
  }

  lemma MarkerNoBreaks()
    ensures NoBreaks(BudgetStatus)
  {
  }

  lemma MarkerInLastLead()
    ensures Contains("- Budget status: ", BudgetStatus)
  {
    assert "- Budget status: " == "- " + BudgetStatus + ": ";
    ContainsInfix("- ", BudgetStatus, ": ");
  }

  lemma NotInLead(lead: string, part: string)
    requires forall j :: 0 <= j < |lead| ==> lead[j] != 'B'
    requires !Contains(part, BudgetStatus)
    ensures !Contains(lead + part, BudgetStatus)
  {
    assert lead + part == lead + part + "";
    NotAcross(lead, part, "", BudgetStatus);
  }

  lemma Fmt2NoMarker(x: real)
    ensures !Contains(Fmt2(x), BudgetStatus)
  {
    var f := Fmt2(x);
    assert forall j :: 0 <= j < |f| ==> IsNumeralChar(f[j]);
    NoFirstChar(f, BudgetStatus);
  }

  /** A line made of a fixed lead, a part without the budget marker and a
      fixed tail does not mention the budget status. */
  lemma NotInLine(lead: string, part: string, tail: string)
    requires forall j :: 0 <= j < |lead| ==> lead[j] != 'B'
    requires forall j :: 0 <= j < |tail| ==> tail[j] !in BudgetStatus
    requires !Contains(part, BudgetStatus)
    ensures !Contains(lead + part + tail, BudgetStatus)
  {
    NotAcross(lead, part, tail, BudgetStatus);
  }

  // ---------------------------------------------------------------------
  // Question keywords both answerers test for the stored summary

  /** The question asks for the month's summary text. */
  predicate AsksSummary(q: string)
  {
    Contains(q, "summary") || Contains(q, "overview")
  }

  /** The question asks for the net savings. */
  predicate AsksSavings(q: string)
  {
    Contains(q, "saving") || Contains(q, "savings") || Contains(q, "net")
  }

}

=== FILE: text.dfy ===
/** The string operations the Python code relies on, written out for the
    cases it exercises: `str.lower`, `str.strip`, `in`, `startswith`,
    `str.split(sep)`, `str.split()`, `str.splitlines`, `sep.join`, slicing,
    and the `{x:.2f}` / `{n}` formatting of numbers. Case mapping covers the
    ASCII letters; whitespace is Python's `str.isspace` set. */
module Text {
  import opened Common

  /** Python's `str.isspace` characters (also what `\s`, `strip()` and
      `split()` treat as whitespace). */
  predicate IsSpace(c: char)
  {
    c == ' ' || c == '\t' || c == '\n' || c == '\r' || c == '\U{0B}' || c == '\U{0C}'
    || ('\U{1C}' <= c <= '\U{1F}') || c == '\U{85}' || c == '\U{A0}' || c == '\U{1680}'
    || ('\U{2000}' <= c <= '\U{200A}') || c == '\U{2028}' || c == '\U{2029}'
    || c == '\U{202F}' || c == '\U{205F}' || c == '\U{3000}'
  }

  /** The characters `str.splitlines` breaks on. */
  predicate IsLineBreak(c: char)
  {
    c == '\n' || c == '\r' || c == '\U{0B}' || c == '\U{0C}'
    || ('\U{1C}' <= c <= '\U{1E}') || c == '\U{85}' || c == '\U{2028}' || c == '\U{2029}'
  }

  predicate IsDigit(c: char)
  {
    '0' <= c <= '9'
  }

  predicate IsAsciiLetter(c: char)
  {
    ('a' <= c <= 'z') || ('A' <= c <= 'Z')
  }

  /** A regular-expression word character (`\w`). */
  predicate IsWordChar(c: char)
  {
    IsAsciiLetter(c) || IsDigit(c) || c == '_'
  }

  predicate AllDigits(s: string)
  {
    forall i :: 0 <= i < |s| ==> IsDigit(s[i])
  }

  function LowerChar(c: char): (r: char)
    ensures 'A' <= c <= 'Z' ==> r as int == c as int + 32
    ensures !('A' <= c <= 'Z') ==> r == c
    ensures !('A' <= r <= 'Z')
  {
    if 'A' <= c <= 'Z' then (c as int + 32) as char else c
  }

  /** `s.lower()`. */
  function Lower(s: string): (r: string)
    ensures |r| == |s|
    ensures forall i :: 0 <= i < |s| ==> r[i] == LowerChar(s[i])
  {
    seq(|s|, i requires 0 <= i < |s| => LowerChar(s[i]))
  }

  lemma LowerIdempotent(s: string)
    ensures Lower(Lower(s)) == Lower(s)
  {
  }

  lemma LowerConcat(a: string, b: string)
    ensures Lower(a + b) == Lower(a) + Lower(b)
  {
    assert Lower(a + b) == Lower(a) + Lower(b);
  }

  /** Drops leading whitespace (`s.lstrip()`). */
  function TrimStart(s: string): (r: string)
    ensures |r| <= |s| && r == s[|s| - |r|..]
    ensures |r| > 0 ==> !IsSpace(r[0])
    ensures forall i :: 0 <= i < |s| - |r| ==> IsSpace(s[i])
    decreases |s|
  {
    if |s| > 0 && IsSpace(s[0]) then TrimStart(s[1..]) else s
  }

  /** Drops trailing whitespace (`s.rstrip()`). */
  function TrimEnd(s: string): (r: string)
    ensures |r| <= |s| && r == s[..|r|]
    ensures |r| > 0 ==> !IsSpace(r[|r| - 1])
    ensures forall i :: |r| <= i < |s| ==> IsSpace(s[i])
    decreases |s|
  {
    if |s| > 0 && IsSpace(s[|s| - 1]) then TrimEnd(s[..|s| - 1]) else s
  }

  /** `s.strip()`. */
  function Strip(s: string): (r: string)
    ensures |r| <= |s|
    ensures |r| > 0 ==> !IsSpace(r[0]) && !IsSpace(r[|r| - 1])
    ensures (exists i :: 0 <= i < |s| && !IsSpace(s[i])) ==> |r| > 0
  {
    TrimEnd(TrimStart(s))
  }

  predicate StartsWith(s: string, p: string)
  {
    |p| <= |s| && s[..|p|] == p
  }

  predicate EndsWith(s: string, p: string)
  {
    |p| <= |s| && s[|s| - |p|..] == p
  }

  /** Index of the first occurrence of `p` in `s` (`s.find(p)`, None for -1). */
  function IndexOf(s: string, p: string): (r: Option<nat>)
    ensures r.Some? ==> r.value + |p| <= |s| && StartsWith(s[r.value..], p)
    ensures r.Some? ==> forall i :: 0 <= i < r.value ==> !StartsWith(s[i..], p)
    ensures r.None? ==> forall i :: 0 <= i <= |s| ==> !StartsWith(s[i..], p)
    decreases |s|
  {
    if StartsWith(s, p) then Some(0)
    else if |s| == 0 then None
    else
      match IndexOf(s[1..], p)
      case None =>
        assert forall i :: 1 <= i <= |s| ==> s[i..] == s[1..][i - 1..];
        None
      case Some(k) =>
        assert forall i :: 1 <= i <= k ==> s[i..] == s[1..][i - 1..];
        assert s[k + 1..] == s[1..][k..];
        Some(k + 1)
  }

  /** `p in s`. */
  predicate Contains(s: string, p: string)
  {
    IndexOf(s, p).Some?
  }

  lemma ContainsAt(s: string, p: string, i: nat)
    requires i <= |s| && StartsWith(s[i..], p)
    ensures Contains(s, p)
  {
  }

  lemma ContainsWitness(s: string, p: string) returns (i: nat)
    requires Contains(s, p)
    ensures i + |p| <= |s| && s[i..i + |p|] == p
  {
    i := IndexOf(s, p).value;
  }

  lemma ContainsInfix(a: string, p: string, b: string)
    ensures Contains(a + p + b, p)
  {
    assert (a + p + b)[|a|..][..|p|] == p;
    ContainsAt(a + p + b, p, |a|);
  }

  lemma InfixSlice(a: string, p: string, b: string)
    ensures (a + p + b)[|a|..|a| + |p|] == p
  {
  }

  lemma ContainsPrefixOf(s: string, t: string, p: string)
    requires Contains(s, p)
    ensures Contains(s + t, p)
  {
    var i := ContainsWitness(s, p);
    assert (s + t)[i..][..|p|] == s[i..i + |p|];
    ContainsAt(s + t, p, i);
  }

  lemma ContainsSuffixOf(t: string, s: string, p: string)
    requires Contains(s, p)
    ensures Contains(t + s, p)
  {
    var i := ContainsWitness(s, p);
    assert (t + s)[|t| + i..][..|p|] == s[i..i + |p|];
    ContainsAt(t + s, p, |t| + i);
  }

  /** A character of `s` that `p` does not contain rules out every
      occurrence of `p` overlapping it. */
  lemma Blocked(s: string, p: string, j: nat)
    requires j < |s| && s[j] !in p
    ensures forall i :: 0 <= i <= j && j < i + |p| ==> !StartsWith(s[i..], p)
  {
    forall i | 0 <= i <= j && j < i + |p|
      ensures !StartsWith(s[i..], p)
    {
      if |p| <= |s[i..]| {
        assert s[i..][..|p|][j - i] == s[j];
        assert p[j - i] in p;
        assert s[i..][..|p|][j - i] != p[j - i];
      }
    }
  }

  /** Python `s.split(sep)` for a non-empty separator. */
  function Split(s: string, sep: string): (r: seq<string>)
    requires |sep| > 0
    ensures |r| >= 1
    ensures IndexOf(s, sep).None? ==> r == [s]
    decreases |s|
  {
    match IndexOf(s, sep)
    case None => [s]
    case Some(k) => [s[..k]] + Split(s[k + |sep|..], sep)
  }

  /** The part of `s` before the first occurrence of `sep`, or all of `s`
      (`s.split(sep)[0]`). */
  function BeforeFirst(s: string, sep: string): (r: string)
    requires |sep| > 0
    ensures r == Split(s, sep)[0]
    ensures StartsWith(s, r)
    ensures !Contains(r, sep)
  {
    match IndexOf(s, sep)
    case None => s
    case Some(k) =>
      PrefixBeforeFirst(s, sep, k);
      s[..k]
  }

  lemma PrefixBeforeFirst(s: string, sep: string, k: nat)
    requires |sep| > 0 && k <= |s|
    requires forall i :: 0 <= i < k ==> !StartsWith(s[i..], sep)
    ensures !Contains(s[..k], sep)
  {
    forall i | 0 <= i <= k
      ensures !StartsWith(s[..k][i..], sep)
    {
      if i + |sep| <= k {
        assert s[..k][i..][..|sep|] == s[i..][..|sep|];
      }
    }
  }

  /** A string none of whose characters is `c` does not contain `[c]`. */
  lemma AbsentChar(s: string, c: char)
    requires forall i :: 0 <= i < |s| ==> s[i] != c
    ensures !Contains(s, [c])
  {
    forall i | 0 <= i <= |s|
      ensures !StartsWith(s[i..], [c])
    {
      if i < |s| {
        assert s[i..][..1][0] == s[i];
      }
    }
  }

  /** Index of the first line break, or |s| when there is none. */
  function LineEnd(s: string): (k: nat)
    ensures k <= |s|
    ensures k < |s| ==> IsLineBreak(s[k])
    decreases |s|
  {
    if |s| == 0 || IsLineBreak(s[0]) then 0 else 1 + LineEnd(s[1..])
  }

  /** No break comes before the first one. */
  lemma {:induction false} BeforeLineEnd(s: string, i: nat)
    requires i < LineEnd(s)
    ensures !IsLineBreak(s[i])
    decreases |s|
  {
    if i > 0 {
      BeforeLineEnd(s[1..], i - 1);
    }
  }

  /** Python `s.splitlines()`: "\r\n" counts as one break and a trailing
      break does not start an empty line. */
  function SplitLines(s: string): (r: seq<string>)
    ensures |s| == 0 <==> r == []
    decreases |s|
  {
    if |s| == 0 then []
    else if LineEnd(s) == |s| then [s]
    else [FirstLine(s)] + SplitLines(AfterBreak(s))
  }

  /** The text before the first line break. */
  function FirstLine(s: string): (r: string)
    ensures |r| <= |s|
  {
    s[..LineEnd(s)]
  }

  /** The text after the first line break. */
  function AfterBreak(s: string): (r: string)
    requires LineEnd(s) < |s|
    ensures |r| < |s|
  {
    s[LineEnd(s) + BreakWidth(s, LineEnd(s))..]
  }

  /** Width of the line break at `k`: two for "\r\n", else one. */
  function BreakWidth(s: string, k: nat): (w: nat)
    requires k < |s|
    ensures k + w <= |s| && 1 <= w <= 2
  {
    if s[k] == '\r' && k + 1 < |s| && s[k + 1] == '\n' then 2 else 1
  }

  lemma SplitLinesUnfold(s: string)
    requires LineEnd(s) < |s|
    ensures SplitLines(s) == [FirstLine(s)] + SplitLines(AfterBreak(s))
  {
  }

  lemma {:induction false} LineEndPrefix(x: string, y: string)
    requires LineEnd(x) < |x|
    ensures LineEnd(x + y) == LineEnd(x)
    decreases |x|
  {
    if !IsLineBreak(x[0]) {
      assert (x + y)[1..] == x[1..] + y;
      LineEndPrefix(x[1..], y);
    }
  }

  /** A line break that is not a carriage return splits cleanly: the lines of
      `a + [c] + b` are those of `a + [c]` followed by those of `b`. */
  lemma {:induction false} SplitLinesAt(a: string, c: char, b: string)
    requires IsLineBreak(c) && c != '\r'
    requires |a| == 0 || a[|a| - 1] != '\r'
    ensures SplitLines(a + [c] + b) == SplitLines(a + [c]) + SplitLines(b)
    decreases |a|
  {
    var x := a + [c];
    var s := x + b;
    assert a + [c] + b == s;
    assert x[|a|] == c;
    LineEndAtMost(x, |a|);
    LineEndPrefix(x, b);
    if LineEnd(x) == |a| {
      FirstBreakAtEnd(a, c, b);
    } else {
      SplitLinesAfterEarlierBreak(a, c, b);
    }
  }

  /** The inductive step of `SplitLinesAt`: the first break lies inside `a`. */
  lemma {:induction false} SplitLinesAfterEarlierBreak(a: string, c: char, b: string)
    requires IsLineBreak(c) && c != '\r'
    requires |a| == 0 || a[|a| - 1] != '\r'
    requires LineEnd(a + [c]) < |a| && LineEnd(a + [c] + b) == LineEnd(a + [c])
    ensures SplitLines(a + [c] + b) == SplitLines(a + [c]) + SplitLines(b)
    decreases |a|, 0
  {
    var a', head := EarlierBreakLines(a, c, b);
    SplitLinesAt(a', c, b);
    ConcatAssoc(head, SplitLines(a' + [c]), SplitLines(b));
  }

  lemma ConcatAssoc<T>(x: seq<T>, y: seq<T>, z: seq<T>)
    ensures x + (y + z) == (x + y) + z
  {
  }

  /** Both `a + [c] + b` and `a + [c]` start with the same line and continue
      with `a' + [c]` after the first break inside `a`. */
  lemma EarlierBreakLines(a: string, c: char, b: string) returns (a': string, head: seq<string>)
    requires c != '\r'
    requires |a| == 0 || a[|a| - 1] != '\r'
    requires LineEnd(a + [c]) < |a| && LineEnd(a + [c] + b) == LineEnd(a + [c])
    ensures |a'| < |a| && (|a'| == 0 || a'[|a'| - 1] != '\r')
    ensures SplitLines(a + [c] + b) == head + SplitLines(a' + [c] + b)
    ensures SplitLines(a + [c]) == head + SplitLines(a' + [c])
  {
    var x := a + [c];
    var s := a + [c] + b;
    var k := LineEnd(x);
    SameBreakWidth(a, c, b, k);
    var w := BreakWidth(x, k);
    a' := a[k + w..];
    head := [FirstLine(x)];
    SlicesOfExtension(a, c, b, k, k + w);
    assert AfterBreak(s) == a' + [c] + b;
    assert AfterBreak(x) == a' + [c];
    assert FirstLine(s) == FirstLine(x);
    SplitLinesUnfold(s);
    SplitLinesUnfold(x);
  }

  /** Slices of `a + [c] + b` and `a + [c]` that start or end inside `a`. */
  lemma SlicesOfExtension(a: string, c: char, b: string, k: nat, n: nat)
    requires k <= n <= |a|
    ensures (a + [c] + b)[n..] == a[n..] + [c] + b && (a + [c])[n..] == a[n..] + [c]
    ensures (a + [c] + b)[..k] == (a + [c])[..k] == a[..k]
  {
  }

  /** A line break at `i` bounds the first one. */
  lemma {:induction false} LineEndAtMost(s: string, i: nat)
    requires i < |s| && IsLineBreak(s[i])
    ensures LineEnd(s) <= i
    decreases |s|
  {
    if i > 0 && !IsLineBreak(s[0]) {
      LineEndAtMost(s[1..], i - 1);
    }
  }

  /** No line holds a line break. */
  lemma {:induction false} SplitLinesHaveNoBreaks(s: string, i: nat, j: nat)
    requires i < |SplitLines(s)| && j < |SplitLines(s)[i]|
    ensures !IsLineBreak(SplitLines(s)[i][j])
    decreases |s|
  {
    if LineEnd(s) < |s| {
      SplitLinesUnfold(s);
      if i > 0 {
        SplitLinesHaveNoBreaks(AfterBreak(s), i - 1, j);
      } else {
        BeforeLineEnd(s, j);
      }
    } else {
      BeforeLineEnd(s, j);
    }
  }

  /** When the first break of `a + [c] + b` is `c` itself. */
  lemma FirstBreakAtEnd(a: string, c: char, b: string)
    requires IsLineBreak(c) && c != '\r'
    requires LineEnd(a + [c]) == |a| && LineEnd(a + [c] + b) == |a|
    ensures SplitLines(a + [c] + b) == [a] + SplitLines(b)
    ensures SplitLines(a + [c]) == [a]
  {
    var x := a + [c];
    var s := a + [c] + b;
    assert FirstLine(s) == a && FirstLine(x) == a;
    assert BreakWidth(s, |a|) == 1 && BreakWidth(x, |a|) == 1;
    assert AfterBreak(s) == b;
    assert AfterBreak(x) == [];
    SplitLinesUnfold(s);
    SplitLinesUnfold(x);
  }

  lemma SameBreakWidth(a: string, c: char, b: string, k: nat)
    requires c != '\r' && k < |a|
    requires a[|a| - 1] != '\r'
    ensures BreakWidth(a + [c] + b, k) == BreakWidth(a + [c], k)
    ensures k + BreakWidth(a + [c], k) <= |a|
  {
    var x := a + [c];
    var s := a + [c] + b;
    assert s[k] == x[k] == a[k];
    assert s[k + 1] == x[k + 1];
  }

  /** No character of `s` is a line break. */
  predicate NoBreaks(s: string)
  {
    forall j :: 0 <= j < |s| ==> !IsLineBreak(s[j])
  }

  /** A break-free start is skipped whole by the search for a break. */
  lemma {:induction false} LineEndAfterBreakFree(a: string, t: string)
    requires NoBreaks(a)
    ensures LineEnd(a + t) == |a| + LineEnd(t)
    decreases |a|
  {
    if |a| > 0 {
      assert (a + t)[1..] == a[1..] + t;
      LineEndAfterBreakFree(a[1..], t);
    } else {
      assert a + t == t;
    }
  }

  /** Lines joined with "\n" split back into themselves, provided none
      holds a break and the last is not empty. */
  lemma {:induction false} SplitJoinedLines(lines: seq<string>)
    requires |lines| >= 1 && |lines[|lines| - 1]| > 0
    requires forall i :: 0 <= i < |lines| ==> NoBreaks(lines[i])
    ensures SplitLines(Join(lines, "\n")) == lines
    decreases |lines|
  {
    var a := lines[0];
    if |lines| == 1 {
      LineEndAfterBreakFree(a, []);
      assert a + [] == a;
    } else {
      var tail := lines[1..];
      assert tail[|tail| - 1] == lines[|lines| - 1];
      assert forall i :: 0 <= i < |tail| ==> tail[i] == lines[i + 1];
      var rest := Join(tail, "\n");
      assert Join(lines, "\n") == a + "\n" + rest;
      SplitAfterFreeLine(a, rest);
      SplitJoinedLines(tail);
      assert lines == [a] + tail;
    }
  }

  /** A break-free line followed by "\n" splits off as the first line. */
  lemma SplitAfterFreeLine(a: string, rest: string)
    requires NoBreaks(a)
    ensures SplitLines(a + ['\n'] + rest) == [a] + SplitLines(rest)
  {
    LineEndAfterBreakFree(a, ['\n']);
    LineEndAfterBreakFree(a, ['\n'] + rest);
    assert a + ['\n'] + rest == a + (['\n'] + rest);
    FirstBreakAtEnd(a, '\n', rest);
  }

  /** An occurrence of a break-free `p` lies within one line. */
  lemma {:induction false} OccurrenceInSomeLine(s: string, p: string, i: nat)
    requires |p| > 0 && NoBreaks(p)
    requires i + |p| <= |s| && s[i..i + |p|] == p
    ensures exists k :: 0 <= k < |SplitLines(s)| && Contains(SplitLines(s)[k], p)
    decreases |s|
  {
    var e := LineEnd(s);
    if i + |p| <= e {
      OccurrenceInFirstLine(s, p, i);
    } else {
      var t, i' := OccurrenceAfterBreak(s, p, i);
      OccurrenceInSomeLine(t, p, i');
      var k :| 0 <= k < |SplitLines(t)| && Contains(SplitLines(t)[k], p);
      assert SplitLines(s)[k + 1] == SplitLines(t)[k];
    }
  }

  lemma OccurrenceInFirstLine(s: string, p: string, i: nat)
    requires |p| > 0 && i + |p| <= LineEnd(s) && s[i..i + |p|] == p
    ensures |SplitLines(s)| > 0 && SplitLines(s)[0] == FirstLine(s) && Contains(FirstLine(s), p)
  {
    if LineEnd(s) < |s| { SplitLinesUnfold(s); }
    else { assert FirstLine(s) == s; }
    assert FirstLine(s)[i..][..|p|] == p;
    ContainsAt(FirstLine(s), p, i);
  }

  /** An occurrence of a break-free `p` that does not end before the first
      break starts after it. */
  lemma OccurrenceAfterBreak(s: string, p: string, i: nat) returns (t: string, i': nat)
    requires |p| > 0 && NoBreaks(p)
    requires i + |p| <= |s| && s[i..i + |p|] == p && i + |p| > LineEnd(s)
    ensures LineEnd(s) < |s| && t == AfterBreak(s) && SplitLines(s) == [FirstLine(s)] + SplitLines(t)
    ensures i' + |p| <= |t| && t[i'..i' + |p|] == p
  {
    var e := LineEnd(s);
    var w := BreakWidth(s, e);
    OccurrencePastBreak(s, p, i);
    t := AfterBreak(s);
    i' := i - (e + w);
    assert t[i'..i' + |p|] == s[i..i + |p|];
    SplitLinesUnfold(s);
  }

  /** A break-free `p` reaching past the first break starts after it. */
  lemma OccurrencePastBreak(s: string, p: string, i: nat)
    requires |p| > 0 && NoBreaks(p)
    requires i + |p| <= |s| && s[i..i + |p|] == p && i + |p| > LineEnd(s)
    ensures LineEnd(s) < |s| && i >= LineEnd(s) + BreakWidth(s, LineEnd(s))
  {
    var e := LineEnd(s);
    assert e < |s|;
    BreakOutsideOccurrence(s, p, i, e);
    if BreakWidth(s, e) == 2 {
      BreakOutsideOccurrence(s, p, i, e + 1);
    }
  }

  /** A line break of `s` lies outside every occurrence of a break-free `p`. */
  lemma BreakOutsideOccurrence(s: string, p: string, i: nat, k: nat)
    requires NoBreaks(p) && i + |p| <= |s| && s[i..i + |p|] == p
    requires k < |s| && IsLineBreak(s[k])
    ensures k < i || k >= i + |p|
  {
    CharOfOccurrence(s, p, i, k);
  }

  /** A character inside an occurrence is the pattern's character. */
  lemma CharOfOccurrence(s: string, p: string, i: nat, k: nat)
    requires i + |p| <= |s| && s[i..i + |p|] == p
    ensures i <= k < i + |p| ==> s[k] == p[k - i]
  {
    if i <= k < i + |p| {
      assert s[i..i + |p|][k - i] == s[k];
    }
  }

  /** `next((ln for ln in lines if p in ln), None)`. */
  function FirstWith(lines: seq<string>, p: string): (r: Option<string>)
    ensures r.None? <==> forall k :: 0 <= k < |lines| ==> !Contains(lines[k], p)
    ensures r.Some? ==> exists k :: (0 <= k < |lines| && lines[k] == r.value && Contains(r.value, p)
                                     && forall j :: 0 <= j < k ==> !Contains(lines[j], p))
    decreases |lines|
  {
    if |lines| == 0 then None
    else if Contains(lines[0], p) then Some(lines[0])
    else
      var r := FirstWith(lines[1..], p);
      if r.Some? then
        var k :| 0 <= k < |lines[1..]| && lines[1..][k] == r.value && Contains(r.value, p)
                 && forall j :: 0 <= j < k ==> !Contains(lines[1..][j], p);
        assert lines[k + 1] == r.value;
        assert forall j :: 0 <= j < k + 1 ==> !Contains(lines[j], p) by {
          forall j | 0 <= j < k + 1 ensures !Contains(lines[j], p) {
            if j > 0 { assert lines[j] == lines[1..][j - 1]; }
          }
        }
        r
      else
        assert forall k :: 0 <= k < |lines| ==> !Contains(lines[k], p) by {
          forall k | 0 <= k < |lines| ensures !Contains(lines[k], p) {
            if k > 0 { assert lines[k] == lines[1..][k - 1]; }
          }
        }
        r
  }

  /** The first line holding `p` is what the search returns. */
  lemma FirstWithAt(lines: seq<string>, p: string, k: nat)
    requires k < |lines| && Contains(lines[k], p)
    requires forall j :: 0 <= j < k ==> !Contains(lines[j], p)
    ensures FirstWith(lines, p) == Some(lines[k])
  {
    var r := FirstWith(lines, p);
    var k' :| 0 <= k' < |lines| && lines[k'] == r.value && Contains(r.value, p)
              && forall j :: 0 <= j < k' ==> !Contains(lines[j], p);
    assert k' == k;
  }

  /** `sep.join(parts)`. */
  function Join(parts: seq<string>, sep: string): (r: string)
    ensures |parts| == 1 ==> r == parts[0]
    decreases |parts|
  {
    if |parts| == 0 then ""
    else if |parts| == 1 then parts[0]
    else parts[0] + sep + Join(parts[1..], sep)
  }

  /** Appending a part appends the separator and the part. */
  lemma {:induction false} JoinSnoc(parts: seq<string>, last: string, sep: string)
    requires |parts| > 0
    ensures Join(parts + [last], sep) == Join(parts, sep) + sep + last
    decreases |parts|
  {
    if |parts| == 1 {
      assert (parts + [last])[1..] == [last];
    } else {
      assert (parts + [last])[1..] == parts[1..] + [last];
      JoinSnoc(parts[1..], last, sep);
    }
  }

  /** The joined text starts with the first part. */
  lemma JoinStartsWithFirst(parts: seq<string>, sep: string)
    requires |parts| > 0
    ensures StartsWith(Join(parts, sep), parts[0])
  {
    if |parts| > 1 {
      assert Join(parts, sep) == parts[0] + (sep + Join(parts[1..], sep));
    }
  }

  /** Whatever the first part contains, the joined text contains. */
  lemma JoinContainsFirst(parts: seq<string>, sep: string, p: string)
    requires |parts| > 0 && Contains(parts[0], p)
    ensures Contains(Join(parts, sep), p)
  {
    if |parts| > 1 {
      assert Join(parts, sep) == parts[0] + (sep + Join(parts[1..], sep));
      ContainsPrefixOf(parts[0], sep + Join(parts[1..], sep), p);
    }
  }

  lemma NoBreaksConcat(a: string, b: string)
    requires NoBreaks(a) && NoBreaks(b)
    ensures NoBreaks(a + b)
  {
  }

  /** A string without the first character of `p` cannot contain `p`. */
  lemma NoFirstChar(s: string, p: string)
    requires |p| > 0 && forall j :: 0 <= j < |s| ==> s[j] != p[0]
    ensures !Contains(s, p)
  {
    forall i | 0 <= i <= |s|
      ensures !StartsWith(s[i..], p)
    {
      if i < |s| {
        assert s[i..][0] == s[i];
      }
    }
  }

  /** `p` is not in `a + m + b` when `a` lacks its first character, `m`
      does not contain it and no character of `b` occurs in it. */
  lemma NotAcross(a: string, m: string, b: string, p: string)
    requires |p| > 0
    requires forall j :: 0 <= j < |a| ==> a[j] != p[0]
    requires !Contains(m, p)
    requires forall j :: 0 <= j < |b| ==> b[j] !in p
    ensures !Contains(a + m + b, p)
  {
    var s := a + m + b;
    if |b| > 0 {
      assert s[|a| + |m|] == b[0];
      Blocked(s, p, |a| + |m|);
    }
    forall i | 0 <= i <= |s|
      ensures !StartsWith(s[i..], p)
    {
      if i < |a| {
        assert s[i..][0] == a[i];
      } else if i + |p| <= |a| + |m| {
        assert s[i..][..|p|] == m[i - |a|..][..|p|];
      } else if i + |p| > |s| {
        assert |s[i..]| < |p|;
      } else if i > |a| + |m| {
        assert s[i..][0] == b[i - |a| - |m|];
      }
    }
  }

  /** No character of `s` is `c`. */
  predicate Lacks(s: string, c: char)
  {
    forall j :: 0 <= j < |s| ==> s[j] != c
  }

  /** `e` never directly follows `c` in `t`. */
  predicate NoPair(t: string, c: char, e: char)
  {
    forall j :: 1 <= j < |t| && t[j] == e ==> t[j - 1] != c
  }

  /** Gluing two strings with one `e` keeps `c e` out when the left part
      does not end in `c`. */
  lemma NoPairGlue(a: string, b: string, c: char, e: char)
    requires NoPair(a, c, e) && NoPair(b, c, e) && c != e
    requires |a| > 0 && a[|a| - 1] != c
    ensures NoPair(a + [e] + b, c, e)
  {
    var t := a + [e] + b;
    forall j | 1 <= j < |t| && t[j] == e
      ensures t[j - 1] != c
    {
      if j > |a| + 1 {
        assert t[j] == b[j - |a| - 1] && t[j - 1] == b[j - |a| - 2];
      } else if j < |a| {
        assert t[j] == a[j] && t[j - 1] == a[j - 1];
      }
    }
  }

  /** A marker ending in `c e` is absent where that pair never occurs. */
  lemma NoPairAbsent(t: string, m: string)
    requires |m| >= 2 && NoPair(t, m[|m| - 2], m[|m| - 1])
    ensures !Contains(t, m)
  {
    forall i | 0 <= i <= |t|
      ensures !StartsWith(t[i..], m)
    {
      if i + |m| <= |t| {
        var w := t[i..][..|m|];
        assert w[|m| - 1] == t[i + |m| - 1] && w[|m| - 2] == t[i + |m| - 2];
      }
    }
  }

  /** The first occurrence of `m` in `pre + m + post` is the visible one when
      no occurrence starts inside `pre`. */
  lemma FirstOccurrence(pre: string, m: string, post: string)
    requires |m| > 0 && !Contains(pre + m[..|m| - 1], m)
    ensures IndexOf(pre + m + post, m) == Some(|pre|)
  {
    var s := pre + m + post;
    var t := pre + m[..|m| - 1];
    assert s[|pre|..][..|m|] == m;
    forall i | 0 <= i < |pre|
      ensures !StartsWith(s[i..], m)
    {
      assert !StartsWith(t[i..], m);
      assert s[i..][..|m|] == t[i..][..|m|];
    }
    IndexOfAt(s, m, |pre|);
  }

  /** An occurrence with none before it is the one `IndexOf` finds. */
  lemma IndexOfAt(s: string, p: string, k: nat)
    requires k <= |s| && StartsWith(s[k..], p)
    requires forall i :: 0 <= i < k ==> !StartsWith(s[i..], p)
    ensures IndexOf(s, p) == Some(k)
  {
    var r := IndexOf(s, p);
    assert r.Some?;
    assert !(r.value < k);
    assert !(k < r.value);
  }

  /** `s.split(marker)[1]`: the text after the first `marker` up to the next
      one; None where Python raises IndexError (no `marker` at all). */
  function AfterMarker(s: string, marker: string): (r: Option<string>)
    requires |marker| > 0
    ensures r.None? <==> !Contains(s, marker)
    ensures r.Some? ==> !Contains(r.value, marker)
  {
    match IndexOf(s, marker)
    case None => None
    case Some(k) => Some(BeforeFirst(s[k + |marker|..], marker))
  }

  /** `AfterMarker` is the second part of Python's split, which exists
      exactly when the marker occurs. */
  lemma AfterMarkerIsSecondPart(s: string, marker: string)
    requires |marker| > 0
    ensures |Split(s, marker)| >= 2 <==> Contains(s, marker)
    ensures Contains(s, marker) ==> Some(Split(s, marker)[1]) == AfterMarker(s, marker)
  {
  }

  /** Text after the first visible marker, when nothing before it spells
      the marker. */
  lemma AfterMarkerAt(pre: string, m: string, post: string)
    requires |m| > 0 && !Contains(pre + m[..|m| - 1], m)
    ensures AfterMarker(pre + m + post, m) == Some(BeforeFirst(post, m))
  {
    var s := pre + m + post;
    FirstOccurrence(pre, m, post);
    assert s[|pre| + |m|..] == post;
  }

  /** `s.split(marker)[1].split(",")[0]`. */
  function CommaField(s: string, marker: string): (r: Option<string>)
    requires |marker| > 0
    ensures r.None? <==> !Contains(s, marker)
    ensures r.Some? ==> !Contains(r.value, ",") && !Contains(r.value, marker)
  {
    match AfterMarker(s, marker)
    case None => None
    case Some(rest) =>
      var v := BeforeFirst(rest, ",");
      NotInPrefix(rest, v, marker);
      Some(v)
  }

  /** A prefix of a string without `p` is without `p`. */
  lemma NotInPrefix(s: string, v: string, p: string)
    requires StartsWith(s, v) && !Contains(s, p)
    ensures !Contains(v, p)
  {
    if Contains(v, p) {
      assert s == v + s[|v|..];
      ContainsPrefixOf(v, s[|v|..], p);
    }
  }

  /** `s.split(marker)[1].split()[0]`; None where Python raises IndexError
      (no marker, or only whitespace after it). */
  function WordField(s: string, marker: string): (r: Option<string>)
    requires |marker| > 0
    ensures r.Some? ==> |r.value| > 0 && NoSpace(r.value)
    ensures !Contains(s, marker) ==> r.None?
  {
    match AfterMarker(s, marker)
    case None => None
    case Some(rest) =>
      var ws := Words(rest);
      if |ws| == 0 then None else Some(ws[0])
  }

  /** A value followed by a comma is what the comma split keeps. */
  lemma BeforeComma(v: string, post: string)
    requires Lacks(v, ',')
    ensures BeforeFirst(v + "," + post, ",") == v
  {
    AbsentChar(v, ',');
    assert ","[..0] == "";
    assert v + ","[..0] == v;
    FirstOccurrence(v, ",", post);
    assert (v + "," + post)[..|v|] == v;
  }

  /** Python `s.split()`: the maximal runs of non-whitespace characters. */
  function Words(s: string): (r: seq<string>)
    ensures forall i :: 0 <= i < |r| ==> |r[i]| > 0 && NoSpace(r[i])
    decreases |s|
  {
    if |s| == 0 then []
    else if IsSpace(s[0]) then Words(s[1..])
    else
      var n := WordEnd(s);
      [s[..n]] + Words(s[n..])
  }

  predicate NoSpace(s: string)
  {
    forall i :: 0 <= i < |s| ==> !IsSpace(s[i])
  }

  /** Length of the leading run of non-whitespace characters. */
  function WordEnd(s: string): (n: nat)
    ensures n <= |s|
    ensures forall i :: 0 <= i < n ==> !IsSpace(s[i])
    ensures n < |s| ==> IsSpace(s[n])
    decreases |s|
  {
    if |s| == 0 || IsSpace(s[0]) then 0 else 1 + WordEnd(s[1..])
  }

  lemma WordsOfWord(w: string)
    requires |w| > 0 && NoSpace(w)
    ensures Words(w) == [w]
  {
    assert WordEnd(w) == |w|;
    assert w[..|w|] == w;
    assert w[|w|..] == "";
  }

  function DigitChar(d: nat): (c: char)
    requires d < 10
    ensures IsDigit(c)
    ensures c as int - '0' as int == d
  {
    (d + '0' as int) as char
  }

  /** Decimal rendering of a natural number (`str(n)`). */
  function NatToString(n: nat): (r: string)
    ensures |r| > 0 && AllDigits(r)
    decreases n
  {
    if n < 10 then [DigitChar(n)] else NatToString(n / 10) + [DigitChar(n % 10)]
  }

  /** The value a string of decimal digits denotes (`int(s)`). */
  function DigitsValue(s: string): nat
    requires AllDigits(s)
    decreases |s|
  {
    if |s| == 0 then 0
    else DigitsValue(s[..|s| - 1]) * 10 + (s[|s| - 1] as int - '0' as int)
  }

  /** Rendering then reading a natural number gives it back. */
  lemma {:induction false} NatToStringRoundTrip(n: nat)
    ensures DigitsValue(NatToString(n)) == n
    decreases n
  {
    var s := NatToString(n);
    if n >= 10 {
      NatToStringRoundTrip(n / 10);
      assert s[..|s| - 1] == NatToString(n / 10);
    }
  }

  /** `str(i)` / `f"{i}"` for an integer. */
  function IntToString(i: int): (r: string)
    ensures |r| > 0
    ensures forall k :: 0 <= k < |r| ==> IsDigit(r[k]) || r[k] == '-'
  {
    if i < 0 then "-" + NatToString(-i) else NatToString(i)
  }

  predicate IsNumeralChar(c: char)
  {
    IsDigit(c) || c == '-' || c == '.'
  }

  /** `f"{x:.2f}"`: optional minus sign, integer part, '.', two decimals,
      rounding half away from zero on the exact value. */
  function Fmt2(x: real): (r: string)
    ensures |r| >= 4
    ensures forall i :: 0 <= i < |r| ==> IsNumeralChar(r[i])
    ensures r[|r| - 3] == '.'
    ensures (r[0] == '-') <==> x < 0.0
  {
    var cents := (Abs(x) * 100.0 + 0.5).Floor;
    assert cents >= 0;
    var sign := if x < 0.0 then "-" else "";
    var whole := NatToString(cents / 100);
    sign + whole + "." + [DigitChar(cents % 100 / 10), DigitChar(cents % 10)]
  }

  lemma Fmt2NoBreaks(x: real)
    ensures NoBreaks(Fmt2(x))
  {
    var f := Fmt2(x);
    assert forall j :: 0 <= j < |f| ==> IsNumeralChar(f[j]);
  }

  lemma Fmt2NoSeparators(x: real)
    ensures !Contains(Fmt2(x), ",")
    ensures NoSpace(Fmt2(x))
  {
    AbsentChar(Fmt2(x), ',');
  }
}
